=== FILE: README.md ===
# helper_bot, modelled in Dafny

helper_bot is a console assistant with three features, each reached by a
feature name followed by a command word:

- `files sort <path>`: tidies a folder. Every file gets a transliterated, sanitised
  name and is moved into `images`, `video`, `documents`, `audio` or `archives`
  by its suffix. Archives are unpacked there. Directories left empty are removed.
- `notes make|change|remove|show|search`: a notebook of titled notes with
  text, tags and a creation date.
- `contacts add|change|remove|show|birthdays|search`: an address book of
  contacts with phones, email, birthday and address. It can list the contacts
  whose next birthday falls within a number of days.

The run loop reads a line and splits it into words. It lower-cases the first
word, picks the feature by that name, and hands it the second word as the
command and the rest as arguments. `TypeError`, `KeyError` and `ValueError`
become text. Any other exception ends the loop.

The model is a set of pure functions over immutable data:

- **Filesystem.** An immutable tree (`Tree`, `Files`). A directory is its
  listing in order, with distinct names.
- **Console.** A queue of input lines and the lines printed (`Console`).
- **Exceptions.** A datatype (`Errors`). Each Python call returns `Return(v)`
  or `Raise(e)`.
- **Sorter steps.** A step that fails partway keeps what it already did,
  because Python performs the filesystem calls one by one.
- **Dictionaries.** A `RecordsContainer` dictionary is a sequence of
  key/record items in insertion order (`Records`).
- **Host parameters.** The Unicode character tables (`\w`, `\d`, `str.isdigit`,
  whitespace, `str.isprintable`, `str.lower`, digit values), the clock and
  `strptime`, and the archive extractor are parameters. The lemmas assume
  only that they behave like ASCII on ASCII, and that the extractor produces
  a well-formed tree.

Modules follow the program:

| module | models |
|---|---|
| `Names`, `Categories`, `Sorter` | the transliteration, category and walk of sorter.py |
| `SorterShape`, `SorterProperties` | what the walk guarantees |
| `Files` | files.py |
| `Records` | records_container.py |
| `Patterns`, `ContactFields`, `AddressBook` | addressbook_fields.py and addressbook.py |
| `Notebook` | notebook.py |
| `Feature` | bot_feature.py |
| `AssistantBot` | bot.py |
| `App` | main.py |
| `Text`, `Dates`, `Errors`, `Console` | the Python built-ins they rely on |

### Behaviour of the code worth knowing

- **Name normalisation is not idempotent.**
  `ъ.txt` normalises to `.txt`, because the hard sign transliterates to
  nothing. `pathlib` reads `.txt` as a stem with no suffix, so a second pass
  gives `_txt` (`Names.NormalizeNotIdempotent`). Idempotence holds whenever
  the cleaned stem is not empty (`Names.NormalizeIdempotent`).
- **Two sorts in a row can therefore differ.** The second sort renames a file
  that the first one left at such a name.
- **The title check looks only at the first two characters.** It is written
  as a 2-to-30 character limit, but `re.match` with `{2,30}` and no anchor
  accepts any title whose first two characters are in the class.
- **`str.isdigit` accepts more than `int` does.** A period such as `²` passes
  the `isdigit` check, and then `int(period)` raises `ValueError` once a
  contact with a birthday is reached. With no birthdays saved the "no one" text
  comes back (`AddressBook.IntRefused`).
- **The birthday countdown is 1 to 365 days, or "0" on the day itself.**
- **A 29 February birthday makes the countdown raise `ValueError`.** This
  happens in a year that is not a leap year, and also when the next birthday
  would fall in a year that is not a leap year.

## Model

| member | source | states |
|---|---|---|
| Names.TableFromTuples | helper_bot/helper_bot/features/sorter.py:15-20 | each lower-case Cyrillic letter maps to its Latin string, and its upper-case form maps to the capitalised Latin string |
| Names.OtherCharactersKept | helper_bot/helper_bot/features/sorter.py:13-20 | a character that is neither a listed Cyrillic letter nor its upper-case form has no replacement |
| Names.LatinLetters | helper_bot/helper_bot/features/sorter.py:9-11 | every Latin alternative is made of ASCII letters (the hard and soft signs map to the empty string) |
| Names.TableShape | helper_bot/helper_bot/features/sorter.py:13-20 | only non-ASCII characters have a replacement, and each replacement is ASCII letters |
| Names.AsciiNotInTable | helper_bot/helper_bot/features/sorter.py:13-20 | ASCII characters are never transliterated |
| Names.LowerIndexOf | helper_bot/helper_bot/features/sorter.py:6-8 | looking up a listed lower-case Cyrillic letter finds its own position in the tuple |
| Names.UpperIndexOf | helper_bot/helper_bot/features/sorter.py:20 | looking up the upper-case form of a listed letter finds that letter's position |
| Names.UpperIsNotLower | helper_bot/helper_bot/features/sorter.py:19-20 | no upper-case form collides with a lower-case entry of the table |
| Names.TransliterateLeavesNoKeys | helper_bot/helper_bot/features/sorter.py:44 | after `translate` no character of the result is a key of the table |
| Names.TransliterateKeeps | helper_bot/helper_bot/features/sorter.py:44 | `translate` leaves a string without table keys unchanged |
| Names.Sanitize | helper_bot/helper_bot/features/sorter.py:46 | `re.sub(r"\W", "_", s)` keeps the length and replaces exactly the non-word characters by `_` |
| Names.Normalize | helper_bot/helper_bot/features/sorter.py:35-47 | the normalised name is as long as the transliterated stem plus the suffix, and ends with the original suffix |
| Names.LastDot | helper_bot/helper_bot/features/sorter.py:42-43 | finds the last `.` of a name, or reports that there is none |
| Names.StemSuffix | helper_bot/helper_bot/features/sorter.py:42-47 | `Path(name).stem + Path(name).suffix == name`; a suffix is a dot followed by at least one dot-free character, and its stem is not empty |
| Names.SuffixDots | helper_bot/helper_bot/features/sorter.py:47 | a suffix holds exactly one dot, or is empty |
| Names.NormalizeShape | helper_bot/helper_bot/features/sorter.py:35-47 | `normalized_name` ends with the original suffix; what precedes it is word characters only, without a dot |
| Names.NormalizedParts | helper_bot/helper_bot/features/sorter.py:35-47 | with a non-empty cleaned stem, the normalised name's stem and suffix are the cleaned stem and the original suffix |
| Names.CleanStemIsFixed | helper_bot/helper_bot/features/sorter.py:44-46 | transliterating and sanitising a cleaned stem again changes nothing |
| Names.NormalizeIdempotent | helper_bot/helper_bot/features/sorter.py:35-47 | normalising twice equals normalising once, whenever the cleaned stem is not empty |
| Names.NormalizeNotIdempotent | helper_bot/helper_bot/features/sorter.py:35-47 | `ъ.txt` normalises to `.txt`, and `.txt` normalises to `_txt`: the function is not idempotent in general |
| Names.VanishingStem | helper_bot/helper_bot/features/sorter.py:43-47 | a stem made only of the hard sign vanishes, leaving the bare extension |
| Names.NormalizeJoined | helper_bot/helper_bot/features/sorter.py:35-47 | for a non-empty stem and one extension, the result is the transliterated, sanitised stem followed by the unchanged extension |
| Names.NormalizeCyrillic | helper_bot/helper_bot/features/sorter.py:35-47 | `отчет` plus any extension becomes `otchet` plus that extension |
| Names.NormalizeDoubleExtension | helper_bot/helper_bot/features/sorter.py:42-47 | only the last extension is kept: `a.tar.gz` becomes `a_tar.gz` |
| Names.NormalizeCapitalised | helper_bot/helper_bot/features/sorter.py:20 | capitals transliterate capitalised and spaces become `_`: `Щи 1.x` becomes `Schi_1.x` |
| Categories.CategoryOfIff | helper_bot/helper_bot/features/sorter.py:122-131 | an extension selects a category exactly when it is in that category's tuple |
| Categories.ExtensionShape | helper_bot/helper_bot/features/sorter.py:22-26 | every listed extension starts with a dot and has at least two characters |
| Categories.TarGzUnreachable | helper_bot/helper_bot/features/sorter.py:26 | `.tar.gz` can never be a lower-cased `Path.suffix`, so that entry is dead |
| Categories.NoSuffixNoCategory | helper_bot/helper_bot/features/sorter.py:120-131 | a name without a suffix is never filed |
| Categories.ClassifiedShape | helper_bot/helper_bot/features/sorter.py:120-131 | a filed name has a non-empty stem and a suffix, and is not a category folder name |
| Categories.ReservedUnclassified | helper_bot/helper_bot/features/sorter.py:104-131 | a category folder name itself selects no category |
| Categories.FolderIsReserved | helper_bot/helper_bot/features/sorter.py:104 | every category's folder is in the ignored list |
| Categories.ClassifyUpperCase | helper_bot/helper_bot/features/sorter.py:120-123 | the suffix is lower-cased before the lookup: `x.JPG` is an image |
| Categories.Classify | helper_bot/helper_bot/features/sorter.py:120-131 | a name falls in a category exactly when that category's tuple lists its lower-cased suffix |
| Tree.Lookup | helper_bot/helper_bot/features/sorter.py:105-107 | the node found under a name is the listing's entry for it; no node means no entry has that name |
| Tree.Put | helper_bot/helper_bot/features/sorter.py:62 | after storing a node under a name, that name finds it and every other name finds what it found before |
| Tree.Remove | helper_bot/helper_bot/features/sorter.py:111 | after removing a name it finds nothing and every other name is unchanged |
| Tree.LookupEntries | helper_bot/helper_bot/features/sorter.py:105 | in a listing with distinct names, each listed name finds its own node |
| Sorter.EnsureFolder | helper_bot/helper_bot/features/sorter.py:59-62 | the folder exists afterwards, keeping what was there if it already existed; no other name changes |
| Sorter.MoveInto | helper_bot/helper_bot/features/sorter.py:60 | `shutil.move` into a folder: on success the name leaves the walked directory; on failure nothing changes; a non-directory target always fails; no other name changes |
| Sorter.Organize | helper_bot/helper_bot/features/sorter.py:50-63 | `organize` creates the folder if missing and moves the file; a file already occupying the folder's name raises `NotADirectory` and changes nothing |
| Sorter.Unpack | helper_bot/helper_bot/features/sorter.py:77-78 | unpacking touches only `archives`, and on success leaves it a directory; a failed unpack changes nothing |
| Sorter.OrganizeArchive | helper_bot/helper_bot/features/sorter.py:66-84 | the archive leaves the walked directory unless a step failed; only the archive and `archives` change; a file named `archives` makes it raise without change |
| SorterProperties.ArchiveKeptOnFailure | helper_bot/helper_bot/features/sorter.py:73-84 | when the unpack raises, the archive has already left the walked directory and stays, unchanged, inside `archives` |
| Sorter.RenameIfFree | helper_bot/helper_bot/features/sorter.py:117-119 | the file is renamed only when the new name is free; when it is taken nothing changes; a vanished file makes the rename raise |
| Sorter.FileByCategory | helper_bot/helper_bot/features/sorter.py:120-131 | filing by suffix keeps names distinct and creates no directory outside the reserved folders |
| Sorter.MoveSelf | helper_bot/helper_bot/features/sorter.py:117-131 | an empty normalised name points at the walked directory itself; at most a category folder is created before the move raises |
| Sorter.FileStep | helper_bot/helper_bot/features/sorter.py:116-131 | the file branch keeps names distinct and creates no directory outside the reserved folders |
| Sorter.SnapshotDir | helper_bot/helper_bot/features/sorter.py:105-113 | a listed, non-reserved sub-directory not yet reached is the one that was listed |
| Sorter.Visit | helper_bot/helper_bot/features/sorter.py:106-131 | one listed name is handled; no other non-reserved directory changes |
| Sorter.SortEntries | helper_bot/helper_bot/features/sorter.py:105-131 | the loop over the listing keeps names distinct |
| Sorter.SortFolder | helper_bot/helper_bot/features/sorter.py:97-131 | sorting a folder keeps its names distinct |
| SorterShape.SortFolderOk | helper_bot/helper_bot/features/sorter.py:97-131 | `sort_folder` leaves every directory, at every depth, with distinct names, given an extractor that produces such trees |
| SorterShape.VisitOk | helper_bot/helper_bot/features/sorter.py:106-131 | one step of the walk keeps the tree well formed |
| SorterShape.FileStepOk | helper_bot/helper_bot/features/sorter.py:116-131 | the file branch keeps the tree well formed |
| SorterShape.OrganizeArchiveOk | helper_bot/helper_bot/features/sorter.py:66-84 | moving and unpacking an archive keeps the tree well formed |
| SorterShape.MoveIntoOk | helper_bot/helper_bot/features/sorter.py:60 | a move keeps the tree well formed |
| SorterProperties.SortFolderTidy | helper_bot/helper_bot/features/sorter.py:110-115 | a walk that raises nothing leaves no empty non-reserved directory at any depth it enters |
| SorterProperties.SortFolderKeepsReserved | helper_bot/helper_bot/features/sorter.py:104-109 | a category folder that exists before the walk still exists after it |
| SorterProperties.SortFolderKeepsSettled | helper_bot/helper_bot/features/sorter.py:116-131 | a file whose name is already clean and whose suffix selects no category stays where it is, unchanged |
| SorterProperties.VisitSkipsReserved | helper_bot/helper_bot/features/sorter.py:107-109 | a category folder is skipped entirely |
| SorterProperties.VisitRemovesEmpty | helper_bot/helper_bot/features/sorter.py:110-111 | an empty non-reserved directory is removed and nothing else changes |
| SorterProperties.OrganizeMoves | helper_bot/helper_bot/features/sorter.py:50-63 | when the folder can take it, the file leaves the directory and appears in the folder with its bytes; the folder's other entries are unchanged |
| SorterProperties.FileByCategoryOrganizes | helper_bot/helper_bot/features/sorter.py:122-129 | a non-archive category is filed by `organize` into its folder |
| SorterProperties.FileStepFiles | helper_bot/helper_bot/features/sorter.py:116-129 | a file with a free clean name and a known non-archive suffix ends in its folder under the clean name; nothing else changes |
| SorterProperties.RenameThenOrganize | helper_bot/helper_bot/features/sorter.py:117-129 | the rename followed by `organize` moves the file's bytes to `folder/clean-name` |
| SorterProperties.FileStepKeepsTakenName | helper_bot/helper_bot/features/sorter.py:118-119 | when the clean name is already taken, the original file is left in place |
| SorterProperties.NormalizedArchiveRoot | helper_bot/helper_bot/features/sorter.py:77 | for a normalised name `os.path.splitext` and `Path` agree: the unpack root is the stem |
| SorterProperties.UnpackAbsolute | helper_bot/helper_bot/features/sorter.py:77-78 | with an absolute path, the archive is replaced in `archives` by its unpacked tree under its stem; other entries stay |
| SorterProperties.ArchiveUnpacked | helper_bot/helper_bot/features/sorter.py:66-84 | an archive ends up unpacked under `archives/<stem>` and is itself gone |
| SorterProperties.ArchiveRelativeFails | helper_bot/helper_bot/features/sorter.py:77 | with a relative path the destination lies inside the archive file itself, so unpacking raises after the move |
| SorterProperties.ArchiveUnknownFormat | helper_bot/helper_bot/features/sorter.py:26 | a `.gz` archive (no unpacker) is moved and then raises `ReadError` |
| SorterProperties.FormatExamples | helper_bot/helper_bot/features/sorter.py:77 | `.tar` and `.zip` are recognised; `.gz` and upper-case `.ZIP` are not |
| Files.SplitOn | helper_bot/helper_bot/features/files.py:29 | splitting a path on `/` gives separator-free parts that join back to the path |
| Files.Walk | helper_bot/helper_bot/features/files.py:29 | a resolved path leads to an existing node through directories |
| Files.Resolve | helper_bot/helper_bot/features/files.py:29 | a path that resolves is non-empty and names an existing node |
| Files.PathParts | helper_bot/helper_bot/features/files.py:28-30 | empty and `.` components are dropped from a path |
| Files.BaseName | helper_bot/helper_bot/features/sorter.py:60 | `os.path.basename` never contains a `/` |
| Files.Sort | helper_bot/helper_bot/features/files.py:19-33 | a missing path answers "Path does not exist" and changes nothing; a file raises `NotADirectory`; otherwise the answer is "Folder is sorted" or an exception |
| Files.SortDirectory | helper_bot/helper_bot/features/files.py:28-31 | an existing directory is replaced by the result of `sort_folder` on its listing; every location apart from it is unchanged |
| Files.SortedIsTidy | helper_bot/helper_bot/features/files.py:28-31 | after "Folder is sorted" no non-reserved empty directory remains under the path |
| Files.MissingPaths | helper_bot/helper_bot/features/files.py:29 | the empty path and an absent name do not exist |
| Files.SortKeepsShape | helper_bot/helper_bot/features/files.py:28-31 | sorting keeps the whole filesystem well formed |
| Files.SetAtApart | helper_bot/helper_bot/features/files.py:30 | writing one location leaves every location apart from it unchanged |
| Records.Find | helper_bot/helper_bot/features/records_container.py:67-75 | a found record is stored under its key; not found means no item has that key |
| Records.ExistsKeys | helper_bot/helper_bot/features/records_container.py:67-75 | `record_exists` holds exactly when the key is among the keys |
| Records.Add | helper_bot/helper_bot/features/records_container.py:44-51 | assignment adds only the new item and keeps keys distinct |
| Records.FindAdd | helper_bot/helper_bot/features/records_container.py:51 | after assignment the key finds the new record and every other key finds what it found before |
| Records.AddNew | helper_bot/helper_bot/features/records_container.py:51 | a new key is appended at the end |
| Records.AddPresent | helper_bot/helper_bot/features/records_container.py:51 | assigning to an existing key keeps the keys and their order |
| Records.Delete | helper_bot/helper_bot/features/records_container.py:62 | `del` makes the key find nothing and keeps every other key |
| Records.DeleteSize | helper_bot/helper_bot/features/records_container.py:62 | deleting a present key removes one item; an absent key changes nothing |
| Records.RemoveRecord | helper_bot/helper_bot/features/records_container.py:53-65 | the joined name is deleted with a success message exactly when it exists; otherwise `KeyError` and no change |
| Records.ShowAll | helper_bot/helper_bot/features/records_container.py:77-90 | the "no data" text is shown exactly when the container is empty |
| Records.ShowAllListsEvery | helper_bot/helper_bot/features/records_container.py:84-88 | every record's text appears framed by newlines |
| Records.ShowAllAppend | helper_bot/helper_bot/features/records_container.py:86-87 | adding a record appends exactly its block to the listing |
| Records.Hits | helper_bot/helper_bot/features/records_container.py:99 | the filter keeps exactly the records whose lower-cased text contains the lower-cased needle |
| Records.HitsAppend | helper_bot/helper_bot/features/records_container.py:99 | filtering keeps the container's order |
| Records.Search | helper_bot/helper_bot/features/records_container.py:92-103 | the "couldn't find" text is returned exactly when no record matches |
| Records.SearchOne | helper_bot/helper_bot/features/records_container.py:100-101 | a single matching record is shown as a newline followed by its text |
| Patterns.Ends | helper_bot/helper_bot/features/addressbook_fields.py:66 | the positions a regular expression can reach from a start lie between the start and the end of the text |
| ContactFields.PhoneValidMatches | helper_bot/helper_bot/features/addressbook_fields.py:65-66 | `(\+?\d{12}\|\d{10})` matches at the start exactly when the text begins with `+` and twelve digits, or with ten digits |
| ContactFields.EmailValidMatches | helper_bot/helper_bot/features/addressbook_fields.py:100-108 | the email pattern matches exactly when the text starts with a letter, at least one more local character, `@`, a domain and a dot with two letters |
| ContactFields.NewContact | helper_bot/helper_bot/features/addressbook_fields.py:117-124 | a record is created exactly for names of 2 to 30 characters, with no phones and empty fields; an empty name has its own message |
| ContactFields.AddPhone | helper_bot/helper_bot/features/addressbook_fields.py:126-137 | the phone is appended exactly when it matches the pattern; otherwise `ValueError` |
| ContactFields.AddEmail | helper_bot/helper_bot/features/addressbook_fields.py:172-183 | the email is set exactly when it matches the pattern; otherwise `ValueError` |
| ContactFields.AddAddress | helper_bot/helper_bot/features/addressbook_fields.py:185-192 | only the address changes; a single argument is kept as is |
| ContactFields.AddBirthday | helper_bot/helper_bot/features/addressbook_fields.py:159-170 | the birthday is set exactly when the text parses and the date is not after today; an unparsable text names itself in the error |
| ContactFields.ContactText | helper_bot/helper_bot/features/addressbook_fields.py:194-197 | `str(record)` opens with the name, then the phones joined by commas or "no saved phones", then the birthday label |
| ContactFields.NextBirthday | helper_bot/helper_bot/features/addressbook_fields.py:146-157 | the next birthday has the same month and day, is not before today and at most 365 days ahead; it raises exactly when a 29 February has no counterpart |
| ContactFields.NextBirthdayFirst | helper_bot/helper_bot/features/addressbook_fields.py:146-157 | no date with the birthday's month and day, from today on, comes before the computed one |
| ContactFields.Upcoming | helper_bot/helper_bot/features/addressbook_fields.py:149-157 | this year's date if still ahead or today, else next year's; raises exactly when next year has no such date |
| ContactFields.CountDays | helper_bot/helper_bot/features/addressbook_fields.py:139-157 | `count_days_to_birthday` answers "0" exactly on the birthday; otherwise a number from 1 to 365; it raises exactly in the 29 February cases |
| ContactFields.CountDaysReaches | helper_bot/helper_bot/features/addressbook_fields.py:146-157 | today plus the count is the next birthday |
| AddressBook.BookOkAdd | helper_bot/helper_bot/features/addressbook.py:33 | adding a valid contact keeps every contact in the book valid |
| AddressBook.AddPhones | helper_bot/helper_bot/features/addressbook.py:35-38 | phones are added in order up to the first invalid one, which raises `ValueError`; the earlier ones stay |
| AddressBook.FillField | helper_bot/helper_bot/features/addressbook.py:35-50 | one answer: the phones are added as `AddPhones` adds them; a blank birthday, email or address changes nothing; otherwise the email is stored exactly when its pattern matches, the birthday exactly when it parses to a date not after today, and the address always; any refusal is a `ValueError` and leaves the contact as it was |
| AddressBook.FillFields | helper_bot/helper_bot/features/addressbook.py:35-50 | the prompts after the name keep the contact's name and validity; errors are `ValueError` or end of input |
| AddressBook.AnswersTaken | helper_bot/helper_bot/features/addressbook.py:35-50 | each accepted answer moves the record one step: the split phones, then the birthday, email and address, a blank answer leaving its field unset |
| AddressBook.FillFieldsAll | helper_bot/helper_bot/features/addressbook.py:35-50 | questions that each accept their answer consume one line apiece, raise nothing, and leave the record the answers build |
| AddressBook.FillFieldsAccepted | helper_bot/helper_bot/features/addressbook.py:35-50 | four accepted answers consume four lines and fill the fresh record with exactly those answers |
| AddressBook.CreateContact | helper_bot/helper_bot/features/addressbook.py:32-52 | a name `NewContact` refuses raises and changes nothing; otherwise the record is stored before the fields are asked for, so the book gains exactly one item under that name whatever the later prompts do; success names the contact |
| AddressBook.RefusedPhoneKeepsPartial | helper_bot/helper_bot/features/addressbook.py:32-38 | when the k-th phone is refused, `ValueError` is raised and the stored contact keeps the first k phones and no other field |
| AddressBook.AddContact | helper_bot/helper_bot/features/addressbook.py:27-52 | a name already present raises and changes nothing; a new name that `NewContact` refuses (empty, or not 2 to 30 characters) raises its `ValueError` and changes nothing; a new name of 2 to 30 characters always leaves one more contact under that name, even when a later prompt raises |
| AddressBook.AddContactNew | helper_bot/helper_bot/features/addressbook.py:28-33 | a name not yet in the book hands the rest of the conversation to `CreateContact` |
| AddressBook.CreateContactStores | helper_bot/helper_bot/features/addressbook.py:32-52 | with every answer accepted, the book gains exactly the record those answers make, and the call reports the creation |
| AddressBook.AddContactStores | helper_bot/helper_bot/features/addressbook.py:27-52 | a new name of 2 to 30 characters and accepted answers store the contact made of exactly those answers (blank ones unset), consume five lines and return the creation message |
| AddressBook.AddContactKeepsPartial | helper_bot/helper_bot/features/addressbook.py:27-38 | a new name followed by a refused phone raises `ValueError` and keeps a contact with that name and the phones accepted before the refused one |
| AddressBook.ChangeField | helper_bot/helper_bot/features/addressbook.py:70-82 | only the chosen field changes: a new phone replaces all phones and is kept exactly when it matches the pattern, so a refused one leaves none; the email and the birthday are set exactly when `add_email` and `add_birthday` accept them and are otherwise left as they were; the address is always set |
| AddressBook.SetField | helper_bot/helper_bot/features/addressbook.py:70-91 | one pass of the change loop only touches the named contact, keeping it valid |
| AddressBook.Confirm | helper_bot/helper_bot/features/addressbook.py:84-91 | `y` asks again, `n` ends with the success message, anything else is asked again; the book is unchanged |
| AddressBook.ChangeRound | helper_bot/helper_bot/features/addressbook.py:66-91 | an unknown field word is asked again; every pass only touches the named contact |
| AddressBook.ChangeLoop | helper_bot/helper_bot/features/addressbook.py:65-91 | the loop ends with the success message or an exception, having touched only the named contact |
| AddressBook.ChangeContact | helper_bot/helper_bot/features/addressbook.py:54-93 | an unknown name raises `KeyError` before any prompt; otherwise only the named contact changes, the keys stay and the book stays valid |
| AddressBook.Due | helper_bot/helper_bot/features/addressbook.py:105-112 | lists exactly the contacts with a birthday within the period; raises exactly when some countdown raises |
| AddressBook.DueOne | helper_bot/helper_bot/features/addressbook.py:106-112 | a single contact whose countdown does not raise is listed exactly when its birthday is within the period |
| AddressBook.DueAppend | helper_bot/helper_bot/features/addressbook.py:106-112 | the loop over two books in a row lists the first book's contacts, then the second's, and raises exactly when either does: the listing keeps the book's order |
| AddressBook.FirstDated | helper_bot/helper_bot/features/addressbook.py:106-109 | the position of the first contact with a birthday: every earlier contact has none |
| AddressBook.IntRefused | helper_bot/helper_bot/features/addressbook.py:106-111 | when `int(period)` refuses a period `isdigit` accepted, it returns the "no one" text if no contact has a birthday, and otherwise raises the first dated contact's countdown error or, if that countdown succeeds, the `int` error |
| AddressBook.CheckBirthdays | helper_bot/helper_bot/features/addressbook.py:95-116 | a period `isdigit` refuses raises `ValueError`; digits `int` refuses go the `IntRefused` way; for decimal digits it raises exactly when a countdown raises, returns the "no one" text exactly when no contact is due, and otherwise returns the listing of the due contacts |
| AddressBook.Listing | helper_bot/helper_bot/features/addressbook.py:112-116 | one contact gives its `str` followed by a newline; no contacts gives the empty string; a non-empty listing ends with a newline |
| AddressBook.ListingAppend | helper_bot/helper_bot/features/addressbook.py:112 | the text of two runs of contacts is the first run's text followed by the second's, so the result is each due contact's line in order |
| Notebook.TitleValidMatches | helper_bot/helper_bot/features/notebook.py:8 | the title pattern matches exactly when the first two characters are in the class; the rest is not checked |
| Notebook.CheckTitle | helper_bot/helper_bot/features/notebook.py:28-32 | a title is accepted exactly when the pattern matches; otherwise `ValueError` |
| Notebook.ChangeTitle | helper_bot/helper_bot/features/notebook.py:52-59 | a valid new title replaces only the title; an invalid one raises `ValueError` |
| Notebook.ChangeTags | helper_bot/helper_bot/features/notebook.py:61-69 | the tags become the one whole line typed; nothing else changes |
| Notebook.ChangeText | helper_bot/helper_bot/features/notebook.py:71-78 | only the text changes |
| Notebook.NoteTextTitle | helper_bot/helper_bot/features/notebook.py:49-50 | a note's text starts with its title and a newline |
| Notebook.MakeNote | helper_bot/helper_bot/features/notebook.py:102-118 | a note is appended exactly when the stripped title is new and valid and all three lines are read; a taken title raises `TypeError`, because a string is raised |
| Notebook.FillNote | helper_bot/helper_bot/features/notebook.py:114-118 | the note gets the text line, the split tags and today's date; a failure changes nothing |
| Notebook.Refresh | helper_bot/helper_bot/features/notebook.py:136-146 | every key holding the edited note object shows its new state; other keys keep theirs |
| Notebook.Rename | helper_bot/helper_bot/features/notebook.py:136-140 | a valid new title stores the note under it and then deletes the old title; the delete raises `KeyError` when the old title is gone |
| Notebook.Drop | helper_bot/helper_bot/features/notebook.py:140 | deleting the old title succeeds exactly when it is present |
| Notebook.Store | helper_bot/helper_bot/features/notebook.py:139 | `add_record` stores the edited note under its current title |
| Notebook.Rewrite | helper_bot/helper_bot/features/notebook.py:141-146 | a tags or text change reaches every key holding the note, and no other |
| Notebook.NotePass | helper_bot/helper_bot/features/notebook.py:132-155 | one pass of the change loop keeps the creation date; every entry that changes holds the edited note afterwards, except the original title, which may be removed; every other entry stays as it was; a "text" or "tags" pass makes the note `ChangeText` or `ChangeTags` of the next line typed, written to the same holders |
| Notebook.GoOn | helper_bot/helper_bot/features/notebook.py:148-155 | `n` ends with the success message, `y` asks again, anything else is asked again |
| Notebook.NoteLoop | helper_bot/helper_bot/features/notebook.py:131-155 | the loop ends with the success message or an exception; every changed entry holds the final version of the note or is the removed original title, and the other notes stay as they were |
| Notebook.ChangeNote | helper_bot/helper_bot/features/notebook.py:120-157 | an unknown title raises `KeyError` before any prompt; otherwise each entry either stays as it was, or is the original title removed, or holds one version of the edited note made on the same day; titles stay valid |
| Notebook.RenameToOwnTitle | helper_bot/helper_bot/features/notebook.py:136-140 | renaming a note to its own title reports success but deletes the note |
| Notebook.RenameTwice | helper_bot/helper_bot/features/notebook.py:136-140 | a second rename in one session raises `KeyError`, leaving the note stored under both new titles |
| Notebook.ChangeTagsLine | helper_bot/helper_bot/features/notebook.py:141-143 | changing tags stores the whole typed line as the single tag |
| Notebook.ChangeTextLine | helper_bot/helper_bot/features/notebook.py:144-155 | changing the text stores the typed line as the text, keeps title, tags and date, and leaves the other notes unchanged |
| Notebook.MadeNoteShown | helper_bot/helper_bot/features/notebook.py:116-118 | a note just made appears in `show`'s listing |
| Feature.HandleCommandAsWritten | bot_feature.py:16-21 | the dispatch as written raises `TypeError` for every known word and `ValueError` for the others; it never calls a method |
| Feature.HandleCommand | bot_feature.py:16-21 | the corrected dispatch calls the method stored under the word with the arguments, exactly when the word is known; otherwise `ValueError` |
| Feature.HandleCommandCalls | bot_feature.py:17-19 | in a table with distinct words, the method called is the one stored under the word |
| Feature.AsWrittenNeverCalls | bot_feature.py:16-21 | the two dispatches differ exactly on the known words |
| AssistantBot.GetHandler | helper_bot/helper_bot/bot.py:61-63 | the first feature with the name, or none when no feature has it |
| AssistantBot.FirstFeature | helper_bot/helper_bot/bot.py:61-63 | the first feature carrying the name is the one found |
| AssistantBot.TablesHoldEveryOp | helper_bot/helper_bot/bot.py:16-21 | every bound method is reachable by its feature's name and its command word |
| AssistantBot.NotesHold | helper_bot/helper_bot/features/notebook.py:90-96 | each notebook method sits under its word in the notes table |
| AssistantBot.ContactsHold | helper_bot/helper_bot/features/addressbook.py:15-22 | each address-book method sits under its word in the contacts table |
| AssistantBot.ArityError | bot_feature.py:19 | a call with the wrong number of arguments raises `TypeError` naming the method, and the missing parameter or the count given |
| AssistantBot.Invoke | bot_feature.py:19 | a method runs only with the right number of arguments; read-only commands change nothing; each feature changes only its own data |
| AssistantBot.Dispatch | bot_feature.py:19 | an accepted call keeps the data valid, only moves the terminal forward, and touches only its own feature's data |
| AssistantBot.Query | helper_bot/helper_bot/features/records_container.py:77-103 | `show` and `search` always answer; only `birthdays` can fail, and then with `ValueError` |
| AssistantBot.InvokeFiles | helper_bot/helper_bot/features/files.py:19-33 | `files sort` changes only the filesystem and reads no input |
| AssistantBot.InvokeNotes | helper_bot/helper_bot/features/notebook.py:90-96 | `make`, `change` and `remove` on notes change only the notebook and keep it valid |
| AssistantBot.InvokeContacts | helper_bot/helper_bot/features/addressbook.py:15-22 | `add`, `change` and `remove` on contacts change only the book and keep it valid |
| AssistantBot.RemoveKeepsNotes | helper_bot/helper_bot/features/records_container.py:53-65 | removing a note keeps every remaining title valid |
| AssistantBot.RemoveKeepsBook | helper_bot/helper_bot/features/records_container.py:53-65 | removing a contact keeps every remaining contact valid |
| AssistantBot.InputError | helper_bot/helper_bot/bot.py:29-39 | `TypeError`, `KeyError` and `ValueError` become text; other exceptions and results pass through |
| AssistantBot.InputErrorRecoverable | helper_bot/helper_bot/bot.py:32-37 | the text a caught exception becomes determines the exception |
| AssistantBot.Route | helper_bot/helper_bot/bot.py:53-59 | an unknown feature raises `ValueError`; no command word raises `IndexError`; an unknown word raises `ValueError` |
| AssistantBot.Decorated | helper_bot/helper_bot/bot.py:23-41 | `input_error` keeps the data and the terminal, lets every exception but `TypeError`, `KeyError` and `ValueError` through, passes a returned value unchanged, and turns a `ValueError` into its prefixed text |
| AssistantBot.Handle | helper_bot/helper_bot/bot.py:43-59 | the decorated `handle`: unknown feature or word becomes `ValueError:` text; a missing command word escapes as `IndexError` |
| AssistantBot.HandleRoutes | helper_bot/helper_bot/bot.py:53-57 | `<feature> <word> rest...` runs that method with the rest |
| AssistantBot.ShowRefusesWord | helper_bot/helper_bot/features/records_container.py:77 | `contacts show` followed by a word answers with the missing-info `TypeError` text |
| AssistantBot.HandleAsWritten | helper_bot/helper_bot/bot.py:53-57 | with the dispatch as written, every known command answers the not-callable text and changes nothing |
| AssistantBot.AsWrittenRunsNothing | bot_feature.py:18-19 | for every command the as-written bot answers the not-callable text, while the corrected one runs the method |
| AssistantBot.Completions | helper_bot/helper_bot/bot.py:72-74 | one completion per command, each `<feature> <word>`, and nothing else |
| AssistantBot.Autocomplete | helper_bot/helper_bot/bot.py:65-75 | `help` followed by exactly the feature-and-word completions |
| AssistantBot.CompletionsAreCommands | helper_bot/helper_bot/bot.py:71-75 | every completion after `help` names a bound method |
| AssistantBot.Help | helper_bot/helper_bot/bot.py:85-90 | the help text starts with its header |
| AssistantBot.HelpLineCount | helper_bot/helper_bot/bot.py:85-90 | the help text has one line per command, as many as there are completions besides `help` |
| AssistantBot.HelpListsEvery | helper_bot/helper_bot/bot.py:88-89 | every command's usage line appears as `- usage` |
| App.Prompt | helper_bot/helper_bot/main.py:28 | the prompt returns the next line, or raises `EOFError` when input is exhausted |
| App.ParseCommand | helper_bot/helper_bot/main.py:42-55 | an empty line raises `ValueError`; a blank one raises `IndexError`; otherwise the result is the words without whitespace |
| App.ParseJoined | helper_bot/helper_bot/main.py:50-55 | words joined by spaces, the first in lower case, parse back to the same words |
| App.CompletionParses | helper_bot/helper_bot/main.py:24-28 | a completion typed as offered parses into its feature and word |
| App.CompletionsReachMethods | helper_bot/helper_bot/main.py:24-36 | every completion offered, typed as is, parses into a method's feature and word |
| App.Answer | helper_bot/helper_bot/main.py:36-40 | a non-empty answer is printed and the loop goes on; an exception is printed and ends it |
| App.ReadCommand | helper_bot/helper_bot/main.py:28 | reading consumes one line and parses it |
| App.Step | helper_bot/helper_bot/main.py:27-40 | a pass keeps the bot valid and only moves the terminal forward; going on consumes input |
| App.ErrorText | helper_bot/helper_bot/main.py:39-40 | `print(err)` shows nothing for the prompt's end of input, the built-in `input` message for a feature's end of input, the `repr` of a `KeyError`'s key (escapes included), which reads back to the key, and the host text of an `OSError` |
| App.Run | helper_bot/helper_bot/main.py:17-40 | the loop always ends, and ends by printing a line, with the bot valid |
| App.EndOfInputEnds | helper_bot/helper_bot/main.py:39-40 | at the end of input the empty `EOFError` text is printed and the loop ends |
| App.UnparsedLineEnds | helper_bot/helper_bot/main.py:39-40 | a line that does not parse prints the parser's message and ends the loop |
| App.StopWordEnds | helper_bot/helper_bot/main.py:29-32 | a stop word prints "Goodbye!" and ends the loop |
| App.HelpAsksAgain | helper_bot/helper_bot/main.py:33-34 | `help` prints the help text and asks again |
| App.AnswerAsksAgain | helper_bot/helper_bot/main.py:35-38 | other lines go to `handle`; a non-empty answer is printed and the loop asks again with the bot's new state |
| Errors.ReprRoundTrip | helper_bot/helper_bot/bot.py:34-35 | the quoted `repr` a `KeyError` prints, with its `\x`, `\u` and `\U` escapes, reads back to the message, whatever the printable table |
| Errors.EscapeChar | helper_bot/helper_bot/bot.py:34-35 | a printable character other than the quote and the backslash is written as itself; every other character becomes an escape of two or more characters |
| Errors.EscapeCharRead | helper_bot/helper_bot/bot.py:34-35 | each escape `repr` writes, hexadecimal ones included, reads back as its character, and reading resumes right after it |
| Errors.HexRoundTrip | helper_bot/helper_bot/bot.py:34-35 | a number written in a fixed number of lower-case hexadecimal digits reads back to itself |
| Errors.ReprEscapesJoiner | helper_bot/helper_bot/bot.py:34-35 | `repr("a\u200db")` writes the zero-width joiner as `\u200d` when the table does not count it printable |
| Errors.UnescapeEscape | helper_bot/helper_bot/bot.py:34-35 | escaping a message inside quotes can be undone |
| Dates.DaysInMonth | helper_bot/helper_bot/features/addressbook_fields.py:147-155 | months have 28 to 31 days, and 29 exactly for February of a leap year |
| Dates.OrdinalOrder | helper_bot/helper_bot/features/addressbook_fields.py:149-152 | comparing dates agrees with comparing their day numbers |
| Dates.Replace | helper_bot/helper_bot/features/addressbook_fields.py:147 | `date.replace(year=...)` succeeds exactly for years in range, unless it would make a 29 February in a year that is not a leap year |
| Dates.DateTextRoundTrip | helper_bot/helper_bot/features/notebook.py:50 | a date prints as ten characters that parse back to the same date |
| Dates.ZeroPadValue | helper_bot/helper_bot/features/notebook.py:50 | the zero-padded digits of a date part read back to its value |
| Text.Strip | helper_bot/helper_bot/features/addressbook.py:28 | `strip` removes exactly the leading and trailing whitespace |
| Text.SplitTokens | helper_bot/helper_bot/features/addressbook.py:35 | `split()` yields non-empty words without whitespace that concatenate to the text's non-space characters |
| Text.SplitEmptyIffBlank | helper_bot/helper_bot/main.py:52-53 | `split()` is empty exactly for blank text |
| Text.SplitJoin | helper_bot/helper_bot/main.py:52-54 | splitting words joined by single spaces gives the words back |
| Text.LowerAppend | helper_bot/helper_bot/main.py:53 | lowering a concatenation lowers each part on its own |
| Text.Contains | helper_bot/helper_bot/features/records_container.py:99 | the `in` test on strings holds exactly when the needle occurs |
| Text.NatToStringValue | helper_bot/helper_bot/features/addressbook.py:111 | `int(str(n)) == n` |
| Console.Input | helper_bot/helper_bot/features/addressbook.py:28 | `input()` returns the next line, or raises `EOFError` when input is exhausted |
| Console.Print | helper_bot/helper_bot/main.py:31-40 | `print` appends one line to what was shown and reads nothing |
| Console.FollowsTransitive | helper_bot/helper_bot/main.py:27-38 | the terminal only moves forward, across any number of steps |

## Left out

- `load_data` and `backup_data` (records_container.py:15-42, bot.py:77-83): pickling to files is I/O. Both containers start empty, and a stop word does not save.
- Prompt texts and the `WordCompleter`: the texts are terminal output with no effect on state, and completion only helps typing.
- The text of an `OSError`, which quotes paths: it is a parameter (`osText`) of the run loop.
- `KeyboardInterrupt` and other `BaseException`s: they are not caught by `except Exception`.
- The Unicode character tables, `datetime.now()` and `strptime`: these are parameters (`Text.Unicode`, `Dates.Calendar`). The lemmas assume ASCII behaviour on ASCII and a sound calendar.
- LowerAppend: `Text.Lower` lowers each character on its own, so Python's final-sigma rule (a capital sigma at the end of a word becomes 'ς', not 'σ') is not modelled. It matters for the feature name in `parse_command` and for the lower-cased search in `search_record`. The model says nothing about text with a capital sigma there.
- The two end-of-input texts: the features' built-in `input()` raises `EOFError("EOF when reading a line")` (`Errors.EndOfInput`), while the main loop's prompt_toolkit `prompt` raises an `EOFError` with no text (`App.PromptEnd`). Both are kept as the code has them.
- Archive extraction by `shutil.unpack_archive`: this is a parameter of the walk. Only the format choice by suffix and the destination are modelled.
- Sorter.Unpack: with a relative path and an empty archive, Python would create the destination and succeed. The model treats every relative-path unpack as failing.
- `BotFeature.name()` of the base class, which returns `None`: every feature overrides it.
- helper_bot/helper_bot/features/bot_feature.py is not part of this model. The root bot_feature.py is modelled in its place.
- Filesystem metadata, permissions, symlinks and concurrent writers: the tree holds only names and file bytes.
- `AddressBookField.__eq__`, `__hash__` and `__contains__`: records are keyed by their name strings directly.

## Findings

| source | as written | input that shows it | evidently intended | confidence | as-written member | corrected member |
|---|---|---|---|---|---|---|
| bot_feature.py:16-21 | `handler = self.command_handlers.get(command)` is the pair (method, usage), and `handler(*args)` calls the pair | `notes show`: the lookup finds `(self.data.show_all, "notes show ")`; calling the tuple raises `TypeError: 'tuple' object is not callable`, which `handle` prints as missing-info text | call the method, `handler[0](*args)` | high, not executed | Feature.HandleCommandAsWritten | Feature.HandleCommand |

=== FILE: addressbook.dfy ===
/**
 The `contacts` feature: creating a contact from answers to five questions,
 changing its fields in a question loop, and listing the contacts whose
 birthday falls within a number of days. Contacts live in a records
 container keyed by their names.

 A contact stored in the container is shared by reference: once `add_contact`
 has stored the new record, later failures leave the fields set so far in
 place, and `change_contact` edits the stored record field by field. Here the
 container is updated with the record after every step, which keeps exactly
 what the shared record would show.
 */
module AddressBook {
  import opened Errors
  import opened Text
  import opened Dates
  import opened Patterns
  import opened ContactFields
  import opened Records
  import opened Console

  type Book = seq<Item<Contact>>

  /** What every stored contact satisfies: a name of 2 to 30 characters,
      phones and email accepted by their patterns, and a birthday that is not
      after today. */
  predicate ContactOk(u: Unicode, cal: Calendar, c: Contact) {
    && 2 <= |c.name| <= 30
    && (forall i :: 0 <= i < |c.phones| ==> Matches(PhonePattern(u), c.phones[i]))
    && (c.email.Some? ==> Matches(EmailPattern(), c.email.value))
    && (c.birthday.Some? ==> Valid(c.birthday.value) && !Before(cal.today, c.birthday.value))
  }

  /** The address book's invariant: distinct keys, each the name of the
      contact stored under it, and every contact well formed. */
  predicate BookOk(u: Unicode, cal: Calendar, book: Book) {
    && Keyed(book)
    && forall i :: 0 <= i < |book| ==> book[i].key == book[i].rec.name && ContactOk(u, cal, book[i].rec)
  }

  lemma BookOkAdd(u: Unicode, cal: Calendar, book: Book, c: Contact)
    requires BookOk(u, cal, book) && ContactOk(u, cal, c)
    ensures BookOk(u, cal, Add(book, c.name, c))
  {
    var r := Add(book, c.name, c);
    forall i | 0 <= i < |r|
      ensures r[i].key == r[i].rec.name && ContactOk(u, cal, r[i].rec)
    {
      if r[i] != Item(c.name, c) {
        var j :| 0 <= j < |book| && book[j] == r[i];
      }
    }
  }

  // ---------------------------------------------------------------------------
  // add_contact

  const Duplicate := "This name is already in your phonebook. If you want to change something type 'change'."

  function Created(name: string): string {
    "Contact " + name + " was created successfully!"
  }

  /** The position of the first phone the pattern refuses, or the number of
      phones when it accepts them all. */
  function FirstRefused(u: Unicode, phones: seq<string>): (r: nat)
    ensures r <= |phones|
    ensures forall i :: 0 <= i < r ==> Matches(PhonePattern(u), phones[i])
    ensures r < |phones| ==> !Matches(PhonePattern(u), phones[r])
  {
    if phones == [] || !Matches(PhonePattern(u), phones[0]) then 0
    else 1 + FirstRefused(u, phones[1..])
  }

  /** `for phone in phones: record.add_phone(phone)`: stops at the first phone
      the pattern refuses, keeping the ones added before it. */
  function {:induction false} AddPhones(u: Unicode, c: Contact, phones: seq<string>): (r: (Contact, Option<Exception>))
    ensures r.0 == c.(phones := c.phones + phones[..FirstRefused(u, phones)])
    ensures r.1.None? <==> FirstRefused(u, phones) == |phones|
    ensures r.1.Some? ==> r.1 == Some(ValueError(PhoneFormat))
    decreases |phones|
  {
    if phones == [] then (c, None)
    else match AddPhone(u, c, phones[0])
      case Raise(e) => (c, Some(e))
      case Return(c1) =>
        var r := AddPhones(u, c1, phones[1..]);
        assert c1.phones + phones[1..][..FirstRefused(u, phones[1..])] == c.phones + phones[..FirstRefused(u, phones)];
        r
  }

  /** The questions of `add_contact` after the name. */
  datatype Field = Phones | Birthday | Email | Address

  /** One answer of `add_contact`, already stripped. Phones are split on
      whitespace and added one by one; the other fields are skipped when the
      answer is blank. */
  function FillField(u: Unicode, cal: Calendar, c: Contact, f: Field, answer: string): (r: (Contact, Option<Exception>))
    requires Sound(cal)
    ensures r.0.name == c.name
    ensures ContactOk(u, cal, c) ==> ContactOk(u, cal, r.0)
    ensures r.1.Some? ==> r.1.value.ValueError?
    ensures f != Phones && answer == [] ==> r == (c, None)
    ensures f == Phones ==> r == AddPhones(u, c, Split(u, answer))
    ensures f == Birthday && answer != [] ==>
      && (r.1.None? <==> cal.strptime(answer).Some? && !Before(cal.today, cal.strptime(answer).value))
      && r.0 == (if r.1.None? then c.(birthday := cal.strptime(answer)) else c)
    ensures f == Email && answer != [] ==>
      r == (if Matches(EmailPattern(), answer) then (c.(email := Some(answer)), None) else (c, Some(ValueError(BadEmail))))
    ensures f == Address && answer != [] ==> r == (c.(address := Some(answer)), None)
  {
    match f
    case Phones => AddPhones(u, c, Split(u, answer))
    case Birthday =>
      if answer == [] then (c, None)
      else (match AddBirthday(cal, c, answer) case Raise(e) => (c, Some(e)) case Return(c1) => (c1, None))
    case Email =>
      if answer == [] then (c, None)
      else (match AddEmail(c, answer) case Raise(e) => (c, Some(e)) case Return(c1) => (c1, None))
    case Address =>
      if answer == [] then (c, None) else (AddAddress(c, [answer]), None)
  }

  /** The record as far as the questions got, the terminal, and the exception
      that stopped them, if any. */
  datatype Filled = Filled(c: Contact, io: Io, err: Option<Exception>)

  /** Asks the remaining questions in order; the first failure stops. */
  function FillFields(u: Unicode, cal: Calendar, c: Contact, fields: seq<Field>, io: Io): (r: Filled)
    requires Sound(cal)
    ensures Follows(io, r.io)
    ensures r.c.name == c.name
    ensures ContactOk(u, cal, c) ==> ContactOk(u, cal, r.c)
    ensures r.err.Some? ==> r.err.value.ValueError? || r.err.value == EndOfInput
    decreases |fields|
  {
    if fields == [] then Filled(c, io, None)
    else
      var (line, io1) := Input(io);
      if line.Raise? then Filled(c, io1, Some(line.exc))
      else
        var (c1, err) := FillField(u, cal, c, fields[0], Strip(u, line.value));
        if err.Some? then Filled(c1, io1, err)
        else
          var r := FillFields(u, cal, c1, fields[1..], io1);
          FollowsTransitive(io, io1, r.io);
          r
  }

  /** `add_contact()` once the name is known to be new: the `Name` checks,
      then the stored record and the remaining questions. */
  function CreateContact(u: Unicode, cal: Calendar, book: Book, name: string, io: Io): (r: Session<Book>)
    requires Sound(cal) && name !in Keys(book)
    ensures Follows(io, r.io)
    ensures r.state == book || (|r.state| == |book| + 1 && r.state == book + [Item(name, r.state[|book|].rec)]
      && r.state[|book|].rec.name == name)
    ensures BookOk(u, cal, book) ==> BookOk(u, cal, r.state)
    ensures r.out.Return? ==> r.state != book && r.out.value == Created(name)
    ensures NewContact(name).Raise? ==> r == Session(book, io, Raise(NewContact(name).exc))
    ensures NewContact(name).Return? ==> |r.state| == |book| + 1 && r.state == book + [Item(name, r.state[|book|].rec)]
  {
    match NewContact(name)
    case Raise(e) => Session(book, io, Raise(e))
    case Return(c) =>
      var f := FillFields(u, cal, c, [Phones, Birthday, Email, Address], io);
      var after := book + [Item(name, f.c)];
      assert BookOk(u, cal, book) ==> BookOk(u, cal, after) by {
        if BookOk(u, cal, book) {
          AddNew(book, name, f.c);
          BookOkAdd(u, cal, book, f.c);
        }
      }
      assert after[|book|].rec == f.c;
      Session(after, f.io, if f.err.Some? then Raise(f.err.value) else Return(Created(name)))
  }

  /** `add_contact()`: the stripped first answer names the contact; a name
      already present, empty, or of the wrong length stores nothing. Once the
      record is stored it stays, with whatever fields were set before a
      failure. */
  function AddContact(u: Unicode, cal: Calendar, book: Book, io: Io): (r: Session<Book>)
    requires Sound(cal)
    ensures Follows(io, r.io)
    ensures io.lines == [] ==> r == Session(book, io, Raise(EndOfInput))
    ensures io.lines != [] && Strip(u, io.lines[0]) in Keys(book) ==> r.state == book && r.out == Raise(ValueError(Duplicate))
    ensures r.state == book || exists d: Contact :: d.name !in Keys(book) && r.state == book + [Item(d.name, d)]
    ensures BookOk(u, cal, book) ==> BookOk(u, cal, r.state)
    ensures r.out.Return? ==> |r.state| == |book| + 1 && r.out.value == Created(r.state[|book|].key)
    ensures io.lines != [] && Strip(u, io.lines[0]) !in Keys(book) && 2 <= |Strip(u, io.lines[0])| <= 30 ==>
      |r.state| == |book| + 1 && r.state == book + [Item(Strip(u, io.lines[0]), r.state[|book|].rec)]
    ensures io.lines != [] && Strip(u, io.lines[0]) !in Keys(book) && NewContact(Strip(u, io.lines[0])).Raise? ==>
      r.state == book && r.out == Raise(NewContact(Strip(u, io.lines[0])).exc)
  {
    var (nameLine, io1) := Input(io);
    if nameLine.Raise? then Session(book, io1, Raise(nameLine.exc))
    else
      var name := Strip(u, nameLine.value);
      ExistsKeys(book, name);
      if Exists(book, name) then Session(book, io1, Raise(ValueError(Duplicate)))
      else
        var r := CreateContact(u, cal, book, name, io1);
        FollowsTransitive(io, io1, r.io);
        assert r.state != book ==> r.state == book + [Item(r.state[|book|].rec.name, r.state[|book|].rec)];
        assert name == Strip(u, io.lines[0]);
        assert NewContact(name).Raise? ==> r.state == book && r.out == Raise(NewContact(name).exc);
        r
  }

  /** A new, valid name followed by a phone line with a refused phone: the
      contact stays stored with the phones before the refused one and no
      other field, and the call raises the phone format error. */
  lemma RefusedPhoneKeepsPartial(u: Unicode, cal: Calendar, book: Book, name: string, io: Io)
    requires Sound(cal) && name !in Keys(book) && 2 <= |name| <= 30
    requires io.lines != []
    requires FirstRefused(u, Split(u, Strip(u, io.lines[0]))) < |Split(u, Strip(u, io.lines[0]))|
    ensures var r := CreateContact(u, cal, book, name, io);
      var phones := Split(u, Strip(u, io.lines[0]));
      && r.out == Raise(ValueError(PhoneFormat))
      && r.io == io.(lines := io.lines[1..])
      && r.state == book + [Item(name, Contact(name, phones[..FirstRefused(u, phones)], None, None, None))]
  {
    var c := Contact(name, [], None, None, None);
    var phones := Split(u, Strip(u, io.lines[0]));
    var f := FillFields(u, cal, c, [Phones, Birthday, Email, Address], io);
    assert FillField(u, cal, c, Phones, Strip(u, io.lines[0])) == AddPhones(u, c, phones);
    assert f == Filled(c.(phones := phones[..FirstRefused(u, phones)]), io.(lines := io.lines[1..]), Some(ValueError(PhoneFormat)));
  }

  /** `add_contact()` typed through: a new, valid name and a phone line with a
      refused phone store the partial contact and raise. */
  lemma AddContactKeepsPartial(u: Unicode, cal: Calendar, book: Book, io: Io)
    requires Sound(cal) && |io.lines| >= 2
    requires Strip(u, io.lines[0]) !in Keys(book) && 2 <= |Strip(u, io.lines[0])| <= 30
    requires FirstRefused(u, Split(u, Strip(u, io.lines[1]))) < |Split(u, Strip(u, io.lines[1]))|
    ensures var r := AddContact(u, cal, book, io);
      var name := Strip(u, io.lines[0]);
      var phones := Split(u, Strip(u, io.lines[1]));
      && r.out == Raise(ValueError(PhoneFormat))
      && r.io == io.(lines := io.lines[2..])
      && r.state == book + [Item(name, Contact(name, phones[..FirstRefused(u, phones)], None, None, None))]
  {
    var next := io.(lines := io.lines[1..]);
    assert next.lines[0] == io.lines[1] && next.lines[1..] == io.lines[2..];
    ExistsKeys(book, Strip(u, io.lines[0]));
    assert AddContact(u, cal, book, io) == CreateContact(u, cal, book, Strip(u, io.lines[0]), next);
    RefusedPhoneKeepsPartial(u, cal, book, Strip(u, io.lines[0]), next);
  }

  /** Every answer after the name is accepted: each phone matches the
      pattern, a birthday given parses to a date not after today, and an
      email given matches its pattern. */
  ghost predicate Accepted(u: Unicode, cal: Calendar, phones: string, birthday: string, email: string) {
    && FirstRefused(u, Split(u, phones)) == |Split(u, phones)|
    && (birthday != [] ==> cal.strptime(birthday).Some? && !Before(cal.today, cal.strptime(birthday).value))
    && (email != [] ==> Matches(EmailPattern(), email))
  }

  /** The record `add_contact` stores for a name and the four stripped
      answers when every one is accepted; a blank answer leaves its field
      unset. */
  function Typed(u: Unicode, cal: Calendar, name: string, phones: string, birthday: string, email: string, address: string): Contact {
    Contact(name, Split(u, phones),
      if birthday == [] then None else cal.strptime(birthday),
      if email == [] then None else Some(email),
      if address == [] then None else Some(address))
  }

  /** The records `add_contact` holds after each accepted answer: the fresh
      record, then with the phones, the birthday, the email and the address. */
  function Filling(u: Unicode, cal: Calendar, name: string, p: string, b: string, e: string, a: string): (cs: seq<Contact>)
    ensures |cs| == 5 && cs[4] == Typed(u, cal, name, p, b, e, a)
  {
    var c0 := Contact(name, [], None, None, None);
    var c1 := c0.(phones := Split(u, p));
    var c2 := c1.(birthday := if b == [] then None else cal.strptime(b));
    var c3 := c2.(email := if e == [] then None else Some(e));
    [c0, c1, c2, c3, c3.(address := if a == [] then None else Some(a))]
  }

  /** Each question takes its accepted answer, moving the record one step
      along `Filling`. */
  lemma AnswersTaken(u: Unicode, cal: Calendar, name: string, p: string, b: string, e: string, a: string)
    requires Sound(cal) && Accepted(u, cal, p, b, e)
    ensures var cs := Filling(u, cal, name, p, b, e, a);
      forall i :: 0 <= i < 4 ==> FillField(u, cal, cs[i], [Phones, Birthday, Email, Address][i], [p, b, e, a][i]) == (cs[i + 1], None)
  {
    var cs := Filling(u, cal, name, p, b, e, a);
    var fields := [Phones, Birthday, Email, Address];
    var answers := [p, b, e, a];
    forall i | 0 <= i < 4
      ensures FillField(u, cal, cs[i], fields[i], answers[i]) == (cs[i + 1], None)
    {
      if i == 0 {
        assert cs[0].phones + Split(u, p)[..FirstRefused(u, Split(u, p))] == Split(u, p);
      }
    }
  }

  /** Questions each of which accepts its answer, record `cs[i]` becoming
      `cs[i + 1]`, consume one line apiece and raise nothing. */
  /** One accepted answer moves `fill_fields()` on to the next question. */
  lemma FillFieldsStep(u: Unicode, cal: Calendar, c: Contact, fields: seq<Field>, io: Io)
    requires Sound(cal) && fields != [] && io.lines != []
    requires FillField(u, cal, c, fields[0], Strip(u, io.lines[0])).1 == None
    ensures FillFields(u, cal, c, fields, io)
      == FillFields(u, cal, FillField(u, cal, c, fields[0], Strip(u, io.lines[0])).0, fields[1..], io.(lines := io.lines[1..]))
  {
  }

  /** The answers after the first still line up with the remaining input. */
  lemma AnswersTail(u: Unicode, cal: Calendar, cs: seq<Contact>, fields: seq<Field>, answers: seq<string>, io: Io)
    requires Sound(cal) && |cs| == |fields| + 1 && |answers| == |fields| <= |io.lines| && fields != []
    requires forall i :: 0 <= i < |fields| ==> answers[i] == Strip(u, io.lines[i])
    requires forall i :: 0 <= i < |fields| ==> FillField(u, cal, cs[i], fields[i], answers[i]) == (cs[i + 1], None)
    ensures forall i :: 0 <= i < |fields| - 1 ==> answers[1..][i] == Strip(u, io.lines[1..][i])
    ensures forall i :: 0 <= i < |fields| - 1 ==> FillField(u, cal, cs[1..][i], fields[1..][i], answers[1..][i]) == (cs[1..][i + 1], None)
  {
    forall i | 0 <= i < |fields| - 1
      ensures answers[1..][i] == Strip(u, io.lines[1..][i])
    {
      assert io.lines[1..][i] == io.lines[i + 1];
    }
    forall i | 0 <= i < |fields| - 1
      ensures FillField(u, cal, cs[1..][i], fields[1..][i], answers[1..][i]) == (cs[1..][i + 1], None)
    {
      assert cs[1..][i] == cs[i + 1] && cs[1..][i + 1] == cs[i + 2];
    }
  }

  lemma {:induction false} FillFieldsAll(u: Unicode, cal: Calendar, cs: seq<Contact>, fields: seq<Field>, answers: seq<string>, io: Io)
    requires Sound(cal) && |cs| == |fields| + 1 && |answers| == |fields| <= |io.lines|
    requires forall i :: 0 <= i < |fields| ==> answers[i] == Strip(u, io.lines[i])
    requires forall i :: 0 <= i < |fields| ==> FillField(u, cal, cs[i], fields[i], answers[i]) == (cs[i + 1], None)
    ensures FillFields(u, cal, cs[0], fields, io) == Filled(cs[|fields|], io.(lines := io.lines[|fields|..]), None)
    decreases |fields|
  {
    if fields != [] {
      var io1 := io.(lines := io.lines[1..]);
      assert FillField(u, cal, cs[0], fields[0], answers[0]) == (cs[1], None);
      FillFieldsStep(u, cal, cs[0], fields, io);
      AnswersTail(u, cal, cs, fields, answers, io);
      FillFieldsAll(u, cal, cs[1..], fields[1..], answers[1..], io1);
      assert cs[1..][0] == cs[1] && cs[1..][|fields| - 1] == cs[|fields|];
      assert io1.lines[|fields| - 1..] == io.lines[|fields|..];
    }
  }

  /** The four questions after the name, answered with accepted answers,
      consume four lines and fill the fresh record with those answers. */
  lemma FillFieldsAccepted(u: Unicode, cal: Calendar, name: string, io: Io)
    requires Sound(cal) && |io.lines| >= 4
    requires Accepted(u, cal, Strip(u, io.lines[0]), Strip(u, io.lines[1]), Strip(u, io.lines[2]))
    ensures FillFields(u, cal, Contact(name, [], None, None, None), [Phones, Birthday, Email, Address], io)
      == Filled(Typed(u, cal, name, Strip(u, io.lines[0]), Strip(u, io.lines[1]), Strip(u, io.lines[2]), Strip(u, io.lines[3])),
                io.(lines := io.lines[4..]), None)
  {
    var p, b, e, a := Strip(u, io.lines[0]), Strip(u, io.lines[1]), Strip(u, io.lines[2]), Strip(u, io.lines[3]);
    var answers := [p, b, e, a];
    forall i | 0 <= i < 4
      ensures answers[i] == Strip(u, io.lines[i])
    {
      if i == 0 { assert answers[0] == p; }
      else if i == 1 { assert answers[1] == b; }
      else if i == 2 { assert answers[2] == e; }
      else { assert answers[3] == a; }
    }
    AnswersTaken(u, cal, name, p, b, e, a);
    FillFieldsAll(u, cal, Filling(u, cal, name, p, b, e, a), [Phones, Birthday, Email, Address], answers, io);
  }

  /** `CreateContact` with accepted answers stores the record made of them
      and reports its creation. */
  lemma CreateContactStores(u: Unicode, cal: Calendar, book: Book, name: string, io: Io)
    requires Sound(cal) && name !in Keys(book) && 2 <= |name| <= 30 && |io.lines| >= 4
    requires Accepted(u, cal, Strip(u, io.lines[0]), Strip(u, io.lines[1]), Strip(u, io.lines[2]))
    ensures var r := CreateContact(u, cal, book, name, io);
      var typed := Typed(u, cal, name, Strip(u, io.lines[0]), Strip(u, io.lines[1]), Strip(u, io.lines[2]), Strip(u, io.lines[3]));
      && r.out == Return(Created(name))
      && r.io == io.(lines := io.lines[4..])
      && r.state == book + [Item(name, typed)]
  {
    FillFieldsAccepted(u, cal, name, io);
  }

  /** A new name hands the rest of the conversation to `CreateContact`. */
  lemma AddContactNew(u: Unicode, cal: Calendar, book: Book, io: Io)
    requires Sound(cal) && io.lines != [] && Strip(u, io.lines[0]) !in Keys(book)
    ensures AddContact(u, cal, book, io) == CreateContact(u, cal, book, Strip(u, io.lines[0]), io.(lines := io.lines[1..]))
  {
    ExistsKeys(book, Strip(u, io.lines[0]));
  }

  /** `add_contact()` typed through: a new name of 2 to 30 characters and
      accepted answers store the contact made of exactly those answers and
      report its creation. */
  lemma AddContactStores(u: Unicode, cal: Calendar, book: Book, io: Io)
    requires Sound(cal) && |io.lines| >= 5
    requires Strip(u, io.lines[0]) !in Keys(book) && 2 <= |Strip(u, io.lines[0])| <= 30
    requires Accepted(u, cal, Strip(u, io.lines[1]), Strip(u, io.lines[2]), Strip(u, io.lines[3]))
    ensures var r := AddContact(u, cal, book, io);
      var name := Strip(u, io.lines[0]);
      var typed := Typed(u, cal, name, Strip(u, io.lines[1]), Strip(u, io.lines[2]), Strip(u, io.lines[3]), Strip(u, io.lines[4]));
      && r.out == Return(Created(name))
      && r.io == io.(lines := io.lines[5..])
      && r.state == book + [Item(name, typed)]
  {
    var next := io.(lines := io.lines[1..]);
    assert next.lines[0] == io.lines[1] && next.lines[1] == io.lines[2] && next.lines[2] == io.lines[3];
    assert next.lines[3] == io.lines[4] && next.lines[4..] == io.lines[5..];
    AddContactNew(u, cal, book, io);
    CreateContactStores(u, cal, book, Strip(u, io.lines[0]), next);
  }

  // ---------------------------------------------------------------------------
  // change_contact

  const NoContact := "Contact with this name doesn't exist."
  const ContactChanged := "The contact was changed successfully!"

  /** One field change of `change_contact`. A new phone replaces all phones:
      they are cleared before the new one is checked, so a refused phone
      leaves none. */
  function ChangeField(u: Unicode, cal: Calendar, c: Contact, field: string, text: string): (r: (Contact, Option<Exception>))
    requires Sound(cal)
    requires field in ["phone", "email", "address", "birthday"]
    ensures r.0.name == c.name
    ensures r.1.Some? ==> r.1.value.ValueError?
    ensures ContactOk(u, cal, c) ==> ContactOk(u, cal, r.0)
    ensures field == "phone" ==> r.0.phones == (if r.1.None? then [text] else [])
    ensures field == "phone" ==> (r.1.None? <==> Matches(PhonePattern(u), text)) && r.0 == c.(phones := r.0.phones)
    ensures field == "email" ==>
      (r.1.None? <==> Matches(EmailPattern(), text)) && r.0 == (if r.1.None? then c.(email := Some(text)) else c)
    ensures field == "address" ==> r == (c.(address := Some(text)), None)
    ensures field == "birthday" ==>
      && (r.1.None? <==> cal.strptime(text).Some? && !Before(cal.today, cal.strptime(text).value))
      && r.0 == (if r.1.None? then c.(birthday := cal.strptime(text)) else c)
  {
    if field == "phone" then
      var cleared := c.(phones := []);
      match AddPhone(u, cleared, text)
      case Raise(e) => (cleared, Some(e))
      case Return(c1) => (c1, None)
    else if field == "email" then
      match AddEmail(c, text)
      case Raise(e) => (c, Some(e))
      case Return(c1) => (c1, None)
    else if field == "address" then
      (AddAddress(c, [text]), None)
    else
      match AddBirthday(cal, c, text)
      case Raise(e) => (c, Some(e))
      case Return(c1) => (c1, None)
  }

  /** `after` differs from `book` at most in the fields of the contact `name`:
      the same keys in the same order, the other contacts as they were, and
      the contact under `name` keeps its name and its well-formedness. */
  ghost predicate Touches(u: Unicode, cal: Calendar, book: Book, after: Book, name: string)
    requires Exists(book, name)
  {
    && Keys(after) == Keys(book)
    && (forall k :: k != name ==> Find(after, k) == Find(book, k))
    && Find(after, name).Some? && Find(after, name).value.name == Find(book, name).value.name
    && (ContactOk(u, cal, Find(book, name).value) ==> ContactOk(u, cal, Find(after, name).value))
  }

  lemma TouchesTransitive(u: Unicode, cal: Calendar, a: Book, b: Book, c: Book, name: string)
    requires Exists(a, name) && Touches(u, cal, a, b, name)
    requires Exists(b, name) && Touches(u, cal, b, c, name)
    ensures Touches(u, cal, a, c, name)
  {
  }

  datatype Round = Round(book: Book, io: Io, next: Next)

  /** One pass of the `while True` loop of `change_contact`: which field, its
      new value, and whether to go on. An unknown field name prints a
      complaint and asks again from the start. */
  function ChangeRound(u: Unicode, cal: Calendar, book: Book, name: string, io: Io): (r: Round)
    requires Sound(cal)
    requires Exists(book, name)
    ensures Follows(io, r.io)
    ensures Touches(u, cal, book, r.book, name)
    ensures r.next.Again? ==> |r.io.lines| < |io.lines|
    ensures r.next.Stop? && r.next.out.Return? ==> r.next.out.value == ContactChanged
    ensures r.next.Stop? && r.next.out.Raise? ==> r.next.out.exc.ValueError? || r.next.out.exc == EndOfInput
  {
    var (choice, io1) := Input(io);
    if choice.Raise? then Round(book, io1, Stop(Raise(choice.exc)))
    else
      var field := Lower(u, choice.value);
      if field !in ["phone", "email", "address", "birthday"] then
        Round(book, Print(io1, "Unknown command"), Again)
      else
        var r := SetField(u, cal, book, name, field, io1);
        FollowsTransitive(io, io1, r.io);
        r
  }

  /** The rest of a pass once the field is known: read the new value, store
      it, and ask whether to go on. "y" asks again, "n" finishes, anything
      else prints a complaint and asks again. */
  function SetField(u: Unicode, cal: Calendar, book: Book, name: string, field: string, io: Io): (r: Round)
    requires Sound(cal)
    requires Exists(book, name)
    requires field in ["phone", "email", "address", "birthday"]
    ensures Follows(io, r.io)
    ensures Touches(u, cal, book, r.book, name)
    ensures r.next.Again? ==> |r.io.lines| <= |io.lines|
    ensures r.next.Stop? && r.next.out.Return? ==> r.next.out.value == ContactChanged
    ensures r.next.Stop? && r.next.out.Raise? ==> r.next.out.exc.ValueError? || r.next.out.exc == EndOfInput
  {
    var (text, io1) := Input(io);
    if text.Raise? then Round(book, io1, Stop(Raise(text.exc)))
    else
      var (c1, failed) := ChangeField(u, cal, Find(book, name).value, field, text.value);
      var book1 := Add(book, name, c1);
      ExistsKeys(book, name);
      AddPresent(book, name, c1);
      KeptByAdd(book, name, c1);
      if failed.Some? then Round(book1, io1, Stop(Raise(failed.value)))
      else
        var r := Confirm(u, book1, io1);
        FollowsTransitive(io, io1, r.io);
        r
  }

  /** "Do you want to change anything else? (y/n)": "y" asks again, "n"
      finishes, anything else prints a complaint and asks again. The book is
      left as it is. */
  function Confirm(u: Unicode, book: Book, io: Io): (r: Round)
    ensures r.book == book && Follows(io, r.io)
    ensures r.next.Again? ==> |r.io.lines| < |io.lines|
    ensures r.next.Stop? && r.next.out.Return? ==> r.next.out.value == ContactChanged
    ensures r.next.Stop? && r.next.out.Raise? ==> r.next.out.exc == EndOfInput && io.lines == []
  {
    var (answer, io1) := Input(io);
    if answer.Raise? then Round(book, io1, Stop(Raise(answer.exc)))
    else
      var yn := Lower(u, answer.value);
      if yn == "n" then Round(book, io1, Stop(Return(ContactChanged)))
      else if yn == "y" then Round(book, io1, Again)
      else Round(book, Print(io1, "Enter y or n."), Again)
  }

  /** The `while True` loop of `change_contact`; each round reads at least one
      line, so the loop ends when the input does. */
  function ChangeLoop(u: Unicode, cal: Calendar, book: Book, name: string, io: Io): (r: Session<Book>)
    requires Sound(cal)
    requires Exists(book, name)
    ensures Follows(io, r.io)
    ensures Touches(u, cal, book, r.state, name)
    ensures r.out.Return? ==> r.out.value == ContactChanged
    ensures r.out.Raise? ==> r.out.exc.ValueError? || r.out.exc == EndOfInput
    decreases |io.lines|
  {
    var round := ChangeRound(u, cal, book, name, io);
    match round.next
    case Stop(out) => Session(round.book, round.io, out)
    case Again =>
      var r := ChangeLoop(u, cal, round.book, name, round.io);
      FollowsTransitive(io, round.io, r.io);
      TouchesTransitive(u, cal, book, round.book, r.state, name);
      r
  }

  lemma KeptByAdd<R>(c: seq<Item<R>>, key: string, rec: R)
    ensures Find(Add(c, key, rec), key) == Some(rec)
    ensures forall k :: k != key ==> Find(Add(c, key, rec), k) == Find(c, k)
  {
    forall k {
      FindAdd(c, key, rec, k);
    }
  }

  /** `change_contact(*args)`: the arguments joined by spaces name the
      contact. Only that contact can change, only in its fields, and the
      contacts stay as they were listed. */
  function ChangeContact(u: Unicode, cal: Calendar, book: Book, args: seq<string>, io: Io): (r: Session<Book>)
    requires Sound(cal)
    ensures Follows(io, r.io)
    ensures r.out == Raise(KeyError(NoContact)) <==> !Exists(book, Join(args, " "))
    ensures r.out == Raise(KeyError(NoContact)) ==> r.state == book && r.io == io
    ensures Keys(r.state) == Keys(book)
    ensures forall k :: k != Join(args, " ") ==> Find(r.state, k) == Find(book, k)
    ensures BookOk(u, cal, book) ==> BookOk(u, cal, r.state)
    ensures r.out.Return? ==> r.out.value == ContactChanged
  {
    var name := Join(args, " ");
    if !Exists(book, name) then Session(book, io, Raise(KeyError(NoContact)))
    else
      var r := ChangeLoop(u, cal, book, name, io);
      assert BookOk(u, cal, book) ==> BookOk(u, cal, r.state) by {
        if BookOk(u, cal, book) {
          KeysKeepBook(u, cal, book, r.state, name);
        }
      }
      r
  }

  /** A book whose keys stay put, and whose only changed contact kept its
      name and its well-formedness, still satisfies the invariant. */
  lemma KeysKeepBook(u: Unicode, cal: Calendar, book: Book, after: Book, name: string)
    requires BookOk(u, cal, book)
    requires Exists(book, name) && Touches(u, cal, book, after, name)
    ensures BookOk(u, cal, after)
  {
    assert Keyed(after) by {
      forall i, j | 0 <= i < j < |after|
        ensures after[i].key != after[j].key
      {
        assert Keys(after)[i] == Keys(book)[i] && Keys(after)[j] == Keys(book)[j];
      }
    }
    forall i | 0 <= i < |after|
      ensures after[i].key == after[i].rec.name && ContactOk(u, cal, after[i].rec)
    {
      var k := after[i].key;
      assert Keys(book)[i] == k && Keys(after)[i] == k;
      FindItem(after, i);
      FindItem(book, i);
      if k == name {
        assert after[i].rec.name == book[i].rec.name;
      } else {
        assert Find(after, k) == Find(book, k);
        assert after[i].rec == book[i].rec;
      }
    }
  }

  // ---------------------------------------------------------------------------
  // check_birthdays

  const NotANumber := "Enter a number of days."
  const NoBirthdays := "No one has birthday in this period."

  /** The birthdays a contact may carry are dates a `date` can hold. */
  predicate BirthdaysValid(book: Book) {
    forall i :: 0 <= i < |book| && book[i].rec.birthday.Some? ==> Valid(book[i].rec.birthday.value)
  }

  /** `count_days_to_birthday` raises for the contact. */
  predicate Fails(today: Date, c: Contact) {
    c.birthday.Some? && CountdownFails(today, c.birthday.value)
  }

  /** The contact has a birthday at most `limit` days away. */
  predicate Listed(today: Date, c: Contact, limit: nat) {
    && Valid(today) && c.birthday.Some? && Valid(c.birthday.value)
    && CountDays(today, c.birthday.value).Return?
    && DaysLeft(CountDays(today, c.birthday.value).value) <= limit
  }

  /** The loop of `check_birthdays`: contacts without a birthday are skipped,
      the others are listed when their countdown is at most `limit`; a
      countdown that raises ends the loop. The listing keeps the book's
      order. */
  function Due(today: Date, book: Book, limit: nat): (r: Outcome<seq<Contact>>)
    requires Valid(today) && BirthdaysValid(book)
    ensures r.Raise? <==> exists i :: 0 <= i < |book| && Fails(today, book[i].rec)
    ensures r.Raise? ==> r.exc.ValueError?
    ensures r.Return? ==> forall i :: 0 <= i < |book| && Listed(today, book[i].rec, limit) ==> book[i].rec in r.value
    ensures r.Return? ==> forall c :: c in r.value ==> Listed(today, c, limit) && exists i :: 0 <= i < |book| && book[i].rec == c
    decreases |book|
  {
    if book == [] then Return([])
    else
      var c := book[0].rec;
      var rest := Due(today, book[1..], limit);
      assert forall i :: 1 <= i < |book| ==> book[i] == book[1..][i - 1];
      if c.birthday.None? then rest
      else match CountDays(today, c.birthday.value)
        case Raise(e) => Raise(e)
        case Return(n) =>
          match rest
          case Raise(e) => Raise(e)
          case Return(cs) => if DaysLeft(n) <= limit then Return([c] + cs) else Return(cs)
  }

  /** Each value's text followed by a newline, in order. */
  function Lines<R>(cs: seq<R>, show: R -> string): (r: string)
    ensures cs == [] <==> r == []
  {
    if cs == [] then [] else show(cs[0]) + "\n" + Lines(cs[1..], show)
  }

  lemma {:induction false} LinesAppend<R>(a: seq<R>, b: seq<R>, show: R -> string)
    ensures Lines(a + b, show) == Lines(a, show) + Lines(b, show)
    decreases |a|
  {
    if a == [] {
      assert a + b == b;
    } else {
      assert (a + b)[0] == a[0] && (a + b)[1..] == a[1..] + b;
      LinesAppend(a[1..], b, show);
    }
  }

  /** The contacts listed, one line each. */
  function Listing(cs: seq<Contact>): (r: string)
    ensures cs != [] ==> |r| > 0 && r[|r| - 1] == '\n'
    ensures cs == [] <==> r == []
    ensures |cs| == 1 ==> r == ContactText(cs[0]) + "\n"
  {
    if cs == [] then []
    else
      LinesLast(cs, ContactText);
      assert |cs| == 1 ==> cs[1..] == [];
      Lines(cs, ContactText)
  }

  /** A non-empty run of lines ends with a newline. */
  lemma {:induction false} LinesLast<R>(cs: seq<R>, show: R -> string)
    requires cs != []
    ensures |Lines(cs, show)| > 0 && Lines(cs, show)[|Lines(cs, show)| - 1] == '\n'
    decreases |cs|
  {
    if cs[1..] != [] {
      LinesLast(cs[1..], show);
    }
  }

  /** The listing of two runs of contacts is the first run's listing followed
      by the second's: together with the one-contact case, each contact's
      text and a newline, in order. */
  lemma ListingAppend(a: seq<Contact>, b: seq<Contact>)
    ensures Listing(a + b) == Listing(a) + Listing(b)
  {
    LinesAppend(a, b, ContactText);
  }

  /** One contact that does not raise is listed exactly when its birthday is
      at most `limit` days away. */
  lemma DueOne(today: Date, it: Item<Contact>, limit: nat)
    requires Valid(today) && BirthdaysValid([it]) && !Fails(today, it.rec)
    ensures Due(today, [it], limit) == Return(if Listed(today, it.rec, limit) then [it.rec] else [])
  {
    assert [it][0] == it && [it][1..] == [];
    var c := it.rec;
    assert Due(today, [], limit) == Return([]);
    if c.birthday.Some? {
      assert Valid(c.birthday.value);
      var n := CountDays(today, c.birthday.value);
      assert n.Return?;
      assert [c] + [] == [c];
      assert Due(today, [it], limit) == (if DaysLeft(n.value) <= limit then Return([c]) else Return([]));
    } else {
      assert Due(today, [it], limit) == Return([]);
    }
  }

  /** The loop over two runs of the book: it raises when either run raises,
      and otherwise lists the first run's contacts before the second's. With
      `DueOne`, the listing is the book filtered by `Listed`, in book order and
      with repeats kept. */
  lemma {:induction false} DueAppend(today: Date, a: Book, b: Book, limit: nat)
    requires Valid(today) && BirthdaysValid(a + b)
    ensures BirthdaysValid(a) && BirthdaysValid(b)
    ensures Due(today, a + b, limit).Return? <==> Due(today, a, limit).Return? && Due(today, b, limit).Return?
    ensures Due(today, a + b, limit).Return? ==>
      Due(today, a + b, limit).value == Due(today, a, limit).value + Due(today, b, limit).value
    decreases |a|
  {
    BirthdaysValidAppend(a, b);
    if a == [] {
      assert a + b == b;
    } else {
      var ab := a + b;
      assert ab[0] == a[0] && ab[1..] == a[1..] + b;
      DueAppend(today, a[1..], b, limit);
      DueCons(today, ab, limit);
      DueCons(today, a, limit);
      var restA, restB := Due(today, a[1..], limit), Due(today, b, limit);
      if restA.Return? && restB.Return? {
        forall head: seq<Contact> ensures head + (restA.value + restB.value) == (head + restA.value) + restB.value {
        }
      }
    }
  }

  lemma BirthdaysValidAppend(a: Book, b: Book)
    requires BirthdaysValid(a + b)
    ensures BirthdaysValid(a) && BirthdaysValid(b)
  {
    assert forall i :: 0 <= i < |a| ==> a[i] == (a + b)[i];
    assert forall i :: 0 <= i < |b| ==> b[i] == (a + b)[|a| + i];
  }

  /** One turn of the loop: the first contact's countdown, then the rest. */
  lemma DueCons(today: Date, book: Book, limit: nat)
    requires Valid(today) && BirthdaysValid(book) && book != []
    ensures BirthdaysValid(book[1..])
    ensures var c := book[0].rec;
      var rest := Due(today, book[1..], limit);
      Due(today, book, limit) ==
        if c.birthday.None? then rest
        else if CountDays(today, c.birthday.value).Raise? then Raise(CountDays(today, c.birthday.value).exc)
        else if rest.Raise? then rest
        else Return((if DaysLeft(CountDays(today, c.birthday.value).value) <= limit then [c] else []) + rest.value)
  {
    assert forall i :: 1 <= i < |book| ==> book[i] == book[1..][i - 1];
    var rest := Due(today, book[1..], limit);
    if rest.Return? {
      assert [] + rest.value == rest.value;
    }
  }

  /** The message `int` raises for text it does not accept. */
  function IntLiteral(u: Unicode, s: string): string
  {
    "invalid literal for int() with base 10: " + Repr(u, s)
  }

  /** The position of the first contact with a birthday, or `|book|`. */
  function FirstDated(book: Book): (k: nat)
    ensures k <= |book|
    ensures forall j :: 0 <= j < k ==> book[j].rec.birthday.None?
    ensures k < |book| ==> book[k].rec.birthday.Some?
    decreases |book|
  {
    if book == [] then 0
    else if book[0].rec.birthday.Some? then 0
    else
      assert forall j :: 1 <= j < |book| ==> book[j] == book[1..][j - 1];
      1 + FirstDated(book[1..])
  }

  /** The loop of `check_birthdays` when `period` passes `isdigit` but `int`
      refuses it: contacts without a birthday are skipped, the first countdown
      is computed, and then `int(period)` raises. */
  function IntRefused(u: Unicode, today: Date, book: Book, period: string): (r: Outcome<string>)
    requires Valid(today) && BirthdaysValid(book)
    ensures r.Raise? ==> r.exc.ValueError?
    ensures FirstDated(book) == |book| ==> r == Return(NoBirthdays)
    ensures FirstDated(book) < |book| && Fails(today, book[FirstDated(book)].rec) ==>
      r == Raise(CountDays(today, book[FirstDated(book)].rec.birthday.value).exc)
    ensures FirstDated(book) < |book| && !Fails(today, book[FirstDated(book)].rec) ==>
      r == Raise(ValueError(IntLiteral(u, period)))
    decreases |book|
  {
    if book == [] then Return(NoBirthdays)
    else
      assert forall j :: 1 <= j < |book| ==> book[j] == book[1..][j - 1];
      var c := book[0].rec;
      if c.birthday.None? then IntRefused(u, today, book[1..], period)
      else match CountDays(today, c.birthday.value)
        case Raise(e) => Raise(e)
        case Return(_) => Raise(ValueError(IntLiteral(u, period)))
  }

  /** `check_birthdays(period)`. */
  function CheckBirthdays(u: Unicode, today: Date, book: Book, period: string): (r: Outcome<string>)
    requires Valid(today) && BirthdaysValid(book)
    ensures !IsDigits(u, period) ==> r == Raise(ValueError(NotANumber))
    ensures r.Raise? ==> r.exc.ValueError?
    ensures IsDigits(u, period) && !IsDecimals(u, period) ==> r == IntRefused(u, today, book, period)
    ensures IsDigits(u, period) && IsDecimals(u, period) ==> (r.Raise? <==> exists i :: 0 <= i < |book| && Fails(today, book[i].rec))
    ensures IsDigits(u, period) && IsDecimals(u, period) && r.Return? ==> (r.value == NoBirthdays <==> Due(today, book, DigitsValue(u, period)).value == [])
    ensures IsDigits(u, period) && IsDecimals(u, period) && r.Return? && Due(today, book, DigitsValue(u, period)).value != [] ==>
      r.value == Listing(Due(today, book, DigitsValue(u, period)).value)
  {
    if !IsDigits(u, period) then Raise(ValueError(NotANumber))
    else if !IsDecimals(u, period) then IntRefused(u, today, book, period)
    else match Due(today, book, DigitsValue(u, period))
      case Raise(e) => Raise(e)
      case Return(cs) =>
        if cs == [] then Return(NoBirthdays)
        else
          var text := Listing(cs);
          assert NoBirthdays[|NoBirthdays| - 1] == '.';
          Return(text)
  }
}

=== FILE: app.dfy ===
/**
 The front end: read a line at the prompt, split it into a feature name and
 its words, and answer. A stop word says goodbye and ends the loop, `help`
 prints the help text, and anything else goes to the bot, whose answer is
 printed when it is not empty. The loop sits inside one `try`: the first
 exception that reaches it is printed and ends the loop.
 */
module App {
  import opened Errors
  import opened Text
  import opened Console
  import opened AssistantBot

  const NoCommand := "No command is given."
  const Goodbye := "Goodbye!"

  /** The words that end the conversation. */
  const StopWords := ["goodbye", "close", "exit"]

  /** `prompt(...)` once the input is exhausted raises an `EOFError` with no
      text. */
  const PromptEnd := EOFError("")

  /** `prompt(...)`: the next line typed. The prompt text and the completer
      are not modelled. */
  function Prompt(io: Io): (r: (Outcome<string>, Io))
    ensures io.lines == [] ==> r == (Raise(PromptEnd), io)
    ensures io.lines != [] ==> r == (Return(io.lines[0]), io.(lines := io.lines[1..]))
  {
    if io.lines == [] then (Raise(PromptEnd), io) else (Return(io.lines[0]), io.(lines := io.lines[1..]))
  }

  /** `parse_command(line)`: the first word lower-cased, and the other words. */
  function ParseCommand(u: Unicode, line: string): (r: Outcome<(string, seq<string>)>)
    ensures r == Raise(ValueError(NoCommand)) <==> line == []
    ensures r == Raise(IndexError(OutOfRange)) <==> line != [] && NonSpace(u, line) == []
    ensures r.Raise? ==> r == Raise(ValueError(NoCommand)) || r == Raise(IndexError(OutOfRange))
    ensures r.Return? ==> Tokens(u, r.value.1)
  {
    if |line| == 0 then Raise(ValueError(NoCommand))
    else
      var words := Split(u, line);
      SplitTokens(u, line);
      SplitEmptyIffBlank(u, line);
      if words == [] then Raise(IndexError(OutOfRange))
      else
        assert Tokens(u, words[1..]) by {
          forall j | 0 <= j < |words[1..]|
            ensures words[1..][j] != [] && NoSpace(u, words[1..][j])
          {
            assert words[1..][j] == words[j + 1];
          }
        }
        Return((Lower(u, words[0]), words[1..]))
  }

  /** Words joined by single spaces parse back into the same words, when the
      first one is already lower case. */
  lemma ParseJoined(u: Unicode, command: string, args: seq<string>)
    requires Sane(u) && Tokens(u, [command] + args)
    requires forall i :: 0 <= i < |command| ==> 'a' <= command[i] <= 'z'
    ensures ParseCommand(u, Join([command] + args, " ")) == Return((command, args))
  {
    var words := [command] + args;
    var line := Join(words, " ");
    SplitJoin(u, words);
    assert words[0] == command && words[1..] == args;
    assert line != [] by {
      assert command != [];
      if |words| == 1 {
        assert line == command;
      } else {
        assert line == command + " " + Join(words[1..], " ");
      }
    }
    LowerWord(u, command);
  }

  /** What `print(err)` shows for the exception that ends the loop; the text
      of an `OSError`, which quotes paths, comes from `osText`. */
  function ErrorText(u: Unicode, osText: OSErrorKind -> string, e: Exception): (r: string)
    ensures e == PromptEnd ==> r == ""
    ensures e == EndOfInput ==> r == "EOF when reading a line"
    ensures e.KeyError? ==> ParseRepr(r) == Some(e.msg)
    ensures e.OSError? ==> r == osText(e.kind)
  {
    if e.KeyError? then ReprRoundTrip(u, e.msg); Str(u, e)
    else if e.OSError? then osText(e.kind) else Str(u, e)
  }

  /** Where the conversation ended: the bot's data and the terminal. */
  datatype Ended = Ended(bot: Bot, io: Io)

  /** One pass of the loop: go round again, or leave it. */
  datatype Turn = Continue(bot: Bot, io: Io) | Leave(end: Ended)

  /** The invariant a pass keeps: the bot stays well formed, the terminal only
      moves forward, and leaving the loop prints a last line. */
  predicate Moves(h: Host, io: Io, t: Turn) {
    match t
    case Continue(b, later) => BotOk(h, b) && Follows(io, later)
    case Leave(e) => BotOk(h, e.bot) && Follows(io, e.io) && |e.io.shown| > |io.shown|
  }

  /** The `else` branch: `handle(feature, args)`, printing a non-empty answer.
      An exception from `handle` leaves the loop. */
  function Answer(h: Host, osText: OSErrorKind -> string, b: Bot, feature: string, args: seq<string>, io: Io): (r: Turn)
    requires HostOk(h) && BotOk(h, b)
    ensures Moves(h, io, r)
  {
    var s := Handle(h, b, feature, args, io);
    match s.out
    case Raise(e) =>
      FollowsTransitive(io, s.io, Print(s.io, ErrorText(h.u, osText, e)));
      Leave(Ended(s.state, Print(s.io, ErrorText(h.u, osText, e))))
    case Return(v) =>
      var after := if v == [] then s.io else Print(s.io, v);
      FollowsTransitive(io, s.io, after);
      Continue(s.state, after)
  }

  /** The prompt followed by `parse_command`. */
  function ReadCommand(u: Unicode, io: Io): (r: (Outcome<(string, seq<string>)>, Io))
    ensures io.lines == [] ==> r == (Raise(PromptEnd), io)
    ensures io.lines != [] ==> r == (ParseCommand(u, io.lines[0]), io.(lines := io.lines[1..]))
  {
    match Prompt(io)
    case (Raise(e), next) => (Raise(e), next)
    case (Return(line), next) => (ParseCommand(u, line), next)
  }

  /** One pass of `while True`: read, parse, and act on the line. */
  function Step(h: Host, osText: OSErrorKind -> string, b: Bot, io: Io): (r: Turn)
    requires HostOk(h) && BotOk(h, b)
    ensures Moves(h, io, r)
    ensures r.Continue? ==> |r.io.lines| < |io.lines|
  {
    var (command, next) := ReadCommand(h.u, io);
    assert Follows(io, next) && (io.lines == [] || |next.lines| < |io.lines|);
    match command
    case Raise(e) => Leave(Ended(b, Print(next, ErrorText(h.u, osText, e))))
    case Return((feature, args)) =>
      if feature in StopWords then Leave(Ended(b, Print(next, Goodbye)))
      else if feature == "help" then Continue(b, Print(next, Help(Features)))
      else
        var r := Answer(h, osText, b, feature, args, next);
        FollowsTransitive(io, next, if r.Continue? then r.io else r.end.io);
        r
  }

  /** `run()` from the first prompt on, with the bot in state `b`. The loop
      always ends, and it ends by printing a line. */
  function Run(h: Host, osText: OSErrorKind -> string, b: Bot, io: Io): (r: Ended)
    requires HostOk(h) && BotOk(h, b)
    ensures BotOk(h, r.bot) && Follows(io, r.io)
    ensures |r.io.shown| > |io.shown|
    decreases |io.lines|
  {
    match Step(h, osText, b, io)
    case Leave(e) => e
    case Continue(b', later) =>
      var r := Run(h, osText, b', later);
      FollowsTransitive(io, later, r.io);
      r
  }

  // ---------------------------------------------------------------------------
  // What a conversation does

  /** With nothing left to read, the prompt's `EOFError` ends the loop and its
      empty text is printed. */
  lemma EndOfInputEnds(h: Host, osText: OSErrorKind -> string, b: Bot, shown: seq<string>)
    requires HostOk(h) && BotOk(h, b)
    ensures Run(h, osText, b, Io([], shown)) == Ended(b, Io([], shown + [""]))
  {
    var io := Io([], shown);
    assert ErrorText(h.u, osText, PromptEnd) == "";
    assert Step(h, osText, b, io) == Leave(Ended(b, Print(io, "")));
  }

  /** A line that does not parse ends the loop with the parser's message, and
      the lines after it are never read. */
  lemma UnparsedLineEnds(h: Host, osText: OSErrorKind -> string, b: Bot, io: Io)
    requires HostOk(h) && BotOk(h, b)
    requires io.lines != [] && ParseCommand(h.u, io.lines[0]).Raise?
    ensures Run(h, osText, b, io) ==
      Ended(b, Io(io.lines[1..], io.shown + [Str(h.u, ParseCommand(h.u, io.lines[0]).exc)]))
  {
  }

  /** A stop word says goodbye and ends the loop; nothing after it is read. */
  lemma StopWordEnds(h: Host, osText: OSErrorKind -> string, b: Bot, io: Io)
    requires HostOk(h) && BotOk(h, b)
    requires io.lines != [] && ParseCommand(h.u, io.lines[0]).Return?
    requires ParseCommand(h.u, io.lines[0]).value.0 in StopWords
    ensures Run(h, osText, b, io) == Ended(b, Io(io.lines[1..], io.shown + [Goodbye]))
  {
  }

  /** `help` prints the help text and asks again, whatever words follow it. */
  lemma HelpAsksAgain(h: Host, osText: OSErrorKind -> string, b: Bot, io: Io)
    requires HostOk(h) && BotOk(h, b)
    requires io.lines != [] && ParseCommand(h.u, io.lines[0]).Return?
    requires ParseCommand(h.u, io.lines[0]).value.0 == "help"
    ensures Run(h, osText, b, io) == Run(h, osText, b, Io(io.lines[1..], io.shown + [Help(Features)]))
  {
    assert "help" !in StopWords;
  }

  /** Any other line goes to `handle`; an answer is printed unless it is empty,
      and the loop asks again with the bot as `handle` left it. */
  lemma AnswerAsksAgain(h: Host, osText: OSErrorKind -> string, b: Bot, io: Io)
    requires HostOk(h) && BotOk(h, b)
    requires io.lines != [] && ParseCommand(h.u, io.lines[0]).Return?
    requires ParseCommand(h.u, io.lines[0]).value.0 !in StopWords + ["help"]
    ensures var (feature, args) := ParseCommand(h.u, io.lines[0]).value;
      var s := Handle(h, b, feature, args, Io(io.lines[1..], io.shown));
      s.out.Return? ==> (Run(h, osText, b, io) ==
        Run(h, osText, s.state, Io(s.io.lines, if s.out.value == [] then s.io.shown else s.io.shown + [s.out.value])))
  {
    var (feature, args) := ParseCommand(h.u, io.lines[0]).value;
    assert feature !in StopWords && feature != "help";
  }

  /** A lower-case ASCII word has no whitespace. */
  lemma LowerWordHasNoSpace(u: Unicode, s: string)
    requires Sane(u) && forall i :: 0 <= i < |s| ==> 'a' <= s[i] <= 'z'
    ensures NoSpace(u, s)
  {
  }

  /** The feature names and command words are lower-case ASCII words. */
  lemma NamesAreWords(op: Op)
    ensures OwnerOf(op) != [] && forall i :: 0 <= i < |OwnerOf(op)| ==> 'a' <= OwnerOf(op)[i] <= 'z'
    ensures WordOf(op) != [] && forall i :: 0 <= i < |WordOf(op)| ==> 'a' <= WordOf(op)[i] <= 'z'
  {
  }

  /** A completion typed as offered parses into the feature and the word. */
  lemma CompletionParses(u: Unicode, op: Op)
    requires Sane(u)
    ensures ParseCommand(u, OwnerOf(op) + " " + WordOf(op)) == Return((OwnerOf(op), [WordOf(op)]))
  {
    NamesAreWords(op);
    LowerWordHasNoSpace(u, OwnerOf(op));
    LowerWordHasNoSpace(u, WordOf(op));
    var words := [OwnerOf(op)] + [WordOf(op)];
    assert Join(words, " ") == OwnerOf(op) + " " + WordOf(op) by {
      assert words[1..] == [WordOf(op)];
    }
    ParseJoined(u, OwnerOf(op), [WordOf(op)]);
  }

  /** Every completion the prompt offers, typed as is, parses into the name
      and word of a method; `HandleRoutes` then takes it to that method. */
  lemma CompletionsReachMethods(u: Unicode, k: nat)
    requires Sane(u)
    requires 1 <= k < |Autocomplete(Features)|
    ensures exists op :: ParseCommand(u, Autocomplete(Features)[k]) == Return((OwnerOf(op), [WordOf(op)]))
  {
    CompletionsAreCommands(k);
    var op :| Autocomplete(Features)[k] == OwnerOf(op) + " " + WordOf(op);
    CompletionParses(u, op);
  }
}

=== FILE: bot.dfy ===
/**
 The assistant: three features, files, notes and contacts, each with its table
 of command words. `Handle` picks the feature by name, hands the first
 argument to it as the command word and the rest as the command's arguments,
 and turns the domain errors, `TypeError`, `KeyError` and `ValueError`, into
 text. Everything else a command raises escapes to the run loop.

 A bound method is an `Op`. Python checks the number of arguments before the
 method runs. The methods with a fixed parameter list reject any other count
 with a `TypeError` whose text names the method by its qualified name.
 */
module AssistantBot {
  import opened Errors
  import opened Text
  import opened Dates
  import opened Records
  import opened Console
  import opened Feature
  import Tree
  import Sorter
  import SorterShape
  import Files
  import ContactFields
  import AddressBook
  import Notebook

  /** What the bot takes from its surroundings: the Unicode tables, the clock
      and date parser, and the archive unpacker the sort uses. */
  datatype Host = Host(
    u: Unicode,
    cal: Calendar,
    unpack: (Sorter.ArchiveFormat, seq<Tree.Byte>, Option<Tree.Node>) -> Option<Tree.Node>)

  /** The model's assumptions about the host: sound dates, and an unpacker that
      only produces well-formed trees. */
  ghost predicate HostOk(h: Host) {
    Sound(h.cal) && SorterShape.UnpackOk(Sorter.Env(h.u, h.unpack, true))
  }

  /** The data the features keep: the filesystem, the notes and the contacts. */
  datatype Bot = Bot(fs: Files.Fs, notes: Notebook.Notes, book: AddressBook.Book)

  /** The invariant every command keeps. */
  predicate BotOk(h: Host, b: Bot) {
    && Files.WellFormedNode(b.fs.root)
    && Notebook.NotesOk(h.u, b.notes)
    && AddressBook.BookOk(h.u, h.cal, b.book)
  }

  // ---------------------------------------------------------------------------
  // The features and their tables

  /** The bound methods the command tables hold. */
  datatype Op =
    | SortFolder
    | MakeNote | ChangeNote | RemoveNote | ShowNotes | SearchNotes
    | AddContact | ChangeContact | RemoveContact | ShowContacts | CheckBirthdays | SearchContacts

  /** A feature: the name `name()` returns and its command table. */
  datatype BotFeature = BotFeature(name: string, table: Table<Op>)

  const FilesFeature := BotFeature("files", [
    Item("sort", Handler(SortFolder, "files sort path"))])

  const NotesFeature := BotFeature("notes", [
    Item("make", Handler(MakeNote, "notes make")),
    Item("change", Handler(ChangeNote, "notes change title")),
    Item("remove", Handler(RemoveNote, "notes remove title")),
    Item("show", Handler(ShowNotes, "notes show ")),
    Item("search", Handler(SearchNotes, "notes search tag/title/text"))])

  const ContactsFeature := BotFeature("contacts", [
    Item("add", Handler(AddContact, "contacts add")),
    Item("change", Handler(ChangeContact, "contacts change name")),
    Item("remove", Handler(RemoveContact, "contacts remove name")),
    Item("show", Handler(ShowContacts, "contacts show")),
    Item("birthdays", Handler(CheckBirthdays, "contacts birthdays num_of_days")),
    Item("search", Handler(SearchContacts, "contacts search name/phone"))])

  /** `self.features`, in the order the constructor lists them. */
  const Features := [FilesFeature, NotesFeature, ContactsFeature]

  /** The feature each method belongs to. */
  function OwnerOf(op: Op): string {
    match op
    case SortFolder => "files"
    case MakeNote | ChangeNote | RemoveNote | ShowNotes | SearchNotes => "notes"
    case _ => "contacts"
  }

  /** The methods of the notebook, the ones `OwnerOf` gives to "notes". */
  predicate NotesOp(op: Op) {
    op.MakeNote? || op.ChangeNote? || op.RemoveNote? || op.ShowNotes? || op.SearchNotes?
  }

  /** The command word each method is stored under. */
  function WordOf(op: Op): string {
    match op
    case SortFolder => "sort"
    case MakeNote => "make"
    case AddContact => "add"
    case ChangeNote | ChangeContact => "change"
    case RemoveNote | RemoveContact => "remove"
    case ShowNotes | ShowContacts => "show"
    case SearchNotes | SearchContacts => "search"
    case CheckBirthdays => "birthdays"
  }

  /** `_get_handler(name)`: the first feature whose name is `name`. */
  function GetHandler(fs: seq<BotFeature>, name: string): (r: Option<BotFeature>)
    ensures r.None? <==> forall i :: 0 <= i < |fs| ==> fs[i].name != name
    ensures r.Some? ==> exists i :: (0 <= i < |fs| && fs[i] == r.value && r.value.name == name
      && forall j :: 0 <= j < i ==> fs[j].name != name)
  {
    if fs == [] then None
    else if fs[0].name == name then Some(fs[0])
    else
      var r := GetHandler(fs[1..], name);
      assert r.Some? ==> exists i :: (0 <= i < |fs| && fs[i] == r.value && r.value.name == name
        && forall j :: 0 <= j < i ==> fs[j].name != name) by {
        if r.Some? {
          var i :| 0 <= i < |fs[1..]| && fs[1..][i] == r.value && r.value.name == name
            && forall j :: 0 <= j < i ==> fs[1..][j].name != name;
          assert fs[i + 1] == r.value;
          forall j | 0 <= j < i + 1
            ensures fs[j].name != name
          {
            if j > 0 {
              assert fs[j] == fs[1..][j - 1];
            }
          }
        }
      }
      r
  }

  /** The first feature with a name is the one `_get_handler` finds. */
  lemma FirstFeature(fs: seq<BotFeature>, name: string, i: nat)
    requires i < |fs| && fs[i].name == name
    requires forall j :: 0 <= j < i ==> fs[j].name != name
    ensures GetHandler(fs, name) == Some(fs[i])
  {
    var r := GetHandler(fs, name);
    var k :| 0 <= k < |fs| && fs[k] == r.value && r.value.name == name
      && forall j :: 0 <= j < k ==> fs[j].name != name;
    assert !(k < i) && !(i < k);
  }

  /** Every method is stored in its owner's table under its word, and that
      feature is the one `_get_handler` finds for the owner's name. */
  lemma TablesHoldEveryOp(op: Op)
    ensures GetHandler(Features, OwnerOf(op)).Some?
    ensures Find(GetHandler(Features, OwnerOf(op)).value.table, WordOf(op)).Some?
    ensures Find(GetHandler(Features, OwnerOf(op)).value.table, WordOf(op)).value.call == op
  {
    if op == SortFolder {
      FirstFeature(Features, "files", 0);
    } else if OwnerOf(op) == "notes" {
      FirstFeature(Features, "notes", 1);
      NotesHold(op);
    } else {
      FirstFeature(Features, "contacts", 2);
      ContactsHold(op);
    }
  }

  lemma NotesHold(op: Op)
    requires OwnerOf(op) == "notes"
    ensures Find(NotesFeature.table, WordOf(op)).Some? && Find(NotesFeature.table, WordOf(op)).value.call == op
  {
    var t := NotesFeature.table;
    match op
    case MakeNote => assert t[0].key == "make";
    case ChangeNote => assert t[1].key == "change";
    case RemoveNote => assert t[2].key == "remove";
    case ShowNotes => assert t[3].key == "show";
    case SearchNotes => assert t[4].key == "search";
  }

  lemma ContactsHold(op: Op)
    requires OwnerOf(op) == "contacts"
    ensures Find(ContactsFeature.table, WordOf(op)).Some? && Find(ContactsFeature.table, WordOf(op)).value.call == op
  {
    var t := ContactsFeature.table;
    match op
    case AddContact => assert t[0].key == "add";
    case ChangeContact => assert t[1].key == "change";
    case RemoveContact => assert t[2].key == "remove";
    case ShowContacts => assert t[3].key == "show";
    case CheckBirthdays => assert t[4].key == "birthdays";
    case SearchContacts => assert t[5].key == "search";
  }

  // ---------------------------------------------------------------------------
  // Calling a method

  /** A method's parameter list after `self`: any number of words, or at most
      one named parameter. `qualname` is how Python names the method in an
      arity error. */
  datatype Signature = Variadic | Fixed(qualname: string, param: Option<string>)

  function SignatureOf(op: Op): Signature {
    match op
    case MakeNote => Fixed("Notebook.make_note", None)
    case ShowNotes | ShowContacts => Fixed("RecordsContainer.show_all", None)
    case SearchNotes | SearchContacts => Fixed("RecordsContainer.search_record", Some("needle"))
    case AddContact => Fixed("AddressBook.add_contact", None)
    case CheckBirthdays => Fixed("AddressBook.check_birthdays", Some("period"))
    case _ => Variadic
  }

  /** How many words a fixed parameter list takes. */
  function Arity(s: Signature): nat
    requires s.Fixed?
  {
    if s.param.Some? then 1 else 0
  }

  /** The `TypeError` Python raises before calling a method with the wrong
      number of arguments; `self` counts as one of the positional arguments
      the message mentions. */
  function ArityError(s: Signature, given: nat): (r: Option<Exception>)
    ensures r.None? <==> s.Variadic? || given == Arity(s)
    ensures r.Some? ==> r.value.TypeError? && IsPrefix(s.qualname + "() ", r.value.msg)
    ensures r.Some? && given < Arity(s) ==> EndsWith(r.value.msg, "'" + s.param.value + "'")
    ensures r.Some? && given > Arity(s) ==> EndsWith(r.value.msg, NatToString(given + 1) + " were given")
  {
    if s.Variadic? || given == Arity(s) then None
    else if given < Arity(s) then
      Some(TypeError(s.qualname + "() " + "missing 1 required positional argument: " + ("'" + s.param.value + "'")))
    else
      Some(TypeError(s.qualname + "() " + "takes " + NatToString(Arity(s) + 1)
        + (if s.param.Some? then " positional arguments" else " positional argument")
        + " but " + (NatToString(given + 1) + " were given")))
  }

  /** The methods that only read the data and never prompt. */
  predicate ReadOnly(op: Op) {
    op.ShowNotes? || op.SearchNotes? || op.ShowContacts? || op.SearchContacts? || op.CheckBirthdays?
  }

  /** Calling a method with arguments whose number it accepts. */
  function Invoke(h: Host, b: Bot, op: Op, args: seq<string>, io: Io): (r: Session<Bot>)
    requires HostOk(h) && BotOk(h, b)
    ensures BotOk(h, r.state) && Follows(io, r.io)
    ensures ArityError(SignatureOf(op), |args|).Some? ==>
      r == Session(b, io, Raise(ArityError(SignatureOf(op), |args|).value))
    ensures ReadOnly(op) ==> r.state == b && r.io == io
    ensures !op.SortFolder? ==> r.state.fs == b.fs
    ensures !NotesOp(op) ==> r.state.notes == b.notes
    ensures op.SortFolder? || NotesOp(op) ==> r.state.book == b.book
  {
    match ArityError(SignatureOf(op), |args|)
    case Some(e) => Session(b, io, Raise(e))
    case None => Dispatch(h, b, op, args, io)
  }

  /** The method run once its arguments are accepted. */
  function Dispatch(h: Host, b: Bot, op: Op, args: seq<string>, io: Io): (r: Session<Bot>)
    requires HostOk(h) && BotOk(h, b)
    requires SignatureOf(op).Variadic? || |args| == Arity(SignatureOf(op))
    ensures BotOk(h, r.state) && Follows(io, r.io)
    ensures ReadOnly(op) ==> r.state == b && r.io == io
    ensures !op.SortFolder? ==> r.state.fs == b.fs
    ensures !NotesOp(op) ==> r.state.notes == b.notes
    ensures op.SortFolder? || NotesOp(op) ==> r.state.book == b.book
  {
    if ReadOnly(op) then Session(b, io, Query(h, b, op, args))
    else if op == SortFolder then InvokeFiles(h, b, args, io)
    else if NotesOp(op) then InvokeNotes(h, b, op, args, io)
    else InvokeContacts(h, b, op, args, io)
  }

  /** `Files.sort(*args)`. */
  function InvokeFiles(h: Host, b: Bot, args: seq<string>, io: Io): (r: Session<Bot>)
    requires HostOk(h) && BotOk(h, b)
    ensures BotOk(h, r.state) && r.io == io
    ensures r.state.notes == b.notes && r.state.book == b.book
  {
    var s := Files.Sort(h.u, h.unpack, b.fs, args);
    Files.SortKeepsShape(h.u, h.unpack, b.fs, args);
    Session(b.(fs := s.fs), io, s.out)
  }

  /** The methods that only read: they answer from the data, and only
      `check_birthdays` can fail, with a `ValueError`. */
  function Query(h: Host, b: Bot, op: Op, args: seq<string>): (r: Outcome<string>)
    requires HostOk(h) && BotOk(h, b)
    requires ReadOnly(op) && |args| == Arity(SignatureOf(op))
    ensures r.Raise? ==> op.CheckBirthdays? && r.exc.ValueError?
  {
    match op
    case ShowNotes => Return(ShowAll(b.notes, Notebook.NoteText))
    case SearchNotes => Return(Search(h.u, b.notes, Notebook.NoteText, args[0]))
    case ShowContacts => Return(ShowAll(b.book, ContactFields.ContactText))
    case SearchContacts => Return(Search(h.u, b.book, ContactFields.ContactText, args[0]))
    case CheckBirthdays => AddressBook.CheckBirthdays(h.u, h.cal.today, b.book, args[0])
  }

  /** The methods of the notebook that change it. */
  function InvokeNotes(h: Host, b: Bot, op: Op, args: seq<string>, io: Io): (r: Session<Bot>)
    requires HostOk(h) && BotOk(h, b)
    requires NotesOp(op) && !ReadOnly(op)
    ensures BotOk(h, r.state) && Follows(io, r.io)
    ensures r.state.fs == b.fs && r.state.book == b.book
  {
    match op
    case MakeNote => MakeNoteCall(h, b, io)
    case ChangeNote => ChangeNoteCall(h, b, args, io)
    case RemoveNote => RemoveNoteCall(h, b, args, io)
  }

  /** The methods of the address book that change it. */
  function InvokeContacts(h: Host, b: Bot, op: Op, args: seq<string>, io: Io): (r: Session<Bot>)
    requires HostOk(h) && BotOk(h, b)
    requires !op.SortFolder? && !NotesOp(op) && !ReadOnly(op)
    ensures BotOk(h, r.state) && Follows(io, r.io)
    ensures r.state.fs == b.fs && r.state.notes == b.notes
  {
    match op
    case AddContact => AddContactCall(h, b, io)
    case ChangeContact => ChangeContactCall(h, b, args, io)
    case RemoveContact => RemoveContactCall(h, b, args, io)
  }

  /** `make_note` on the bot's notebook. */
  function MakeNoteCall(h: Host, b: Bot, io: Io): (r: Session<Bot>)
    requires HostOk(h) && BotOk(h, b)
    ensures BotOk(h, r.state) && Follows(io, r.io)
    ensures r.state.fs == b.fs && r.state.book == b.book
  {
    var s := Notebook.MakeNote(h.u, h.cal.today, b.notes, io);
    Session(b.(notes := s.state), s.io, s.out)
  }

  /** `change_note(*args)` on the bot's notebook. */
  function ChangeNoteCall(h: Host, b: Bot, args: seq<string>, io: Io): (r: Session<Bot>)
    requires HostOk(h) && BotOk(h, b)
    ensures BotOk(h, r.state) && Follows(io, r.io)
    ensures r.state.fs == b.fs && r.state.book == b.book
  {
    var s := Notebook.ChangeNote(h.u, b.notes, args, io);
    Session(b.(notes := s.state), s.io, s.out)
  }

  /** `remove_record(*args)` on the bot's notebook. */
  function RemoveNoteCall(h: Host, b: Bot, args: seq<string>, io: Io): (r: Session<Bot>)
    requires HostOk(h) && BotOk(h, b)
    ensures BotOk(h, r.state) && r.io == io
    ensures r.state.fs == b.fs && r.state.book == b.book
  {
    var s := RemoveRecord(b.notes, args);
    RemoveKeepsNotes(h.u, b.notes, args);
    Session(b.(notes := s.after), io, s.out)
  }

  /** `add_contact` on the bot's address book. */
  function AddContactCall(h: Host, b: Bot, io: Io): (r: Session<Bot>)
    requires HostOk(h) && BotOk(h, b)
    ensures BotOk(h, r.state) && Follows(io, r.io)
    ensures r.state.fs == b.fs && r.state.notes == b.notes
  {
    var s := AddressBook.AddContact(h.u, h.cal, b.book, io);
    Session(b.(book := s.state), s.io, s.out)
  }

  /** `change_contact(*args)` on the bot's address book. */
  function ChangeContactCall(h: Host, b: Bot, args: seq<string>, io: Io): (r: Session<Bot>)
    requires HostOk(h) && BotOk(h, b)
    ensures BotOk(h, r.state) && Follows(io, r.io)
    ensures r.state.fs == b.fs && r.state.notes == b.notes
  {
    var s := AddressBook.ChangeContact(h.u, h.cal, b.book, args, io);
    Session(b.(book := s.state), s.io, s.out)
  }

  /** `remove_record(*args)` on the bot's address book. */
  function RemoveContactCall(h: Host, b: Bot, args: seq<string>, io: Io): (r: Session<Bot>)
    requires HostOk(h) && BotOk(h, b)
    ensures BotOk(h, r.state) && r.io == io
    ensures r.state.fs == b.fs && r.state.notes == b.notes
  {
    var s := RemoveRecord(b.book, args);
    RemoveKeepsBook(h.u, h.cal, b.book, args);
    Session(b.(book := s.after), io, s.out)
  }

  lemma RemoveKeepsNotes(u: Unicode, notes: Notebook.Notes, args: seq<string>)
    requires Notebook.NotesOk(u, notes)
    ensures Notebook.NotesOk(u, RemoveRecord(notes, args).after)
  {
    var after := RemoveRecord(notes, args).after;
    forall i | 0 <= i < |after|
      ensures Notebook.TitleValid(u, after[i].rec.title)
    {
      assert after[i] in notes;
    }
  }

  lemma RemoveKeepsBook(u: Unicode, cal: Calendar, book: AddressBook.Book, args: seq<string>)
    requires AddressBook.BookOk(u, cal, book)
    ensures AddressBook.BookOk(u, cal, RemoveRecord(book, args).after)
  {
    var after := RemoveRecord(book, args).after;
    forall i | 0 <= i < |after|
      ensures after[i].key == after[i].rec.name && AddressBook.ContactOk(u, cal, after[i].rec)
    {
      assert after[i] in book;
    }
  }

  // ---------------------------------------------------------------------------
  // input_error and handle

  /** The exceptions `input_error` turns into text. */
  predicate Caught(e: Exception) {
    e.TypeError? || e.KeyError? || e.ValueError?
  }

  const MissingInfo := "Invalid input, some info is missing: "
  const Sorry := "Sorry: "
  const ValueErrorText := "ValueError: "

  /** `input_error`: a caught exception becomes the text `handle` returns, with
      a prefix telling which kind it was; anything else passes through. */
  function InputError(u: Unicode, out: Outcome<string>): (r: Outcome<string>)
    ensures r.Raise? <==> out.Raise? && !Caught(out.exc)
    ensures r.Raise? || out.Return? ==> r == out
  {
    match out
    case Return(_) => out
    case Raise(e) =>
      if e.TypeError? then Return(MissingInfo + Str(u, e))
      else if e.KeyError? then Return(Sorry + Str(u, e))
      else if e.ValueError? then Return(ValueErrorText + Str(u, e))
      else out
  }

  /** Reads the exception back from the text `input_error` made of it. */
  function Recover(text: string): Option<Exception> {
    if IsPrefix(MissingInfo, text) then Some(TypeError(text[|MissingInfo|..]))
    else if IsPrefix(Sorry, text) then
      match ParseRepr(text[|Sorry|..])
      case Some(m) => Some(KeyError(m))
      case None => None
    else if IsPrefix(ValueErrorText, text) then Some(ValueError(text[|ValueErrorText|..]))
    else None
  }

  /** The text of a caught exception tells which exception it was. */
  lemma InputErrorRecoverable(u: Unicode, e: Exception)
    requires Caught(e)
    ensures InputError(u, Raise(e)).Return?
    ensures Recover(InputError(u, Raise(e)).value) == Some(e)
  {
    var t := InputError(u, Raise(e)).value;
    match e
    case TypeError(m) =>
      assert t[..|MissingInfo|] == MissingInfo;
      assert t[|MissingInfo|..] == m;
    case KeyError(m) =>
      assert !IsPrefix(MissingInfo, t) by {
        if |MissingInfo| <= |t| {
          assert t[..|MissingInfo|][0] == 'S';
        }
      }
      assert t[..|Sorry|] == Sorry;
      assert t[|Sorry|..] == Repr(u, m);
      ReprRoundTrip(u, m);
    case ValueError(m) =>
      assert !IsPrefix(MissingInfo, t) && !IsPrefix(Sorry, t) by {
        if |MissingInfo| <= |t| {
          assert t[..|MissingInfo|][0] == 'V';
        }
        assert t[..|Sorry|][0] == 'V';
      }
      assert t[..|ValueErrorText|] == ValueErrorText;
      assert t[|ValueErrorText|..] == m;
  }

  const OutOfRange := "list index out of range"
  const NoFeature := "Unexpected command: None"

  /** The body of `handle`, before `input_error` sees its outcome. */
  function Route(h: Host, b: Bot, name: string, args: seq<string>, io: Io): (r: Session<Bot>)
    requires HostOk(h) && BotOk(h, b)
    ensures BotOk(h, r.state) && Follows(io, r.io)
    ensures GetHandler(Features, name).None? ==> r == Session(b, io, Raise(ValueError(NoFeature)))
    ensures GetHandler(Features, name).Some? && args == [] ==> r == Session(b, io, Raise(IndexError(OutOfRange)))
    ensures GetHandler(Features, name).Some? && args != [] && !Exists(GetHandler(Features, name).value.table, args[0]) ==>
      r == Session(b, io, Raise(ValueError(Unexpected)))
  {
    match GetHandler(Features, name)
    case None => Session(b, io, Raise(ValueError(NoFeature)))
    case Some(f) =>
      if args == [] then Session(b, io, Raise(IndexError(OutOfRange)))
      else
        match HandleCommand(f.table, args[0], args[1..])
        case Fail(e) => Session(b, io, Raise(e))
        case Call(op, rest) => Invoke(h, b, op, rest, io)
  }

  /** `input_error` applied to a call's outcome. */
  function Decorated(u: Unicode, s: Session<Bot>): (r: Session<Bot>)
    ensures r.state == s.state && r.io == s.io
    ensures r.out.Raise? <==> s.out.Raise? && !Caught(s.out.exc)
    ensures s.out.Return? ==> r.out == s.out
    ensures s.out.Raise? && s.out.exc.ValueError? ==> r.out == Return(ValueErrorText + s.out.exc.msg)
  {
    s.(out := InputError(u, s.out))
  }

  /** `handle(name, args)`. */
  function Handle(h: Host, b: Bot, name: string, args: seq<string>, io: Io): (r: Session<Bot>)
    requires HostOk(h) && BotOk(h, b)
    ensures BotOk(h, r.state) && Follows(io, r.io)
    ensures r.out.Raise? ==> !Caught(r.out.exc)
    ensures GetHandler(Features, name).None? ==> r == Session(b, io, Return(ValueErrorText + NoFeature))
    ensures GetHandler(Features, name).Some? && args == [] ==> r == Session(b, io, Raise(IndexError(OutOfRange)))
    ensures GetHandler(Features, name).Some? && args != [] && !Exists(GetHandler(Features, name).value.table, args[0]) ==>
      r == Session(b, io, Return(ValueErrorText + Unexpected))
  {
    Decorated(h.u, Route(h, b, name, args, io))
  }

  /** The feature's name followed by the command word reaches the method
      stored under it, with the remaining words as its arguments. */
  lemma HandleRoutes(h: Host, b: Bot, op: Op, rest: seq<string>, io: Io)
    requires HostOk(h) && BotOk(h, b)
    ensures Handle(h, b, OwnerOf(op), [WordOf(op)] + rest, io) == Decorated(h.u, Invoke(h, b, op, rest, io))
  {
    TablesHoldEveryOp(op);
    var args := [WordOf(op)] + rest;
    assert args[0] == WordOf(op) && args[1..] == rest;
  }

  /** A method with a fixed parameter list given one word too many: the text
      names the method and the counts, `self` included. With `HandleRoutes`,
      this is what `contacts show word` answers. */
  lemma ShowRefusesWord(h: Host, b: Bot, word: string, io: Io)
    requires HostOk(h) && BotOk(h, b)
    ensures Decorated(h.u, Invoke(h, b, ShowContacts, [word], io)) == Session(b, io, Return(MissingInfo + TakesNoWord))
  {
    ShowAllTakesNoWord();
  }

  /** CPython's message, in the pieces `ArityError` builds it from. */
  const TakesNoWord :=
    "RecordsContainer.show_all" + "() " + "takes " + "1" + " positional argument" + " but " + ("2" + " were given")

  lemma ShowAllTakesNoWord()
    ensures ArityError(SignatureOf(ShowContacts), 1) == Some(TypeError(TakesNoWord))
  {
    assert NatToString(1) == "1" && NatToString(2) == "2";
  }

  /** `handle` with the dispatch as written: whatever is typed, a known command
      is reported as missing information and nothing runs. */
  function HandleAsWritten(h: Host, b: Bot, name: string, args: seq<string>, io: Io): (r: Session<Bot>)
    ensures r.state == b && r.io == io
    ensures GetHandler(Features, name).Some? && args != [] && Exists(GetHandler(Features, name).value.table, args[0]) ==>
      r.out.Return? && r.out.value == MissingInfo + NotCallable
  {
    match GetHandler(Features, name)
    case None => Session(b, io, InputError(h.u, Raise(ValueError(NoFeature))))
    case Some(f) =>
      if args == [] then Session(b, io, Raise(IndexError(OutOfRange)))
      else Session(b, io, InputError(h.u, Raise(HandleCommandAsWritten(f.table, args[0], args[1..]).exc)))
  }

  /** Every command the tables offer fails as written, while the corrected
      dispatch runs its method. */
  lemma AsWrittenRunsNothing(h: Host, b: Bot, op: Op, rest: seq<string>, io: Io)
    requires HostOk(h) && BotOk(h, b)
    ensures HandleAsWritten(h, b, OwnerOf(op), [WordOf(op)] + rest, io).out == Return(MissingInfo + NotCallable)
    ensures Handle(h, b, OwnerOf(op), [WordOf(op)] + rest, io) == Decorated(h.u, Invoke(h, b, op, rest, io))
  {
    TablesHoldEveryOp(op);
    HandleRoutes(h, b, op, rest, io);
    var args := [WordOf(op)] + rest;
    assert args[0] == WordOf(op);
  }

  // ---------------------------------------------------------------------------
  // autocomplete and help

  /** How many command words the features have together. */
  function Total(fs: seq<BotFeature>): nat {
    if fs == [] then 0 else |fs[0].table| + Total(fs[1..])
  }

  /** `"{name} {word}"` for every word of a table, in table order. */
  function WordsOf(name: string, t: Table<Op>): (r: seq<string>)
    ensures |r| == |t|
    ensures forall j :: 0 <= j < |t| ==> r[j] == name + " " + t[j].key
  {
    if t == [] then [] else [name + " " + t[0].key] + WordsOf(name, t[1..])
  }

  /** The completion of command `j` of feature `i`. */
  function Named(fs: seq<BotFeature>, i: nat, j: nat): string
    requires i < |fs| && j < |fs[i].table|
  {
    fs[i].name + " " + fs[i].table[j].key
  }

  /** The completions after `"help"`: feature by feature, word by word. */
  function Completions(fs: seq<BotFeature>): (r: seq<string>)
    ensures |r| == Total(fs)
    ensures forall i, j :: 0 <= i < |fs| && 0 <= j < |fs[i].table| ==> Named(fs, i, j) in r
    ensures forall s :: s in r ==> exists i, j :: 0 <= i < |fs| && 0 <= j < |fs[i].table| && s == Named(fs, i, j)
  {
    if fs == [] then []
    else
      var head := WordsOf(fs[0].name, fs[0].table);
      var rest := Completions(fs[1..]);
      CompletionsStep(fs, head, rest);
      head + rest
  }

  /** The completions of the first feature, followed by those of the others,
      are the completions of all of them. */
  lemma CompletionsStep(fs: seq<BotFeature>, head: seq<string>, rest: seq<string>)
    requires fs != [] && head == WordsOf(fs[0].name, fs[0].table)
    requires forall i, j :: 0 <= i < |fs[1..]| && 0 <= j < |fs[1..][i].table| ==> Named(fs[1..], i, j) in rest
    requires forall s :: s in rest ==> exists i, j :: 0 <= i < |fs[1..]| && 0 <= j < |fs[1..][i].table| && s == Named(fs[1..], i, j)
    ensures forall i, j :: 0 <= i < |fs| && 0 <= j < |fs[i].table| ==> Named(fs, i, j) in head + rest
    ensures forall s :: s in head + rest ==> exists i, j :: 0 <= i < |fs| && 0 <= j < |fs[i].table| && s == Named(fs, i, j)
  {
    forall i, j | 0 <= i < |fs| && 0 <= j < |fs[i].table|
      ensures Named(fs, i, j) in head + rest
    {
      if i == 0 {
        assert head[j] == Named(fs, 0, j);
      } else {
        assert fs[1..][i - 1] == fs[i];
        assert Named(fs[1..], i - 1, j) == Named(fs, i, j);
      }
    }
    forall s | s in head + rest
      ensures exists i, j :: 0 <= i < |fs| && 0 <= j < |fs[i].table| && s == Named(fs, i, j)
    {
      if s in head {
        var j :| 0 <= j < |head| && head[j] == s;
        assert s == Named(fs, 0, j);
      } else {
        var i, j :| 0 <= i < |fs[1..]| && 0 <= j < |fs[1..][i].table| && s == Named(fs[1..], i, j);
        assert fs[1..][i] == fs[i + 1];
        assert s == Named(fs, i + 1, j);
      }
    }
  }

  /** `autocomplete()`: `"help"`, then `"{feature} {word}"` for every command. */
  function Autocomplete(fs: seq<BotFeature>): (r: seq<string>)
    ensures |r| == 1 + Total(fs) && r[0] == "help"
    ensures forall i, j :: 0 <= i < |fs| && 0 <= j < |fs[i].table| ==> Named(fs, i, j) in r[1..]
    ensures forall s :: s in r[1..] ==> exists i, j :: 0 <= i < |fs| && 0 <= j < |fs[i].table| && s == Named(fs, i, j)
  {
    var rest := Completions(fs);
    assert (["help"] + rest)[1..] == rest;
    ["help"] + rest
  }

  /** In the bot's own tables every word belongs to its feature: the method
      stored under it is owned by that feature and stored under that word. */
  lemma TablesAgree(i: nat, j: nat)
    requires i < |Features| && j < |Features[i].table|
    ensures OwnerOf(Features[i].table[j].rec.call) == Features[i].name
    ensures WordOf(Features[i].table[j].rec.call) == Features[i].table[j].key
  {
  }

  /** Every completion the prompt offers names a method: the feature that owns
      it and the word it is stored under. */
  lemma CompletionsAreCommands(k: nat)
    requires 1 <= k < |Autocomplete(Features)|
    ensures exists op :: Autocomplete(Features)[k] == OwnerOf(op) + " " + WordOf(op)
  {
    var r := Autocomplete(Features);
    assert r[k] == r[1..][k - 1] && r[k] in r[1..];
    var i, j :| 0 <= i < |Features| && 0 <= j < |Features[i].table| && Autocomplete(Features)[k] == Named(Features, i, j);
    TablesAgree(i, j);
    var op := Features[i].table[j].rec.call;
    assert Autocomplete(Features)[k] == OwnerOf(op) + " " + WordOf(op);
  }

  const HelpHeader := "To work with a bot type in:\n"

  /** The help line of one command. */
  function UsageLine(usage: string): string {
    "- " + usage + "\n"
  }

  /** The help lines of a table, in table order. */
  function UsageLines(t: Table<Op>): string {
    if t == [] then [] else UsageLine(t[0].rec.usage) + UsageLines(t[1..])
  }

  function HelpBody(fs: seq<BotFeature>): string {
    if fs == [] then [] else UsageLines(fs[0].table) + HelpBody(fs[1..])
  }

  /** `help()`: the header, then a line per command with its usage. */
  function Help(fs: seq<BotFeature>): (r: string)
    ensures IsPrefix(HelpHeader, r)
  {
    HelpHeader + HelpBody(fs)
  }

  /** No usage text breaks a line. */
  predicate UsagesPlain(fs: seq<BotFeature>) {
    forall i, j :: 0 <= i < |fs| && 0 <= j < |fs[i].table| ==> '\n' !in fs[i].table[j].rec.usage
  }

  lemma {:induction false} UsageLinesCount(t: Table<Op>)
    requires forall j :: 0 <= j < |t| ==> '\n' !in t[j].rec.usage
    ensures CountChar(UsageLines(t), '\n') == |t|
  {
    if t != [] {
      var usage := t[0].rec.usage;
      UsageLinesCount(t[1..]);
      CountCharAppend(UsageLine(usage), UsageLines(t[1..]), '\n');
      CountCharAppend("- " + usage, "\n", '\n');
      CountCharAppend("- ", usage, '\n');
      CountCharAbsent(usage, '\n');
    }
  }

  lemma {:induction false} HelpBodyCount(fs: seq<BotFeature>)
    requires UsagesPlain(fs)
    ensures CountChar(HelpBody(fs), '\n') == Total(fs)
  {
    if fs != [] {
      assert forall j :: 0 <= j < |fs[0].table| ==> '\n' !in fs[0].table[j].rec.usage;
      UsageLinesCount(fs[0].table);
      assert UsagesPlain(fs[1..]) by {
        forall i, j | 0 <= i < |fs[1..]| && 0 <= j < |fs[1..][i].table|
          ensures '\n' !in fs[1..][i].table[j].rec.usage
        {
          assert fs[1..][i] == fs[i + 1];
        }
      }
      HelpBodyCount(fs[1..]);
      CountCharAppend(UsageLines(fs[0].table), HelpBody(fs[1..]), '\n');
    }
  }

  /** After its header the help text has one line per command: as many as
      there are completions besides `"help"`. */
  lemma HelpLineCount(fs: seq<BotFeature>)
    requires UsagesPlain(fs)
    ensures CountChar(Help(fs)[|HelpHeader|..], '\n') == Total(fs) == |Autocomplete(fs)| - 1
  {
    HelpBodyCount(fs);
    assert Help(fs)[|HelpHeader|..] == HelpBody(fs);
  }

  lemma {:induction false} UsageLinesList(t: Table<Op>, j: nat)
    requires j < |t|
    ensures Occurs(UsageLine(t[j].rec.usage), UsageLines(t))
  {
    var head := UsageLine(t[0].rec.usage);
    if j == 0 {
      OccursWhole(head);
      OccursAppend(head, head, UsageLines(t[1..]));
    } else {
      UsageLinesList(t[1..], j - 1);
      OccursPrepend(UsageLine(t[j].rec.usage), head, UsageLines(t[1..]));
    }
  }

  lemma {:induction false} HelpBodyLists(fs: seq<BotFeature>, i: nat, j: nat)
    requires i < |fs| && j < |fs[i].table|
    ensures Occurs(UsageLine(fs[i].table[j].rec.usage), HelpBody(fs))
  {
    var line := UsageLine(fs[i].table[j].rec.usage);
    if i == 0 {
      UsageLinesList(fs[0].table, j);
      OccursAppend(line, UsageLines(fs[0].table), HelpBody(fs[1..]));
    } else {
      assert fs[1..][i - 1] == fs[i];
      HelpBodyLists(fs[1..], i - 1, j);
      OccursPrepend(line, UsageLines(fs[0].table), HelpBody(fs[1..]));
    }
  }

  /** Every command's usage appears in the help, on a line of its own. */
  lemma HelpListsEvery(fs: seq<BotFeature>, i: nat, j: nat)
    requires i < |fs| && j < |fs[i].table|
    ensures Occurs("- " + fs[i].table[j].rec.usage + "\n", Help(fs))
  {
    HelpBodyLists(fs, i, j);
    OccursPrepend(UsageLine(fs[i].table[j].rec.usage), HelpHeader, HelpBody(fs));
  }
}

=== FILE: bot_feature.dfy ===
/**
 The command table every feature shares. A feature maps each of its command
 words to a pair: the bound method that runs the command, and the usage line
 `help` shows. `F` stands for the bound method.

 The dispatch as written calls the pair itself instead of its first element.
 A two-element tuple is always truthy, so every known command word reaches
 that call, which raises `TypeError`. `HandleCommand` is the corrected
 dispatch, which calls the method; the rest of the model uses it.
 */
module Feature {
  import opened Errors
  import opened Records

  /** The value a command word maps to: the method and its usage line. */
  datatype Handler<F> = Handler(call: F, usage: string)

  /** `command_handlers`, in insertion order, one item per command word. */
  type Table<F> = seq<Item<Handler<F>>>

  /** What `handle_command` does: call a method with arguments, or raise. */
  datatype Dispatch<F> = Call(call: F, args: seq<string>) | Fail(exc: Exception)

  const NotCallable := "'tuple' object is not callable"
  const Unexpected := "Unexpected command"

  /** `handle_command` as written: the handler it finds is the pair, and calling
      a tuple raises. */
  function HandleCommandAsWritten<F>(t: Table<F>, command: string, args: seq<string>): (r: Dispatch<F>)
    ensures r.Fail?
    ensures Exists(t, command) <==> r.exc == TypeError(NotCallable)
    ensures !Exists(t, command) <==> r.exc == ValueError(Unexpected)
  {
    match Find(t, command)
    case Some(_) => Fail(TypeError(NotCallable))
    case None => Fail(ValueError(Unexpected))
  }

  /** `handle_command` with the method taken out of the pair. */
  function HandleCommand<F>(t: Table<F>, command: string, args: seq<string>): (r: Dispatch<F>)
    ensures r.Call? <==> Exists(t, command)
    ensures r.Call? ==> (exists i :: 0 <= i < |t| && t[i].key == command && t[i].rec.call == r.call) && r.args == args
    ensures r.Fail? ==> r.exc == ValueError(Unexpected)
  {
    match Find(t, command)
    case Some(h) => Call(h.call, args)
    case None => Fail(ValueError(Unexpected))
  }

  /** In a table without repeated words, the method called is the one stored
      under the word. */
  lemma HandleCommandCalls<F>(t: Table<F>, i: nat, args: seq<string>)
    requires Keyed(t) && i < |t|
    ensures HandleCommand(t, t[i].key, args) == Call(t[i].rec.call, args)
  {
    FindItem(t, i);
  }

  /** The two dispatches part exactly on the known words: there the corrected
      one calls the method and the one as written raises `TypeError`;
      elsewhere both raise the same `ValueError`. */
  lemma AsWrittenNeverCalls<F>(t: Table<F>, command: string, args: seq<string>)
    ensures Exists(t, command) ==>
      HandleCommand(t, command, args).Call? && HandleCommandAsWritten(t, command, args) == Fail(TypeError(NotCallable))
    ensures !Exists(t, command) ==> HandleCommand(t, command, args) == HandleCommandAsWritten(t, command, args)
  {
  }
}

=== FILE: categories.dfy ===
/**
 The extension tuples of the sorter and the choice of a category folder from
 the lower-cased last suffix of a normalised name.
 */
module Categories {
  import opened Errors
  import opened Text
  import opened Names

  datatype Category = Images | Videos | Documents | Audio | Archives

  const ImageExts: seq<string> := [".jpeg", ".png", ".jpg", ".svg", ".bmp", ".heic"]
  const VideoExts: seq<string> := [".avi", ".mp4", ".mov", ".mkv"]
  const DocExts: seq<string> := [".doc", ".docx", ".txt", ".pdf", ".xls", ".pptx", ".xlsx"]
  const AudioExts: seq<string> := [".mp3", ".ogg", ".wav", ".amr"]
  const ArchiveExts: seq<string> := [".zip", ".gz", ".tar", ".tar.gz"]

  function Extensions(c: Category): seq<string>
  {
    match c
    case Images => ImageExts
    case Videos => VideoExts
    case Documents => DocExts
    case Audio => AudioExts
    case Archives => ArchiveExts
  }

  /** The folder, inside the walked directory, that collects a category. */
  function Folder(c: Category): string
  {
    match c
    case Images => "images"
    case Videos => "video"
    case Documents => "documents"
    case Audio => "audio"
    case Archives => "archives"
  }

  /** `ignored_folders`: sub-directories the walk never enters. */
  const Ignored: seq<string> := ["images", "video", "documents", "audio", "archives"]

  predicate IsReserved(n: string) {
    n in Ignored
  }

  /** The `if`/`elif` chain of `sort_folder`: images, then video, documents,
      audio and archives. */
  function CategoryOf(ext: string): (r: Option<Category>)
  {
    if ext in ImageExts then Some(Images)
    else if ext in VideoExts then Some(Videos)
    else if ext in DocExts then Some(Documents)
    else if ext in AudioExts then Some(Audio)
    else if ext in ArchiveExts then Some(Archives)
    else None
  }

  /** The category of a (normalised) name: its last suffix, lower-cased. */
  function Classify(u: Unicode, m: string): (r: Option<Category>)
    ensures forall cat :: r == Some(cat) <==> Lower(u, Suffix(m)) in Extensions(cat)
  {
    CategoryOfAll(Lower(u, Suffix(m)));
    CategoryOf(Lower(u, Suffix(m)))
  }

  /** The five tuples share no extension, so the order of the chain does not
      matter: an extension selects a category exactly when the category's tuple
      lists it. */
  lemma CategoryOfIff(ext: string, c: Category)
    ensures CategoryOf(ext) == Some(c) <==> ext in Extensions(c)
  {
  }

  lemma CategoryOfAll(ext: string)
    ensures forall c :: CategoryOf(ext) == Some(c) <==> ext in Extensions(c)
  {
    forall c: Category ensures CategoryOf(ext) == Some(c) <==> ext in Extensions(c) {
      CategoryOfIff(ext, c);
    }
  }

  /** Every listed extension starts with a dot and holds at least one more
      character. */
  lemma ExtensionShape(c: Category, ext: string)
    requires ext in Extensions(c)
    ensures |ext| >= 2 && ext[0] == '.'
  {
  }

  /** `.tar.gz` is listed but can never be selected: a suffix holds at most
      one dot, and lower-casing adds none. */
  lemma TarGzUnreachable(u: Unicode, m: string)
    requires Sane(u)
    ensures Lower(u, Suffix(m)) != ".tar.gz"
  {
    SuffixDots(m);
    LowerKeepsDots(u, Suffix(m));
    assert CountChar(".tar.gz", '.') == 2;
  }

  /** A name without a suffix is never moved. */
  lemma NoSuffixNoCategory(u: Unicode, m: string)
    requires Suffix(m) == []
    ensures Classify(u, m) == None
  {
  }

  /** A classified name has a non-empty stem and a suffix, hence a dot, so it
      is never one of the category folders' names. */
  lemma ClassifiedShape(u: Unicode, m: string)
    requires Classify(u, m).Some?
    ensures Suffix(m) != [] && Stem(m) != []
    ensures '.' in m
    ensures !IsReserved(m)
  {
    StemSuffix(m);
    assert Suffix(m)[0] == '.';
    assert m[SuffixStart(m)] == '.';
    assert '.' !in "images" && '.' !in "video" && '.' !in "documents";
    assert '.' !in "audio" && '.' !in "archives";
  }

  /** The category folders' own names carry no dot, so no category. */
  lemma ReservedUnclassified(u: Unicode, m: string)
    requires IsReserved(m)
    ensures Classify(u, m) == None
  {
    assert '.' !in "images" && '.' !in "video" && '.' !in "documents";
    assert '.' !in "audio" && '.' !in "archives";
    assert LastDot(m) == None;
  }

  lemma FolderIsReserved(c: Category)
    ensures IsReserved(Folder(c))
  {
  }

  /** An upper-case suffix is lower-cased before the lookup. */
  lemma ClassifyUpperCase(u: Unicode, stem: string)
    requires Sane(u) && stem != []
    ensures Classify(u, stem + ".JPG") == Some(Images)
  {
    assert Extension(".JPG");
    SplitJoined(stem, ".JPG");
    LowerJpg(u);
  }

  lemma LowerJpg(u: Unicode)
    requires Sane(u)
    ensures Lower(u, ".JPG") == ".jpg"
  {
    assert LowersAscii(u);
    assert u.lower('G') == "g";
    assert Lower(u, "G") == "g";
    assert u.lower('P') == "p";
    assert Lower(u, "PG") == "p" + Lower(u, "G");
    assert u.lower('J') == "j";
    assert Lower(u, "JPG") == "j" + Lower(u, "PG");
    assert u.lower('.') == ".";
    assert Lower(u, ".JPG") == "." + Lower(u, "JPG");
  }
}

=== FILE: console.dfy ===
/**
 The terminal as the features see it: `input()` takes the next line typed,
 and raises `EOFError` once there is none; `print` appends a line to what
 the user has been shown. The prompt texts `input` writes before reading are
 not recorded.
 */
module Console {
  import opened Errors

  datatype Io = Io(lines: seq<string>, shown: seq<string>)

  /** A conversation's effect: the state it leaves, the terminal after it,
      and what the call returned or raised. */
  datatype Session<S> = Session(state: S, io: Io, out: Outcome<string>)

  /** After one pass of a question loop: ask again, or finish with a result. */
  datatype Next = Again | Stop(out: Outcome<string>)

  /** `input(prompt)`. */
  function Input(io: Io): (r: (Outcome<string>, Io))
    ensures io.lines == [] ==> r == (Raise(EndOfInput), io)
    ensures io.lines != [] ==> r.0 == Return(io.lines[0]) && r.1 == io.(lines := io.lines[1..])
    ensures Follows(io, r.1)
  {
    if io.lines == [] then (Raise(EndOfInput), io)
    else (Return(io.lines[0]), io.(lines := io.lines[1..]))
  }

  /** `print(s)`. */
  function Print(io: Io, s: string): (r: Io)
    ensures r.lines == io.lines && r.shown == io.shown + [s]
  {
    io.(shown := io.shown + [s])
  }

  /** `later` is `io` after some lines were read and some printed: the lines
      left are a suffix of the lines there were, and the lines shown extend
      those shown before. */
  predicate Follows(io: Io, later: Io) {
    && |later.lines| <= |io.lines| && later.lines == io.lines[|io.lines| - |later.lines|..]
    && |io.shown| <= |later.shown| && later.shown[..|io.shown|] == io.shown
  }

  lemma FollowsTransitive(a: Io, b: Io, c: Io)
    requires Follows(a, b) && Follows(b, c)
    ensures Follows(a, c)
  {
    assert c.shown[..|a.shown|] == c.shown[..|b.shown|][..|a.shown|];
    assert c.lines == b.lines[|b.lines| - |c.lines|..];
    assert a.lines[|a.lines| - |c.lines|..] == a.lines[|a.lines| - |b.lines|..][|b.lines| - |c.lines|..];
  }
}

=== FILE: contact_fields.dfy ===
/**
 The fields of an address-book record and the record itself: a name of 2 to
 30 characters, phones and an email accepted by regular expressions, a
 birthday not in the future, a free-form address, and the countdown to the
 next birthday.
 */
module ContactFields {
  import opened Errors
  import opened Text
  import opened Dates
  import opened Patterns

  // ---------------------------------------------------------------------------
  // Name

  const NameLength := "Name must be between 2 and 30 characters."
  const NoName := "The record must have a name."

  // ---------------------------------------------------------------------------
  // Phone: `(\+?\d{12}|\d{10})`, matched at the start

  predicate IsPlus(c: char) { c == '+' }

  function PhonePattern(u: Unicode): Re {
    Alt(Cat(Run(IsPlus, 0, Some(1)), Run(u.isDecimal, 12, Some(12))), Run(u.isDecimal, 10, Some(10)))
  }

  /** A phone is accepted when it starts with '+' and twelve digits, or with ten
      digits; whatever follows is kept but not checked. (Twelve leading digits
      already include ten.) */
  predicate PhoneValid(u: Unicode, s: string) {
    (|s| >= 13 && s[0] == '+' && AllIn(u.isDecimal, s, 1, 13))
    || (|s| >= 10 && AllIn(u.isDecimal, s, 0, 10))
  }

  /** The direct check accepts exactly what the pattern matches. */
  lemma PhoneValidMatches(u: Unicode, s: string)
    ensures PhoneValid(u, s) <==> Matches(PhonePattern(u), s)
  {
    var plus := Run(IsPlus, 0, Some(1));
    var twelve := Run(u.isDecimal, 12, Some(12));
    var ten := Run(u.isDecimal, 10, Some(10));
    if |s| >= 13 && s[0] == '+' && AllIn(u.isDecimal, s, 1, 13) {
      assert 1 in Ends(plus, s, 0);
      assert 13 in Ends(twelve, s, 1);
      CatEnd(plus, twelve, s, 0, 1, 13);
    } else if |s| >= 10 && AllIn(u.isDecimal, s, 0, 10) {
      assert 10 in Ends(ten, s, 0);
    }
    if Matches(PhonePattern(u), s) {
      var k :| k in Ends(PhonePattern(u), s, 0);
      assert Ends(PhonePattern(u), s, 0) == Ends(Cat(plus, twelve), s, 0) + Ends(ten, s, 0);
      if k in Ends(Cat(plus, twelve), s, 0) {
        var j :| j in Ends(plus, s, 0) && k in Ends(twelve, s, j);
        if j == 0 {
          assert AllIn(u.isDecimal, s, 0, 10);
        } else {
          assert s[0] == '+';
          assert k == 13;
        }
      } else {
        assert k in Ends(ten, s, 0);
        assert k == 10;
      }
    }
  }

  const PhoneFormat := "Phone must be in format +380XXXXXXXXX/380XXXXXXXXX/0XXXXXXXXX"

  // ---------------------------------------------------------------------------
  // Email: `[a-zA-Z][a-zA-Z_.0-9]+@[a-zA-Z_]+?\.[a-zA-Z]{2,}`, matched at the start

  predicate LocalChar(c: char) { IsAsciiLetter(c) || c == '_' || c == '.' || IsAsciiDigit(c) }
  predicate DomainChar(c: char) { IsAsciiLetter(c) || c == '_' }

  predicate IsAt(c: char) { c == '@' }
  predicate IsDot(c: char) { c == '.' }

  /** `\.[a-zA-Z]{2,}` */
  function TopLevel(): Re {
    Cat(Run(IsDot, 1, Some(1)), Run(IsAsciiLetter, 2, None))
  }

  /** `[a-zA-Z_]+?\.[a-zA-Z]{2,}` */
  function Domain(): Re {
    Cat(Run(DomainChar, 1, None), TopLevel())
  }

  /** `@[a-zA-Z_]+?\.[a-zA-Z]{2,}` */
  function AtDomain(): Re {
    Cat(Run(IsAt, 1, Some(1)), Domain())
  }

  /** `[a-zA-Z_.0-9]+@[a-zA-Z_]+?\.[a-zA-Z]{2,}` */
  function Mailbox(): Re {
    Cat(Run(LocalChar, 1, None), AtDomain())
  }

  function EmailPattern(): Re {
    Cat(Run(IsAsciiLetter, 1, Some(1)), Mailbox())
  }

  /** The email check done directly: neither '@' nor '.' can extend the runs
      before them, so the '@' is the end of the run of local characters after
      the first letter, and the '.' the end of the run of domain characters
      after the '@'; two letters must follow the dot. */
  predicate EmailValid(s: string) {
    && |s| >= 1 && IsAsciiLetter(s[0])
    && var at := RunEnd(LocalChar, s, 1);
    && at >= 2 && at < |s| && s[at] == '@'
    && var dot := RunEnd(DomainChar, s, at + 1);
    && dot >= at + 2 && dot < |s| && s[dot] == '.'
    && RunEnd(IsAsciiLetter, s, dot + 1) >= dot + 3
  }

  /** One character of a class, then the rest of the pattern. */
  lemma OneThen(cls: char -> bool, rest: Re, s: string, i: nat)
    requires i <= |s|
    ensures Ends(Cat(Run(cls, 1, Some(1)), rest), s, i) != {}
        <==> i < |s| && cls(s[i]) && Ends(rest, s, i + 1) != {}
  {
    var head := Run(cls, 1, Some(1));
    if i < |s| && cls(s[i]) && Ends(rest, s, i + 1) != {} {
      var k :| k in Ends(rest, s, i + 1);
      assert i + 1 in Ends(head, s, i);
      CatEnd(head, rest, s, i, i + 1, k);
    }
    if Ends(Cat(head, rest), s, i) != {} {
      var k :| k in Ends(Cat(head, rest), s, i);
      var j :| j in Ends(head, s, i) && k in Ends(rest, s, j);
      assert j == i + 1;
    }
  }

  /** A run of at least `min` class characters, then a pattern that can only
      start at a character outside the class: the run must take all of the
      class characters there are. */
  lemma RunThen(cls: char -> bool, min: nat, rest: Re, stop: char, s: string, i: nat)
    requires i <= |s| && !cls(stop)
    requires forall j :: i <= j <= |s| && Ends(rest, s, j) != {} ==> j < |s| && s[j] == stop
    ensures Ends(Cat(Run(cls, min, None), rest), s, i) != {}
        <==> RunEnd(cls, s, i) >= i + min && Ends(rest, s, RunEnd(cls, s, i)) != {}
  {
    var run := Run(cls, min, None);
    var e := RunEnd(cls, s, i);
    if e >= i + min && Ends(rest, s, e) != {} {
      var k :| k in Ends(rest, s, e);
      assert e in Ends(run, s, i);
      CatEnd(run, rest, s, i, e, k);
    }
    if Ends(Cat(run, rest), s, i) != {} {
      var k :| k in Ends(Cat(run, rest), s, i);
      var j :| j in Ends(run, s, i) && k in Ends(rest, s, j);
      RunWithin(cls, s, i, j);
      assert j == e;
    }
  }

  /** What `\.[a-zA-Z]{2,}` needs at position `i`. */
  predicate TopLevelAt(s: string, i: nat) {
    i < |s| && s[i] == '.' && i + 1 <= |s| && RunEnd(IsAsciiLetter, s, i + 1) >= i + 3
  }

  /** What `[a-zA-Z_]+?\.[a-zA-Z]{2,}` needs at position `i`. */
  predicate DomainAt(s: string, i: nat)
    requires i <= |s|
  {
    var dot := RunEnd(DomainChar, s, i);
    dot >= i + 1 && TopLevelAt(s, dot)
  }

  lemma TopLevelEnds(s: string, i: nat)
    requires i <= |s|
    ensures Ends(TopLevel(), s, i) != {} <==> TopLevelAt(s, i)
  {
    var tail := Run(IsAsciiLetter, 2, None);
    OneThen(IsDot, tail, s, i);
    if i < |s| {
      var e := RunEnd(IsAsciiLetter, s, i + 1);
      if e >= i + 3 {
        assert e in Ends(tail, s, i + 1);
      }
      if Ends(tail, s, i + 1) != {} {
        var k :| k in Ends(tail, s, i + 1);
        RunWithin(IsAsciiLetter, s, i + 1, k);
      }
    }
  }

  lemma DomainEnds(s: string, i: nat, top: Re)
    requires i <= |s|
    requires forall j :: i <= j <= |s| ==> (Ends(top, s, j) != {} <==> TopLevelAt(s, j))
    ensures Ends(Cat(Run(DomainChar, 1, None), top), s, i) != {} <==> DomainAt(s, i)
  {
    RunThen(DomainChar, 1, top, '.', s, i);
  }

  lemma MailboxEnds(s: string, atDomain: Re)
    requires |s| >= 1
    requires forall j :: 1 <= j <= |s| ==> (Ends(atDomain, s, j) != {} <==> j < |s| && s[j] == '@' && DomainAt(s, j + 1))
    ensures Ends(Cat(Run(LocalChar, 1, None), atDomain), s, 1) != {}
        <==> var at := RunEnd(LocalChar, s, 1);
             at >= 2 && at < |s| && s[at] == '@' && DomainAt(s, at + 1)
  {
    RunThen(LocalChar, 1, atDomain, '@', s, 1);
    var at := RunEnd(LocalChar, s, 1);
    assert Ends(atDomain, s, at) != {} <==> at < |s| && s[at] == '@' && DomainAt(s, at + 1);
  }

  lemma TopLevelAll(s: string)
    ensures forall j :: 0 <= j <= |s| ==> (Ends(TopLevel(), s, j) != {} <==> TopLevelAt(s, j))
  {
    forall j | 0 <= j <= |s|
      ensures Ends(TopLevel(), s, j) != {} <==> TopLevelAt(s, j)
    {
      TopLevelEnds(s, j);
    }
  }

  lemma DomainAll(s: string)
    ensures forall j :: 0 <= j <= |s| ==> (Ends(Domain(), s, j) != {} <==> DomainAt(s, j))
  {
    TopLevelAll(s);
    forall j | 0 <= j <= |s|
      ensures Ends(Domain(), s, j) != {} <==> DomainAt(s, j)
    {
      DomainEnds(s, j, TopLevel());
    }
  }

  lemma AtDomainAll(s: string)
    ensures forall j :: 1 <= j <= |s| ==> (Ends(AtDomain(), s, j) != {} <==> j < |s| && s[j] == '@' && DomainAt(s, j + 1))
  {
    DomainAll(s);
    forall j | 1 <= j <= |s|
      ensures Ends(AtDomain(), s, j) != {} <==> j < |s| && s[j] == '@' && DomainAt(s, j + 1)
    {
      OneThen(IsAt, Domain(), s, j);
    }
  }

  lemma MailboxAt(s: string)
    requires |s| >= 1
    ensures Ends(Mailbox(), s, 1) != {}
        <==> var at := RunEnd(LocalChar, s, 1);
             at >= 2 && at < |s| && s[at] == '@' && DomainAt(s, at + 1)
  {
    AtDomainAll(s);
    MailboxEnds(s, AtDomain());
  }

  lemma EmailStarts(s: string)
    ensures Matches(EmailPattern(), s) <==> |s| >= 1 && IsAsciiLetter(s[0]) && Ends(Mailbox(), s, 1) != {}
  {
    OneThen(IsAsciiLetter, Mailbox(), s, 0);
  }

  /** The direct check accepts exactly what the pattern matches. */
  lemma EmailValidMatches(s: string)
    ensures EmailValid(s) <==> Matches(EmailPattern(), s)
  {
    EmailStarts(s);
    if |s| >= 1 {
      MailboxAt(s);
    }
  }

  const BadEmail := "Your email seems to be invalid."

  // ---------------------------------------------------------------------------
  // The record

  datatype Contact = Contact(
    name: string,
    phones: seq<string>,
    birthday: Option<Date>,
    email: Option<string>,
    address: Option<string>)

  /** `AddressBookRecord(name)`: an empty name is refused first, then the
      `Name` field checks the length. */
  function NewContact(name: string): (r: Outcome<Contact>)
    ensures r.Return? <==> 2 <= |name| <= 30
    ensures r.Return? ==> r.value == Contact(name, [], None, None, None)
    ensures name == [] ==> r == Raise(ValueError(NoName))
    ensures name != [] && r.Raise? ==> r == Raise(ValueError(NameLength))
  {
    if name == [] then Raise(ValueError(NoName))
    else if |name| < 2 || |name| > 30 then Raise(ValueError(NameLength))
    else Return(Contact(name, [], None, None, None))
  }

  /** `add_phone(phone)`: the whole text is kept when its start matches. */
  function AddPhone(u: Unicode, c: Contact, phone: string): (r: Outcome<Contact>)
    ensures r.Return? <==> Matches(PhonePattern(u), phone)
    ensures r.Return? ==> r.value == c.(phones := c.phones + [phone])
    ensures r.Raise? ==> r == Raise(ValueError(PhoneFormat))
  {
    PhoneValidMatches(u, phone);
    if PhoneValid(u, phone) then Return(c.(phones := c.phones + [phone]))
    else Raise(ValueError(PhoneFormat))
  }

  /** `add_email(email)`. */
  function AddEmail(c: Contact, email: string): (r: Outcome<Contact>)
    ensures r.Return? <==> Matches(EmailPattern(), email)
    ensures r.Return? ==> r.value == c.(email := Some(email))
    ensures r.Raise? ==> r == Raise(ValueError(BadEmail))
  {
    EmailValidMatches(email);
    if EmailValid(email) then Return(c.(email := Some(email)))
    else Raise(ValueError(BadEmail))
  }

  /** `add_address(*args)`: the words joined by single spaces. */
  function AddAddress(c: Contact, args: seq<string>): (r: Contact)
    ensures r.address.Some? && r == c.(address := r.address)
    ensures |args| == 1 ==> r.address == Some(args[0])
  {
    c.(address := Some(Join(args, " ")))
  }

  function BadDate(text: string): string {
    text + " does not march format '%d.%m.%Y'"
  }

  const FutureBirthday := "Birthday can't be in future."

  /** `add_birthday(text)`: the text must parse, and the date must not lie after
      today. */
  function AddBirthday(cal: Calendar, c: Contact, text: string): (r: Outcome<Contact>)
    requires Sound(cal)
    ensures r.Return? <==> cal.strptime(text).Some? && !Before(cal.today, cal.strptime(text).value)
    ensures r.Return? ==> r.value == c.(birthday := cal.strptime(text)) && Valid(r.value.birthday.value)
    ensures cal.strptime(text).None? ==> r == Raise(ValueError(BadDate(text)))
    ensures r.Raise? ==> r.exc.ValueError?
  {
    match cal.strptime(text)
    case None => Raise(ValueError(BadDate(text)))
    case Some(d) =>
      if Before(cal.today, d) then Raise(ValueError(FutureBirthday))
      else Return(c.(birthday := Some(d)))
  }

  /** The phones part of `str(record)`. */
  function PhonesText(phones: seq<string>): string {
    if phones == [] then "no saved phones" else Join(phones, ", ")
  }

  /** An optional field as an f-string shows it. */
  function FieldText(o: Option<string>): string {
    match o case None => "None" case Some(s) => s
  }

  /** `str(record)`. */
  function ContactText(c: Contact): (r: string)
    ensures IsPrefix("Name: " + c.name + ", phones: ", r)
    ensures IsPrefix("Name: " + c.name + ", phones: " + PhonesText(c.phones) + ", birthday: ", r)
  {
    var head := "Name: " + c.name + ", phones: ";
    var tail := PhonesText(c.phones) + ", birthday: ";
    var lead := head + tail;
    var rest := (match c.birthday case None => "None" case Some(d) => DateText(d))
      + ", email: " + FieldText(c.email) + ", address: " + FieldText(c.address);
    PrefixExtends(head, head, tail);
    PrefixExtends(head, lead, rest);
    PrefixExtends(lead, lead, rest);
    assert head + PhonesText(c.phones) + ", birthday: " == lead;
    lead + rest
  }

  // ---------------------------------------------------------------------------
  // count_days_to_birthday

  /** What `count_days_to_birthday` returns: a number of days, or the string
      "0" on the birthday itself. */
  datatype Countdown = Days(n: nat) | Today

  function DaysLeft(c: Countdown): nat {
    match c
    case Days(n) => n
    case Today => 0
  }

  /** The day `month`/`day` of `today`'s year is already past. */
  predicate PastInYear(today: Date, month: nat, day: nat) {
    month < today.month || (month == today.month && day < today.day)
  }

  /** When `count_days_to_birthday` raises: a birthday on 29 February in a
      year without one, or after it has passed in a leap year (the next year
      has none), and any birthday already past in the last year a date can
      hold. */
  predicate CountdownFails(today: Date, b: Date) {
    (b.month == 2 && b.day == 29 && (!IsLeap(today.year) || PastInYear(today, 2, 29)))
    || (today.year == MaxYear && PastInYear(today, b.month, b.day))
  }

  /** The two `replace` calls of `count_days_to_birthday`: this year's
      birthday, or next year's once this year's is past. */
  function NextBirthday(today: Date, b: Date): (r: Outcome<Date>)
    requires Valid(today) && Valid(b)
    ensures r.Raise? <==> CountdownFails(today, b)
    ensures r.Raise? ==> r.exc.ValueError?
    ensures r.Return? ==> Valid(r.value) && r.value.month == b.month && r.value.day == b.day
    ensures r.Return? ==> !Before(r.value, today) && Ordinal(r.value) - Ordinal(today) <= 365
  {
    match Replace(b, today.year)
    case Raise(e) => Raise(e)
    case Return(now) => Upcoming(today, now)
  }

  /** This year's birthday `now` when it is still ahead, else the same day
      next year. */
  function Upcoming(today: Date, now: Date): (r: Outcome<Date>)
    requires Valid(today) && Valid(now) && now.year == today.year
    ensures r.Raise? <==> PastInYear(today, now.month, now.day) && ((now.month == 2 && now.day == 29) || today.year == MaxYear)
    ensures r.Raise? ==> r.exc.ValueError?
    ensures r.Return? ==> Valid(r.value) && r.value.month == now.month && r.value.day == now.day
    ensures r.Return? ==> !Before(r.value, today) && Ordinal(r.value) - Ordinal(today) <= 365
  {
    OrdinalOrder(today, now);
    if !Before(now, today) then
      InYear(today);
      InYear(now);
      Return(now)
    else
      assert now.month == 2 && now.day == 29 ==> IsLeap(now.year) && !IsLeap(now.year + 1);
      match Replace(now, now.year + 1)
      case Raise(e) => Raise(e)
      case Return(next) =>
        YearOn(now, next);
        Return(next)
  }

  /** The same day a year later is at most 366 days on. */
  lemma YearOn(now: Date, next: Date)
    requires Valid(now) && Valid(next)
    requires next == Date(now.year + 1, now.month, now.day)
    ensures Ordinal(now) < Ordinal(next) <= Ordinal(now) + 366
  {
    NextYear(now.year);
  }

  /** The birthday found is the first one on or after today: no date with the
      same month and day lies between. */
  lemma {:induction false} NextBirthdayFirst(today: Date, b: Date, e: Date)
    requires Valid(today) && Valid(b) && Valid(e)
    requires NextBirthday(today, b).Return?
    requires e.month == b.month && e.day == b.day && !Before(e, today)
    ensures !Before(e, NextBirthday(today, b).value)
  {
  }

  /** `count_days_to_birthday()` with `today` for the clock. */
  function CountDays(today: Date, b: Date): (r: Outcome<Countdown>)
    requires Valid(today) && Valid(b)
    ensures r.Raise? <==> CountdownFails(today, b)
    ensures r.Raise? ==> r.exc.ValueError?
    ensures r == Return(Today) <==> today.month == b.month && today.day == b.day && !CountdownFails(today, b)
    ensures r.Return? && r.value.Days? ==> 1 <= r.value.n <= 365
  {
    match NextBirthday(today, b)
    case Raise(e) => Raise(e)
    case Return(d) =>
      OrdinalOrder(d, today);
      if d == today then Return(Today) else Return(Days(Ordinal(d) - Ordinal(today)))
  }

  /** The countdown reaches the first birthday on or after today. */
  lemma CountDaysReaches(today: Date, b: Date)
    requires Valid(today) && Valid(b) && CountDays(today, b).Return?
    ensures var d := NextBirthday(today, b).value;
      Ordinal(d) == Ordinal(today) + DaysLeft(CountDays(today, b).value)
  {
  }
}

=== FILE: dates.dfy ===
/**
 The part of `datetime.date` the bot relies on: proleptic Gregorian dates in
 years 1 to 9999, their ordering, the day count between two dates,
 `date.replace(year=...)` and `str(date)`.

 The clock is not modelled: "today" is a parameter wherever the source asks
 for `date.today()` or `datetime.now().date()`.
 */
module Dates {
  import opened Errors
  import opened Text

  datatype Date = Date(year: nat, month: nat, day: nat)

  const MinYear := 1
  const MaxYear := 9999

  predicate IsLeap(y: int) {
    y % 4 == 0 && (y % 100 != 0 || y % 400 == 0)
  }

  function DaysInMonth(y: int, m: int): (r: int)
    requires 1 <= m <= 12
    ensures 28 <= r <= 31
    ensures r == 29 <==> m == 2 && IsLeap(y)
  {
    if m == 2 then (if IsLeap(y) then 29 else 28)
    else if m == 4 || m == 6 || m == 9 || m == 11 then 30
    else 31
  }

  /** The dates a `date` object can hold. */
  predicate Valid(d: Date) {
    MinYear <= d.year <= MaxYear && 1 <= d.month <= 12 && 1 <= d.day <= DaysInMonth(d.year, d.month)
  }

  function YearLength(y: int): int {
    if IsLeap(y) then 366 else 365
  }

  /** Days in the years before `y`, counted from 1 January of year 1. */
  function DaysBeforeYear(y: int): int
    requires y >= 1
  {
    var p := y - 1;
    365 * p + p / 4 - p / 100 + p / 400
  }

  const MonthStarts: seq<int> := [0, 31, 59, 90, 120, 151, 181, 212, 243, 273, 304, 334]

  /** Days in the months of year `y` before month `m`: the cumulative table of
      a common year, plus the leap day once February is past. */
  function DaysBeforeMonth(y: int, m: int): int
    requires 1 <= m <= 12
  {
    MonthStarts[m - 1] + (if m > 2 && IsLeap(y) then 1 else 0)
  }

  /** `date.toordinal()`: 1 January of year 1 is day 1. */
  function Ordinal(d: Date): int
    requires Valid(d)
  {
    DaysBeforeYear(d.year) + DaysBeforeMonth(d.year, d.month) + d.day
  }

  /** `a < b` on dates: Python compares the (year, month, day) tuples. */
  predicate Before(a: Date, b: Date) {
    a.year < b.year || (a.year == b.year && (a.month < b.month || (a.month == b.month && a.day < b.day)))
  }

  /** The cumulative table agrees with the month lengths. */
  lemma MonthStep(y: int, m: int)
    requires 1 <= m < 12
    ensures DaysBeforeMonth(y, m + 1) == DaysBeforeMonth(y, m) + DaysInMonth(y, m)
  {
  }

  /** The last month ends where the year ends. */
  lemma LastMonth(y: int)
    ensures DaysBeforeMonth(y, 12) + DaysInMonth(y, 12) == YearLength(y)
  {
  }

  lemma {:induction false} MonthsIncrease(y: int, m: int, n: int)
    requires 1 <= m < n <= 12
    ensures DaysBeforeMonth(y, m) + DaysInMonth(y, m) <= DaysBeforeMonth(y, n)
    decreases n - m
  {
    MonthStep(y, m);
    if m + 1 < n {
      MonthsIncrease(y, m + 1, n);
    }
  }

  /** A year holds as many days as the leap rule gives it. */
  lemma NextYear(y: int)
    requires y >= 1
    ensures DaysBeforeYear(y + 1) == DaysBeforeYear(y) + YearLength(y)
  {
    var p := y - 1;
    assert DaysBeforeYear(y) == 365 * p + p / 4 - p / 100 + p / 400;
    assert DaysBeforeYear(y + 1) == 365 * p + 365 + y / 4 - y / 100 + y / 400;
    LeapSteps(y);
  }

  /** Going from `y - 1` to `y`, each quotient in `DaysBeforeYear` grows by
      one exactly when its divisor divides `y`, and the divisors nest. */
  lemma LeapSteps(y: int)
    requires y >= 1
    ensures y / 4 == (y - 1) / 4 + (if y % 4 == 0 then 1 else 0)
    ensures y / 100 == (y - 1) / 100 + (if y % 100 == 0 then 1 else 0)
    ensures y / 400 == (y - 1) / 400 + (if y % 400 == 0 then 1 else 0)
    ensures y % 400 == 0 ==> y % 100 == 0
    ensures y % 100 == 0 ==> y % 4 == 0
  {
  }

  lemma {:induction false} YearsIncrease(a: int, b: int)
    requires 1 <= a < b
    ensures DaysBeforeYear(a) + YearLength(a) <= DaysBeforeYear(b)
    decreases b - a
  {
    NextYear(a);
    if a + 1 < b {
      YearsIncrease(a + 1, b);
      NextYear(a + 1);
    }
  }

  /** A date's ordinal lies inside its year. */
  lemma InYear(d: Date)
    requires Valid(d)
    ensures DaysBeforeYear(d.year) < Ordinal(d) <= DaysBeforeYear(d.year) + YearLength(d.year)
  {
    LastMonth(d.year);
    if d.month < 12 {
      MonthsIncrease(d.year, d.month, 12);
    }
  }

  /** Comparing dates and comparing their ordinals agree, so `b - a` is
      positive exactly when `a < b`. */
  lemma OrdinalOrder(a: Date, b: Date)
    requires Valid(a) && Valid(b)
    ensures Before(a, b) <==> Ordinal(a) < Ordinal(b)
    ensures a == b <==> Ordinal(a) == Ordinal(b)
  {
    if Before(a, b) {
      OrdinalBefore(a, b);
    } else if Before(b, a) {
      OrdinalBefore(b, a);
    }
  }

  lemma OrdinalBefore(a: Date, b: Date)
    requires Valid(a) && Valid(b) && Before(a, b)
    ensures Ordinal(a) < Ordinal(b)
  {
    if a.year < b.year {
      InYear(a);
      InYear(b);
      YearsIncrease(a.year, b.year);
    } else if a.month < b.month {
      MonthsIncrease(a.year, a.month, b.month);
    }
  }

  /** The clock and the date parser: `today` stands for `date.today()`, and
      `strptime` for `datetime.strptime(text, "%d.%m.%Y").date()`, giving `None`
      where that raises `ValueError`. */
  datatype Calendar = Calendar(today: Date, strptime: string -> Option<Date>)

  /** What the model assumes of the clock and the parser: they give dates a
      `date` object can hold. */
  ghost predicate Sound(cal: Calendar) {
    Valid(cal.today) && forall s :: cal.strptime(s).Some? ==> Valid(cal.strptime(s).value)
  }

  /** `d.replace(year=year)`: the year must be in range, and 29 February only
      moves to a leap year. */
  function Replace(d: Date, year: int): (r: Outcome<Date>)
    requires Valid(d)
    ensures r.Return? <==> MinYear <= year <= MaxYear && !(d.month == 2 && d.day == 29 && !IsLeap(year))
    ensures r.Return? ==> Valid(r.value) && r.value == Date(year, d.month, d.day)
    ensures r.Raise? ==> r.exc.ValueError?
  {
    if year < MinYear || year > MaxYear then Raise(ValueError("year " + IntText(year) + " is out of range"))
    else if d.day > DaysInMonth(year, d.month) then Raise(ValueError("day is out of range for month"))
    else Return(Date(year, d.month, d.day))
  }

  /** `str(n)` for an integer of either sign. */
  function IntText(n: int): string {
    if n < 0 then "-" + NatToString(-n) else NatToString(n)
  }

  // ---------------------------------------------------------------------------
  // str(date): YYYY-MM-DD

  function DateText(d: Date): (r: string)
  {
    ZeroPad(d.year, 4) + "-" + ZeroPad(d.month, 2) + "-" + ZeroPad(d.day, 2)
  }

  /** Reads back the ten characters `str(date)` writes. */
  function ParseDateText(t: string): Option<Date> {
    if |t| == 10 && t[4] == '-' && t[7] == '-'
       && (forall k :: 0 <= k < 10 && k != 4 && k != 7 ==> IsAsciiDigit(t[k]))
    then Some(Date(AsciiValue(t[..4]), AsciiValue(t[5..7]), AsciiValue(t[8..])))
    else None
  }

  function AsciiValue(s: string): nat {
    DigitsValue(AsciiTables(), s)
  }

  function Pow10(k: nat): (r: nat)
    ensures r >= 1
  {
    if k == 0 then 1 else 10 * Pow10(k - 1)
  }

  lemma {:induction false} NatToStringLength(n: nat, k: nat)
    requires 1 <= k && n < Pow10(k)
    ensures |NatToString(n)| <= k
  {
    if n >= 10 {
      NatToStringLength(n / 10, k - 1);
    }
  }

  lemma {:induction false} LeadingZeros(u: Unicode, z: nat, s: string)
    requires Sane(u)
    ensures DigitsValue(u, seq(z, _ => '0') + s) == DigitsValue(u, s)
  {
    var t := seq(z, _ => '0') + s;
    if s == [] {
      assert t == seq(z, _ => '0');
      AllZeros(u, z);
    } else {
      assert t[..|t| - 1] == seq(z, _ => '0') + s[..|s| - 1];
      LeadingZeros(u, z, s[..|s| - 1]);
    }
  }

  lemma {:induction false} AllZeros(u: Unicode, z: nat)
    requires Sane(u)
    ensures DigitsValue(u, seq(z, _ => '0')) == 0
  {
    if z > 0 {
      var t := seq(z, _ => '0');
      assert t[..|t| - 1] == seq(z - 1, _ => '0');
      AllZeros(u, z - 1);
    }
  }

  /** Zero padding to `width` digits writes exactly `width` digits for a number
      below 10^width, and reads back as the number. */
  lemma ZeroPadValue(u: Unicode, n: nat, width: nat)
    requires Sane(u) && 1 <= width && n < Pow10(width)
    ensures |ZeroPad(n, width)| == width
    ensures forall k :: 0 <= k < width ==> IsAsciiDigit(ZeroPad(n, width)[k])
    ensures DigitsValue(u, ZeroPad(n, width)) == n
  {
    NatToStringLength(n, width);
    var s := NatToString(n);
    NatToStringValue(u, n);
    if |s| < width {
      LeadingZeros(u, width - |s|, s);
    }
  }

  predicate DigitsOnly(s: string) {
    forall k :: 0 <= k < |s| ==> IsAsciiDigit(s[k])
  }

  lemma ParseParts(y: string, m: string, d: string)
    requires |y| == 4 && |m| == 2 && |d| == 2
    requires DigitsOnly(y) && DigitsOnly(m) && DigitsOnly(d)
    ensures ParseDateText(y + "-" + m + "-" + d) == Some(Date(AsciiValue(y), AsciiValue(m), AsciiValue(d)))
  {
    var t := y + "-" + m + "-" + d;
    DashedParts(y, m, d);
    forall k | 0 <= k < 10 && k != 4 && k != 7
      ensures IsAsciiDigit(t[k])
    {
      if k < 4 {
        assert t[k] == y[k];
      } else if k < 7 {
        assert t[k] == m[k - 5];
      } else {
        assert t[k] == d[k - 8];
      }
    }
  }

  /** The three parts joined by dashes, and where each one sits. */
  lemma DashedParts(y: string, m: string, d: string)
    requires |y| == 4 && |m| == 2 && |d| == 2
    ensures var t := y + "-" + m + "-" + d;
      && |t| == 10 && t[4] == '-' && t[7] == '-'
      && t[..4] == y && t[5..7] == m && t[8..] == d
      && (forall k :: 0 <= k < 4 ==> t[k] == y[k])
      && (forall k :: 5 <= k < 7 ==> t[k] == m[k - 5])
      && (forall k :: 8 <= k < 10 ==> t[k] == d[k - 8])
  {
    var t := y + "-" + m + "-" + d;
    assert t[..4] == y;
    assert t[5..7] == m;
    assert t[8..] == d;
  }

  /** `str(date)` can be read back. */
  lemma DateTextRoundTrip(d: Date)
    requires Valid(d)
    ensures |DateText(d)| == 10
    ensures ParseDateText(DateText(d)) == Some(d)
  {
    var u := AsciiTables();
    assert Pow10(2) == 100 && Pow10(4) == 10000 by {
      assert Pow10(1) == 10;
      assert Pow10(3) == 1000;
    }
    ZeroPadValue(u, d.year, 4);
    ZeroPadValue(u, d.month, 2);
    ZeroPadValue(u, d.day, 2);
    ParseParts(ZeroPad(d.year, 4), ZeroPad(d.month, 2), ZeroPad(d.day, 2));
  }
}

=== FILE: errors.dfy ===
/**
 Python exceptions as values. Every operation of the bot either returns a value
 or raises one of these; the command layer decides which ones it turns into
 text and which ones escape to the run loop.
 */
module Errors {
  import opened Text

  datatype Option<+T> = None | Some(value: T)

  /** The `OSError` subclasses the filesystem calls can raise. The command layer
      catches none of them: they end the run loop, which prints them. Their text
      quotes file paths and is not modelled; the kind records why a call fails. */
  datatype OSErrorKind =
    | FileNotFound        // the source of a rename or move is gone
    | NotADirectory       // a path component (or destination parent) is a regular file
    | FileExists          // a directory cannot be moved onto an existing file
    | DestinationExists   // `shutil.move` into a directory that already holds the name
    | MoveIntoItself      // `shutil.move` of a directory into its own subtree
    | IsADirectory        // a directory opened as a file
    | ReadError           // `shutil.unpack_archive`: unknown format or unreadable archive

  datatype Exception =
    | TypeError(msg: string)
    | KeyError(msg: string)
    | ValueError(msg: string)
    | IndexError(msg: string)
    | OSError(kind: OSErrorKind)
    | EOFError(msg: string)

  /** The result of a Python call: a returned value or a raised exception. */
  datatype Outcome<+T> = Return(value: T) | Raise(exc: Exception)

  /** The built-in `input()` at the end of its stream. The main loop reads
      through prompt_toolkit's `prompt` instead, whose `EOFError` has no text
      (`App.PromptEnd`). */
  const EndOfInput := EOFError("EOF when reading a line")

  // ---------------------------------------------------------------------------
  // str(exception)

  /** The quote `repr` picks for a string: a single quote, unless the string
      holds a single quote and no double quote. */
  function Quote(s: string): char
  {
    if '\'' in s && '"' !in s then '"' else '\''
  }

  /** The lower-case hexadecimal digit of `d`, as `repr` writes it. */
  function HexDigit(d: nat): (c: char)
    requires d < 16
  {
    if d < 10 then ('0' as int + d) as char else ('a' as int + d - 10) as char
  }

  /** The value of a lower-case hexadecimal digit. */
  function HexDigitValue(c: char): Option<nat>
  {
    if '0' <= c <= '9' then Some(c as int - '0' as int)
    else if 'a' <= c <= 'f' then Some(c as int - 'a' as int + 10)
    else None
  }

  function Pow16(w: nat): (r: nat)
    ensures r >= 1
  {
    if w == 0 then 1 else 16 * Pow16(w - 1)
  }

  /** `n` in exactly `w` lower-case hexadecimal digits. */
  function Hex(n: nat, w: nat): (r: string)
    ensures |r| == w
  {
    if w == 0 then [] else Hex(n / 16, w - 1) + [HexDigit(n % 16)]
  }

  /** Reads hexadecimal digits back. */
  function HexValue(t: string): Option<nat>
  {
    if t == [] then Some(0)
    else match (HexValue(t[..|t| - 1]), HexDigitValue(t[|t| - 1]))
      case (Some(high), Some(d)) => Some(high * 16 + d)
      case _ => None
  }

  lemma {:induction false} HexRoundTrip(n: nat, w: nat)
    requires n < Pow16(w)
    ensures HexValue(Hex(n, w)) == Some(n)
  {
    if w > 0 {
      var t := Hex(n, w);
      assert t[..|t| - 1] == Hex(n / 16, w - 1);
      assert n / 16 < Pow16(w - 1);
      HexRoundTrip(n / 16, w - 1);
      assert HexDigitValue(HexDigit(n % 16)) == Some(n % 16);
    }
  }

  /** A Unicode scalar value: the integers a `char` can hold. */
  predicate IsScalar(v: int) {
    0 <= v < 0xD800 || 0xE000 <= v < 0x11_0000
  }

  /** How `repr` writes one character between the quotes `q`: a backslash
      before the quote and the backslash, the three named control escapes,
      `\xhh` for the other ASCII control characters, the character itself when
      it is printable, and otherwise `\xhh`, `\uhhhh` or `\Uhhhhhhhh` by size. */
  function EscapeChar(u: Unicode, c: char, q: char): (r: string)
    ensures |r| >= 1
    ensures |r| == 1 <==> r == [c]
    ensures u.isPrintable(c) && c != '\\' && c != q && 0x20 <= c as int && c as int != 0x7f ==> r == [c]
  {
    if c == '\\' then "\\\\"
    else if c == q then ['\\', q]
    else if c == '\n' then "\\n"
    else if c == '\r' then "\\r"
    else if c == '\t' then "\\t"
    else if c as int < 0x20 || c as int == 0x7f then "\\x" + Hex(c as int, 2)
    else if c as int < 0x7f || u.isPrintable(c) then [c]
    else if c as int <= 0xff then "\\x" + Hex(c as int, 2)
    else if c as int <= 0xffff then "\\u" + Hex(c as int, 4)
    else "\\U" + Hex(c as int, 8)
  }

  function Escape(u: Unicode, s: string, q: char): string
  {
    if s == [] then [] else EscapeChar(u, s[0], q) + Escape(u, s[1..], q)
  }

  /** `repr(s)`. */
  function Repr(u: Unicode, s: string): string
  {
    [Quote(s)] + Escape(u, s, Quote(s)) + [Quote(s)]
  }

  /** The character a hexadecimal escape of `w` digits after `t[..2]` stands
      for, if the digits are there and name a character. */
  function HexEscape(t: string, w: nat): Option<char>
  {
    if |t| < 2 + w then None
    else match HexValue(t[2..2 + w])
      case Some(v) => if IsScalar(v) then Some(v as char) else None
      case None => None
  }

  /** Reads the escape at the start of `t` (which starts with a backslash):
      the character it stands for and its length. */
  function EscapeAt(t: string, q: char): (r: Option<(char, nat)>)
    requires |t| >= 2
    ensures r.Some? ==> 2 <= r.value.1 <= |t|
  {
    match t[1]
    case 'n' => Some(('\n', 2))
    case 'r' => Some(('\r', 2))
    case 't' => Some(('\t', 2))
    case 'x' => (match HexEscape(t, 2) case Some(c) => Some((c, 4)) case None => None)
    case 'u' => (match HexEscape(t, 4) case Some(c) => Some((c, 6)) case None => None)
    case 'U' => (match HexEscape(t, 8) case Some(c) => Some((c, 10)) case None => None)
    case _ => if t[1] == '\\' || t[1] == q then Some((t[1], 2)) else None
  }

  /** Reads back what `Escape` writes: an escape, or a plain character. */
  function Unescape(t: string, q: char): Option<string>
    decreases |t|
  {
    if t == [] then Some([])
    else if t[0] == '\\' then
      if |t| < 2 then None
      else
        match EscapeAt(t, q)
        case None => None
        case Some((x, n)) =>
          match Unescape(t[n..], q)
          case Some(rest) => Some([x] + rest)
          case None => None
    else
      match Unescape(t[1..], q)
      case Some(rest) => Some([t[0]] + rest)
      case None => None
  }

  /** Reads a quoted string literal back. */
  function ParseRepr(t: string): Option<string>
  {
    if |t| >= 2 && t[0] == t[|t| - 1] && (t[0] == '\'' || t[0] == '"') then Unescape(t[1..|t| - 1], t[0])
    else None
  }

  /** A hexadecimal escape of a character reads back as that character. */
  lemma HexEscapeRead(c: char, w: nat, lead: string, rest: string)
    requires |lead| == 2 && c as int < Pow16(w)
    ensures HexEscape(lead + Hex(c as int, w) + rest, w) == Some(c)
  {
    var t := lead + Hex(c as int, w) + rest;
    assert t[2..2 + w] == Hex(c as int, w);
    HexRoundTrip(c as int, w);
  }

  /** An escaped character is read back, and reading goes on right after it. */
  lemma EscapeCharRead(u: Unicode, c: char, q: char, rest: string)
    requires q != '\\' && q != 'n' && q != 'r' && q != 't' && q != 'x' && q != 'u' && q != 'U'
    ensures var e := EscapeChar(u, c, q);
      |e| >= 2 ==> e[0] == '\\' && EscapeAt(e + rest, q) == Some((c, |e|))
    ensures |EscapeChar(u, c, q)| == 1 ==> c != '\\'
  {
    var e := EscapeChar(u, c, q);
    if |e| >= 2 {
      var t := e + rest;
      if c != '\\' && c != q && c != '\n' && c != '\r' && c != '\t' {
        if c as int < 0x20 || c as int == 0x7f || (!(c as int < 0x7f || u.isPrintable(c)) && c as int <= 0xff) {
          assert Pow16(2) == 256;
          HexEscapeRead(c, 2, "\\x", rest);
          assert t == "\\x" + Hex(c as int, 2) + rest;
        } else if c as int <= 0xffff {
          assert Pow16(4) == 0x1_0000;
          HexEscapeRead(c, 4, "\\u", rest);
          assert t == "\\u" + Hex(c as int, 4) + rest;
        } else {
          assert Pow16(8) == 0x1_0000_0000;
          HexEscapeRead(c, 8, "\\U", rest);
          assert t == "\\U" + Hex(c as int, 8) + rest;
        }
      }
    }
  }

  lemma {:induction false} UnescapeEscape(u: Unicode, s: string, q: char)
    requires q != '\\' && q != 'n' && q != 'r' && q != 't' && q != 'x' && q != 'u' && q != 'U'
    ensures Unescape(Escape(u, s, q), q) == Some(s)
    decreases |s|
  {
    if s != [] {
      var e := EscapeChar(u, s[0], q);
      var t := Escape(u, s, q);
      assert t == e + Escape(u, s[1..], q);
      UnescapeEscape(u, s[1..], q);
      EscapeCharRead(u, s[0], q, Escape(u, s[1..], q));
      assert [s[0]] + s[1..] == s;
      if |e| >= 2 {
        assert t[|e|..] == Escape(u, s[1..], q);
      } else {
        assert t[0] == s[0];
        assert t[1..] == Escape(u, s[1..], q);
      }
    }
  }

  /** `repr` loses nothing: the literal reads back as the string, whatever
      the printable table. */
  lemma ReprRoundTrip(u: Unicode, s: string)
    ensures ParseRepr(Repr(u, s)) == Some(s)
  {
    var q := Quote(s);
    var t := Repr(u, s);
    assert t[1..|t| - 1] == Escape(u, s, q);
    UnescapeEscape(u, s, q);
  }

  /** A character the table does not count as printable, such as the
      zero-width joiner, is written as a `\u` escape. */
  lemma EscapeJoiner(u: Unicode)
    requires !u.isPrintable('\U{200D}')
    ensures EscapeChar(u, '\U{200D}', '\'') == "\\u200d"
  {
    var c := '\U{200D}';
    assert c as int == 0x200D;
    assert EscapeChar(u, c, '\'') == "\\u" + Hex(0x200D, 4);
    assert Hex(0x20, 2) == "20";
    assert Hex(0x200, 3) == Hex(0x20, 2) + "0";
    assert Hex(0x200D, 4) == Hex(0x200, 3) + "d";
  }

  lemma ReprEscapesJoiner(u: Unicode)
    requires !u.isPrintable('\U{200D}')
    ensures Repr(u, "a\U{200D}b") == "'a\\u200db'"
  {
    var s := "a\U{200D}b";
    EscapeJoiner(u);
    assert Quote(s) == '\'';
    assert Escape(u, s[2..], '\'') == "b";
    assert Escape(u, s[1..], '\'') == "\\u200d" + "b";
    assert Escape(u, s, '\'') == "a" + "\\u200db";
  }

  /** `str(e)` for the exceptions whose text is modelled: a `KeyError` shows the
      `repr` of its argument, the others the argument itself. */
  function Str(u: Unicode, e: Exception): string
    requires !e.OSError?
  {
    match e
    case TypeError(m) => m
    case KeyError(m) => Repr(u, m)
    case ValueError(m) => m
    case IndexError(m) => m
    case EOFError(m) => m
  }
}

=== FILE: files.dfy ===
/**
 The `files` feature: `Files.sort` resolves the joined arguments as a path,
 refuses a path that does not exist, and otherwise runs `sort_folder` on it.

 The whole filesystem is a root directory plus the current working directory,
 given as the names leading to it from the root. A path is resolved the way
 the kernel resolves it: `/` separates components, a leading `/` starts at the
 root, empty and `.` components stay put, `..` climbs (and stays at the root),
 and every component is looked up in a directory.
 */
module Files {
  import opened Errors
  import opened Text
  import opened Names
  import opened Tree
  import opened Sorter
  import SorterProperties
  import SorterShape

  datatype Fs = Fs(root: Node, cwd: seq<string>)

  /** The node reached by following the names `loc` from `n`. */
  function NodeAt(n: Node, loc: seq<string>): (r: Option<Node>)
    ensures loc == [] ==> r == Some(n)
    ensures WellFormedNode(n) && r.Some? ==> WellFormedNode(r.value)
    decreases loc
  {
    if loc == [] then Some(n)
    else match n
      case File(_) => None
      case Dir(es) =>
        match Lookup(es, loc[0])
        case None => None
        case Some(child) => NodeAt(child, loc[1..])
  }

  /** Replaces the node at `loc` by `x`, leaving every path that neither leads
      to `loc` nor passes through it alone. */
  function SetAt(n: Node, loc: seq<string>, x: Node): (r: Node)
    requires NodeAt(n, loc).Some?
    ensures NodeAt(r, loc) == Some(x)
    ensures loc != [] ==> r.Dir?
    decreases loc
  {
    if loc == [] then x
    else
      var es := n.entries;
      var child := SetAt(Lookup(es, loc[0]).value, loc[1..], x);
      var r := Dir(Put(es, loc[0], child));
      assert NodeAt(r, loc) == NodeAt(child, loc[1..]);
      r
  }

  /** `loc` and `other` lie on different branches: neither leads to the
      other. */
  predicate Apart(loc: seq<string>, other: seq<string>) {
    exists i :: 0 <= i < |loc| && i < |other| && loc[i] != other[i] && loc[..i] == other[..i]
  }

  /** `str.split(sep)` for a one-character separator: the parts between the
      separators, which join back to the string. */
  function SplitOn(s: string, sep: char): (r: seq<string>)
    ensures |r| >= 1
    ensures forall k :: 0 <= k < |r| ==> sep !in r[k]
    ensures Join(r, [sep]) == s
  {
    if s == [] then [[]]
    else
      var rest := SplitOn(s[1..], sep);
      if s[0] == sep then
        var r := [[]] + rest;
        assert r[1..] == rest;
        r
      else
        var r := [[s[0]] + rest[0]] + rest[1..];
        assert |rest| > 1 ==> rest == [rest[0]] + rest[1..];
        assert |rest| > 1 ==> r[1..] == rest[1..];
        r
  }

  /** Follows `comps` from the directory at `loc`; `None` when a component is
      missing or something that is not a directory is asked for a child. */
  function Walk(root: Node, loc: seq<string>, comps: seq<string>): (r: Option<seq<string>>)
    ensures r.Some? ==> NodeAt(root, r.value).Some?
    ensures r.Some? && comps != [] ==> NodeAt(root, loc).Some? && NodeAt(root, loc).value.Dir?
    decreases comps
  {
    if comps == [] then (if NodeAt(root, loc).Some? then Some(loc) else None)
    else
      match NodeAt(root, loc)
      case Some(Dir(es)) =>
        var c := comps[0];
        if c == "" || c == "." then Walk(root, loc, comps[1..])
        else if c == ".." then Walk(root, if loc == [] then [] else loc[..|loc| - 1], comps[1..])
        else if Has(es, c) then
          assert NodeAt(root, loc + [c]) == Some(Lookup(es, c).value) by {
            NodeAtAppend(root, loc, c);
          }
          Walk(root, loc + [c], comps[1..])
        else None
      case _ => None
  }

  lemma {:induction false} NodeAtAppend(n: Node, loc: seq<string>, c: string)
    requires NodeAt(n, loc).Some? && NodeAt(n, loc).value.Dir?
    ensures NodeAt(n, loc + [c]) == Lookup(NodeAt(n, loc).value.entries, c)
    decreases loc
  {
    if loc != [] {
      assert (loc + [c])[0] == loc[0] && (loc + [c])[1..] == loc[1..] + [c];
      NodeAtAppend(Lookup(n.entries, loc[0]).value, loc[1..], c);
    }
  }

  /** A string without the separator is a single part. */
  lemma {:induction false} SplitOnAbsent(s: string, sep: char)
    requires sep !in s
    ensures SplitOn(s, sep) == [s]
  {
    if s != [] {
      SplitOnAbsent(s[1..], sep);
      assert [s[0]] + s[1..] == s;
    }
  }

  /** Where `path` leads, if it exists; the empty path never does. */
  function Resolve(fs: Fs, path: string): (r: Option<seq<string>>)
    ensures r.Some? ==> path != [] && NodeAt(fs.root, r.value).Some?
  {
    if path == [] then None
    else Walk(fs.root, if path[0] == '/' then [] else fs.cwd, SplitOn(path, '/'))
  }

  /** `os.path.exists(path)`. */
  predicate Exists(fs: Fs, path: string) {
    Resolve(fs, path).Some?
  }

  /** The components `pathlib` keeps: the empty ones and `.` are dropped. */
  function PathParts(comps: seq<string>): (r: seq<string>)
    ensures forall k :: 0 <= k < |r| ==> r[k] in comps && r[k] != "" && r[k] != "."
  {
    if comps == [] then []
    else if comps[0] == "" || comps[0] == "." then PathParts(comps[1..])
    else [comps[0]] + PathParts(comps[1..])
  }

  /** `Path(path).name`: the last kept component, or nothing. */
  function PathName(path: string): (r: string)
    ensures r != "." && '/' !in r
  {
    var parts := PathParts(SplitOn(path, '/'));
    if parts == [] then "" else parts[|parts| - 1]
  }

  function StripSlashes(s: string): (r: string)
    ensures |r| <= |s| && r == s[..|r|]
    ensures r == [] || r[|r| - 1] != '/'
  {
    if s == [] || s[|s| - 1] != '/' then s else StripSlashes(s[..|s| - 1])
  }

  /** `os.path.basename(path.rstrip("/"))`, the name `shutil.move` gives a
      directory that is moved into a folder. */
  function BaseName(path: string): (r: string)
    ensures '/' !in r
  {
    var parts := SplitOn(StripSlashes(path), '/');
    parts[|parts| - 1]
  }

  /** Deep well-formedness of a whole tree. */
  predicate WellFormedNode(n: Node) {
    n.Dir? ==> WellFormed(n.entries)
  }

  /** The state of the filesystem after `Files.sort`, and what it returned or
      raised. */
  datatype Sorted = Sorted(fs: Fs, out: Outcome<string>)

  const Missing := "Path does not exist. Try again."
  const Done := "Folder is sorted"

  /** `Files.sort(*args)`, with the Unicode tables and the archive unpacker of
      the walk. */
  function Sort(u: Unicode, unpack: (ArchiveFormat, seq<Byte>, Option<Node>) -> Option<Node>, fs: Fs, args: seq<string>): (r: Sorted)
    requires WellFormedNode(fs.root)
    ensures r.fs.cwd == fs.cwd
    ensures r.out == Return(Missing) <==> !Exists(fs, Join(args, " "))
    ensures !Exists(fs, Join(args, " ")) ==> r.fs == fs
    ensures Exists(fs, Join(args, " ")) && NodeAt(fs.root, Resolve(fs, Join(args, " ")).value).value.File? ==>
      r == Sorted(fs, Raise(OSError(NotADirectory)))
    ensures r.out == Return(Done) || r.out == Return(Missing) || r.out.Raise?
  {
    var path := Join(args, " ");
    match Resolve(fs, path)
    case None => Sorted(fs, Return(Missing))
    case Some(loc) =>
      match NodeAt(fs.root, loc).value
      case File(_) => Sorted(fs, Raise(OSError(NotADirectory)))
      case Dir(es) =>
        var e := SortFolder(Env(u, unpack, path[0] == '/'), Here(PathName(path), BaseName(path)), es);
        Sorted(Fs(SetAt(fs.root, loc, Dir(e.after)), fs.cwd), if e.raised.None? then Return(Done) else Raise(e.raised.value))
  }

  /** Replacing the node at `loc` leaves every node on another branch as it
      was. */
  lemma {:induction false} SetAtApart(n: Node, loc: seq<string>, x: Node, other: seq<string>)
    requires NodeAt(n, loc).Some? && Apart(loc, other)
    ensures NodeAt(SetAt(n, loc, x), other) == NodeAt(n, other)
    decreases loc
  {
    var es := n.entries;
    var child := SetAt(Lookup(es, loc[0]).value, loc[1..], x);
    var es' := Put(es, loc[0], child);
    assert SetAt(n, loc, x) == Dir(es');
    if loc[0] == other[0] {
      ApartTail(loc, other);
      SetAtApart(Lookup(es, loc[0]).value, loc[1..], x, other[1..]);
    } else {
      assert Lookup(es', other[0]) == Lookup(es, other[0]);
    }
  }

  /** Two apart paths that start alike stay apart without their first name. */
  lemma ApartTail(loc: seq<string>, other: seq<string>)
    requires Apart(loc, other) && loc[0] == other[0]
    ensures Apart(loc[1..], other[1..])
  {
    var i :| 0 <= i < |loc| && i < |other| && loc[i] != other[i] && loc[..i] == other[..i];
    assert i > 0;
    assert loc[1..][..i - 1] == loc[..i][1..];
    assert other[1..][..i - 1] == other[..i][1..];
    assert loc[1..][i - 1] != other[1..][i - 1];
  }

  /** `Files.sort` on an existing directory: it returns "Folder is sorted"
      exactly when the walk raised nothing; either way the directory now holds
      what the walk left behind, and every other branch of the tree is as it
      was. */
  lemma SortDirectory(u: Unicode, unpack: (ArchiveFormat, seq<Byte>, Option<Node>) -> Option<Node>, fs: Fs, args: seq<string>, other: seq<string>)
    requires WellFormedNode(fs.root)
    requires Exists(fs, Join(args, " "))
    requires var loc := Resolve(fs, Join(args, " ")).value; NodeAt(fs.root, loc).value.Dir?
    ensures var path := Join(args, " ");
      var loc := Resolve(fs, path).value;
      var es := NodeAt(fs.root, loc).value.entries;
      var e := SortFolder(Env(u, unpack, path[0] == '/'), Here(PathName(path), BaseName(path)), es);
      var r := Sort(u, unpack, fs, args);
      && (r.out == Return(Done) <==> e.raised.None?)
      && NodeAt(r.fs.root, loc) == Some(Dir(e.after))
      && (Apart(loc, other) ==> NodeAt(r.fs.root, other) == NodeAt(fs.root, other))
  {
    var path := Join(args, " ");
    var loc := Resolve(fs, path).value;
    var es := NodeAt(fs.root, loc).value.entries;
    var e := SortFolder(Env(u, unpack, path[0] == '/'), Here(PathName(path), BaseName(path)), es);
    if Apart(loc, other) {
      SetAtApart(fs.root, loc, Dir(e.after), other);
    }
  }

  /** When `Files.sort` reports success, the sorted directory holds no empty
      directory outside the category folders, at any depth. */
  lemma SortedIsTidy(u: Unicode, unpack: (ArchiveFormat, seq<Byte>, Option<Node>) -> Option<Node>, fs: Fs, args: seq<string>)
    requires WellFormedNode(fs.root)
    ensures var r := Sort(u, unpack, fs, args);
      r.out == Return(Done) ==>
        var loc := Resolve(fs, Join(args, " ")).value;
        NodeAt(r.fs.root, loc).Some? && NodeAt(r.fs.root, loc).value.Dir? &&
        SorterProperties.Tidy(NodeAt(r.fs.root, loc).value.entries)
  {
    var path := Join(args, " ");
    if Exists(fs, path) {
      var loc := Resolve(fs, path).value;
      if NodeAt(fs.root, loc).value.Dir? {
        var es := NodeAt(fs.root, loc).value.entries;
        SorterProperties.SortFolderTidy(Env(u, unpack, path[0] == '/'), Here(PathName(path), BaseName(path)), es);
      }
    }
  }

  /** The empty path, and a name the current directory does not hold, do not
      exist. */
  lemma MissingPaths(fs: Fs, name: string)
    requires name != [] && '/' !in name && name != "." && name != ".."
    requires NodeAt(fs.root, fs.cwd).Some? && NodeAt(fs.root, fs.cwd).value.Dir?
    requires !Has(NodeAt(fs.root, fs.cwd).value.entries, name)
    ensures !Exists(fs, "")
    ensures !Exists(fs, name)
  {
    SplitOnAbsent(name, '/');
  }

  /** Replacing a node by a well-formed one keeps the whole tree well formed. */
  lemma {:induction false} SetAtOk(n: Node, loc: seq<string>, x: Node)
    requires WellFormedNode(n) && WellFormedNode(x) && NodeAt(n, loc).Some?
    ensures WellFormedNode(SetAt(n, loc, x))
    decreases loc
  {
    if loc != [] {
      var es := n.entries;
      var child := Lookup(es, loc[0]).value;
      SorterShape.LookupOk(es, loc[0]);
      SetAtOk(child, loc[1..], x);
      SorterShape.PutOk(es, loc[0], SetAt(child, loc[1..], x));
    }
  }

  /** `Files.sort` keeps names distinct in every directory of the
      filesystem, when the unpacker does. */
  lemma SortKeepsShape(u: Unicode, unpack: (ArchiveFormat, seq<Byte>, Option<Node>) -> Option<Node>, fs: Fs, args: seq<string>)
    requires WellFormedNode(fs.root)
    requires SorterShape.UnpackOk(Env(u, unpack, true))
    ensures WellFormedNode(Sort(u, unpack, fs, args).fs.root)
  {
    var path := Join(args, " ");
    if Exists(fs, path) {
      var loc := Resolve(fs, path).value;
      if NodeAt(fs.root, loc).value.Dir? {
        var es := NodeAt(fs.root, loc).value.entries;
        var env := Env(u, unpack, path[0] == '/');
        assert SorterShape.UnpackOk(env);
        SorterShape.SortFolderOk(env, Here(PathName(path), BaseName(path)), es);
        SetAtOk(fs.root, loc, Dir(SortFolder(env, Here(PathName(path), BaseName(path)), es).after));
      }
    }
  }
}

=== FILE: names.dfy ===
/**
 File-name normalisation of the folder sorter: `normalized_name` transliterates
 the stem of a name from Cyrillic to Latin letters and then replaces every
 character that is not a word character with `_`; the suffix is kept verbatim.
 */
module Names {
  import opened Errors
  import opened Text

  /** `CYRILLIC_SYMBOLS`, the lower-case source letters. */
  const Cyrillic: seq<char> := [
    'а', 'б', 'в', 'г', 'д', 'е', 'ё', 'ж', 'з', 'и', 'й', 'к', 'л', 'м', 'н', 'о', 'п', 'р',
    'с', 'т', 'у', 'ф', 'х', 'ц', 'ч', 'ш', 'щ', 'ъ', 'ы', 'ь', 'э', 'ю', 'я', 'є', 'і', 'ї',
    'ґ']

  /** `str.upper()` of each source letter. */
  const CyrillicUpper: seq<char> := [
    'А', 'Б', 'В', 'Г', 'Д', 'Е', 'Ё', 'Ж', 'З', 'И', 'Й', 'К', 'Л', 'М', 'Н', 'О', 'П', 'Р',
    'С', 'Т', 'У', 'Ф', 'Х', 'Ц', 'Ч', 'Ш', 'Щ', 'Ъ', 'Ы', 'Ь', 'Э', 'Ю', 'Я', 'Є', 'І', 'Ї',
    'Ґ']

  /** `LATIN_ALTERNATIVE`, the replacements, position by position. */
  const Latin: seq<string> := [
    "a", "b", "v", "g", "d", "e", "e", "j", "z", "i", "j", "k", "l", "m", "n", "o", "p", "r",
    "s", "t", "u", "f", "h", "ts", "ch", "sh", "sch", "", "y", "", "e", "yu", "ya", "je", "i",
    "ji", "g"]

  /** `str.capitalize()` on the ASCII lower-case replacements. */
  function Capitalize(s: string): string
  {
    if s == [] then [] else [if 'a' <= s[0] <= 'z' then (s[0] as int - 32) as char else s[0]] + s[1..]
  }

  /** Position of a lower-case source letter in `CYRILLIC_SYMBOLS`. Every
      lower-case letter of the tuple lies at or above U+0430 and is not U+0490. */
  function LowerIndex(c: char): (r: Option<nat>)
    ensures r.Some? ==> r.value < |Cyrillic| && 'а' <= c && c != 'Ґ'
  {
    match c
    case 'а' => Some(0)  case 'б' => Some(1)  case 'в' => Some(2)  case 'г' => Some(3)  case 'д' => Some(4)  case 'е' => Some(5)
    case 'ё' => Some(6)  case 'ж' => Some(7)  case 'з' => Some(8)  case 'и' => Some(9)  case 'й' => Some(10)  case 'к' => Some(11)
    case 'л' => Some(12)  case 'м' => Some(13)  case 'н' => Some(14)  case 'о' => Some(15)  case 'п' => Some(16)  case 'р' => Some(17)
    case 'с' => Some(18)  case 'т' => Some(19)  case 'у' => Some(20)  case 'ф' => Some(21)  case 'х' => Some(22)  case 'ц' => Some(23)
    case 'ч' => Some(24)  case 'ш' => Some(25)  case 'щ' => Some(26)  case 'ъ' => Some(27)  case 'ы' => Some(28)  case 'ь' => Some(29)
    case 'э' => Some(30)  case 'ю' => Some(31)  case 'я' => Some(32)  case 'є' => Some(33)  case 'і' => Some(34)  case 'ї' => Some(35)
    case 'ґ' => Some(36)
    case _ => None
  }

  /** Position of an upper-case source letter (`cyrillic.upper()`); all of
      them lie at or above U+0401. */
  function UpperIndex(c: char): (r: Option<nat>)
    ensures r.Some? ==> r.value < |Cyrillic| && 'Ё' <= c
  {
    match c
    case 'А' => Some(0)  case 'Б' => Some(1)  case 'В' => Some(2)  case 'Г' => Some(3)  case 'Д' => Some(4)  case 'Е' => Some(5)
    case 'Ё' => Some(6)  case 'Ж' => Some(7)  case 'З' => Some(8)  case 'И' => Some(9)  case 'Й' => Some(10)  case 'К' => Some(11)
    case 'Л' => Some(12)  case 'М' => Some(13)  case 'Н' => Some(14)  case 'О' => Some(15)  case 'П' => Some(16)  case 'Р' => Some(17)
    case 'С' => Some(18)  case 'Т' => Some(19)  case 'У' => Some(20)  case 'Ф' => Some(21)  case 'Х' => Some(22)  case 'Ц' => Some(23)
    case 'Ч' => Some(24)  case 'Ш' => Some(25)  case 'Щ' => Some(26)  case 'Ъ' => Some(27)  case 'Ы' => Some(28)  case 'Ь' => Some(29)
    case 'Э' => Some(30)  case 'Ю' => Some(31)  case 'Я' => Some(32)  case 'Є' => Some(33)  case 'І' => Some(34)  case 'Ї' => Some(35)
    case 'Ґ' => Some(36)
    case _ => None
  }

  /** The `TRANSLITERATION` table the module builds at import time: each source
      letter maps to its replacement, and its upper-case form to the capitalised
      replacement. Characters outside the table have no entry. Lower-case
      entries are looked up first; no character is both. */
  function Replacement(c: char): Option<string>
  {
    match LowerIndex(c)
    case Some(i) => Some(Latin[i])
    case None =>
      match UpperIndex(c)
      case Some(i) => Some(Capitalize(Latin[i]))
      case None => None
  }

  lemma LowerIndexOf(i: nat)
    requires i < |Cyrillic|
    ensures LowerIndex(Cyrillic[i]) == Some(i)
  {
    assert i == 0 || i == 1 || i == 2 || i == 3 || i == 4 || i == 5 || i == 6 || i == 7 || i == 8 || i == 9 ||
      i == 10 || i == 11 || i == 12 || i == 13 || i == 14 || i == 15 || i == 16 || i == 17 || i == 18 || i == 19 ||
      i == 20 || i == 21 || i == 22 || i == 23 || i == 24 || i == 25 || i == 26 || i == 27 || i == 28 || i == 29 ||
      i == 30 || i == 31 || i == 32 || i == 33 || i == 34 || i == 35 || i == 36;
  }

  lemma UpperIndexOf(i: nat)
    requires i < |Cyrillic|
    ensures UpperIndex(CyrillicUpper[i]) == Some(i)
  {
    assert i == 0 || i == 1 || i == 2 || i == 3 || i == 4 || i == 5 || i == 6 || i == 7 || i == 8 || i == 9 ||
      i == 10 || i == 11 || i == 12 || i == 13 || i == 14 || i == 15 || i == 16 || i == 17 || i == 18 || i == 19 ||
      i == 20 || i == 21 || i == 22 || i == 23 || i == 24 || i == 25 || i == 26 || i == 27 || i == 28 || i == 29 ||
      i == 30 || i == 31 || i == 32 || i == 33 || i == 34 || i == 35 || i == 36;
  }

  lemma UpperIsNotLower(i: nat)
    requires i < |Cyrillic|
    ensures LowerIndex(CyrillicUpper[i]) == None
  {
    assert i == 0 || i == 1 || i == 2 || i == 3 || i == 4 || i == 5 || i == 6 || i == 7 || i == 8 || i == 9 ||
      i == 10 || i == 11 || i == 12 || i == 13 || i == 14 || i == 15 || i == 16 || i == 17 || i == 18 || i == 19 ||
      i == 20 || i == 21 || i == 22 || i == 23 || i == 24 || i == 25 || i == 26 || i == 27 || i == 28 || i == 29 ||
      i == 30 || i == 31 || i == 32 || i == 33 || i == 34 || i == 35 || i == 36;
    assert CyrillicUpper[i] < 'а' || CyrillicUpper[i] == 'Ґ';
  }

  /** The table is exactly what the construction loop builds from the two tuples:
      the letter at position `i` maps to the `i`-th replacement and its upper-case
      form to that replacement capitalised. */
  lemma TableFromTuples(i: nat)
    requires i < |Cyrillic|
    ensures Replacement(Cyrillic[i]) == Some(Latin[i])
    ensures Replacement(CyrillicUpper[i]) == Some(Capitalize(Latin[i]))
  {
    LowerIndexOf(i);
    UpperIndexOf(i);
    UpperIsNotLower(i);
  }

  /** The replacements are ASCII letters (two of them are empty). */
  lemma LatinLetters(i: nat)
    requires i < |Latin|
    ensures AsciiLetters(Latin[i])
  {
    assert i == 0 || i == 1 || i == 2 || i == 3 || i == 4 || i == 5 || i == 6 || i == 7 || i == 8 || i == 9 ||
      i == 10 || i == 11 || i == 12 || i == 13 || i == 14 || i == 15 || i == 16 || i == 17 || i == 18 || i == 19 ||
      i == 20 || i == 21 || i == 22 || i == 23 || i == 24 || i == 25 || i == 26 || i == 27 || i == 28 || i == 29 ||
      i == 30 || i == 31 || i == 32 || i == 33 || i == 34 || i == 35 || i == 36;
  }

  /** Every character outside the two tuples passes through `str.translate`. */
  lemma OtherCharactersKept(c: char)
    requires c !in Cyrillic && c !in CyrillicUpper
    ensures Replacement(c) == None
  {
  }

  predicate AsciiLetters(s: string) {
    s == [] || (IsAsciiLetter(s[0]) && AsciiLetters(s[1..]))
  }

  lemma {:induction false} AsciiLettersAt(s: string, k: nat)
    requires AsciiLetters(s) && k < |s|
    ensures IsAsciiLetter(s[k])
  {
    if k > 0 {
      AsciiLettersAt(s[1..], k - 1);
    }
  }

  /** Table keys are Cyrillic (not ASCII); replacements are ASCII letters. */
  lemma TableShape(c: char)
    requires Replacement(c).Some?
    ensures !IsAscii(c)
    ensures AsciiLetters(Replacement(c).value)
  {
    match LowerIndex(c)
    case Some(i) =>
      LatinLetters(i);
    case None =>
      var i := UpperIndex(c).value;
      LatinLetters(i);
      CapitalizeLetters(Latin[i]);
  }

  lemma CapitalizeLetters(s: string)
    requires AsciiLetters(s)
    ensures AsciiLetters(Capitalize(s))
  {
    if s != [] {
      assert Capitalize(s)[1..] == s[1..];
    }
  }

  lemma AsciiNotInTable(c: char)
    requires IsAscii(c)
    ensures Replacement(c).None?
  {
    if Replacement(c).Some? {
      TableShape(c);
    }
  }

  // ---------------------------------------------------------------------------
  // str.translate(TRANSLITERATION)

  function TranslitChar(c: char): string
  {
    match Replacement(c)
    case Some(r) => r
    case None => [c]
  }

  function Transliterate(s: string): string
  {
    if s == [] then [] else TranslitChar(s[0]) + Transliterate(s[1..])
  }

  /** No character of the table survives transliteration. */
  lemma {:induction false} TransliterateLeavesNoKeys(s: string)
    ensures forall k :: 0 <= k < |Transliterate(s)| ==> Replacement(Transliterate(s)[k]).None?
  {
    if s != [] {
      TransliterateLeavesNoKeys(s[1..]);
      var head := TranslitChar(s[0]);
      if Replacement(s[0]).Some? {
        TableShape(s[0]);
        forall k | 0 <= k < |head|
          ensures Replacement(head[k]).None?
        {
          AsciiLettersAt(head, k);
          AsciiNotInTable(head[k]);
        }
      }
    }
  }

  /** Text without table characters is left as it is. */
  lemma {:induction false} TransliterateKeeps(s: string)
    requires forall k :: 0 <= k < |s| ==> Replacement(s[k]).None?
    ensures Transliterate(s) == s
  {
    if s != [] {
      TransliterateKeeps(s[1..]);
      assert s == [s[0]] + s[1..];
    }
  }

  // ---------------------------------------------------------------------------
  // re.sub(r"\W", "_", s)

  predicate AllWord(u: Unicode, s: string) {
    forall k :: 0 <= k < |s| ==> u.isWord(s[k])
  }

  /** Every non-word character becomes `_`; word characters stay. */
  function Sanitize(u: Unicode, s: string): (r: string)
    ensures |r| == |s|
    ensures forall k :: 0 <= k < |s| ==> r[k] == (if u.isWord(s[k]) then s[k] else '_')
  {
    if s == [] then [] else [if u.isWord(s[0]) then s[0] else '_'] + Sanitize(u, s[1..])
  }

  // ---------------------------------------------------------------------------
  // pathlib: Path(name).suffix and Path(name).stem of a single name

  /** `name.rfind('.')`. */
  function LastDot(s: string): (r: Option<nat>)
    ensures r.Some? ==> r.value < |s| && s[r.value] == '.' && '.' !in s[r.value + 1..]
    ensures r.None? ==> '.' !in s
  {
    if s == [] then None
    else if s[|s| - 1] == '.' then Some(|s| - 1)
    else
      var r := LastDot(s[..|s| - 1]);
      assert r.Some? ==> s[r.value + 1..] == s[..|s| - 1][r.value + 1..] + [s[|s| - 1]];
      assert s == s[..|s| - 1] + [s[|s| - 1]];
      r
  }

  /** Where `Path.suffix` starts: the last dot, unless it is the first or the
      last character (then the name has no suffix). */
  function SuffixStart(name: string): (k: nat)
    ensures k <= |name|
  {
    match LastDot(name)
    case Some(i) => if 0 < i < |name| - 1 then i else |name|
    case None => |name|
  }

  function Suffix(name: string): string
  {
    name[SuffixStart(name)..]
  }

  function Stem(name: string): string
  {
    name[..SuffixStart(name)]
  }

  /** A name is its stem followed by its suffix; a non-empty suffix is a dot,
      at least one more character and no further dot, behind a non-empty stem. */
  lemma StemSuffix(name: string)
    ensures Stem(name) + Suffix(name) == name
    ensures Suffix(name) != [] ==>
      && |Suffix(name)| >= 2 && Suffix(name)[0] == '.' && '.' !in Suffix(name)[1..]
      && Stem(name) != []
    ensures Suffix(name) == [] ==> Stem(name) == name
  {
    var k := SuffixStart(name);
    if k < |name| {
      assert Suffix(name)[1..] == name[k + 1..];
    }
  }

  /** `.tar.gz` and every other two-dot extension is out of reach: a suffix
      holds exactly one dot, or none. */
  lemma SuffixDots(name: string)
    ensures CountChar(Suffix(name), '.') == (if Suffix(name) == [] then 0 else 1)
  {
    StemSuffix(name);
    var s := Suffix(name);
    if s != [] {
      assert s == [s[0]] + s[1..];
      CountCharAbsent(s[1..], '.');
    }
  }

  // ---------------------------------------------------------------------------
  // normalized_name

  /** The stem after transliteration and `\W` replacement. */
  function CleanStem(u: Unicode, name: string): string
  {
    Sanitize(u, Transliterate(Stem(name)))
  }

  /** `normalized_name(name)`. */
  function Normalize(u: Unicode, name: string): (r: string)
    ensures |r| == |Transliterate(Stem(name))| + |Suffix(name)|
    ensures r[|r| - |Suffix(name)|..] == Suffix(name)
  {
    CleanStem(u, name) + Suffix(name)
  }

  /** The normalised name is a run of word characters followed by the original
      suffix, character for character. */
  lemma NormalizeShape(u: Unicode, name: string)
    requires Sane(u)
    ensures var r := Normalize(u, name);
      && |Suffix(name)| <= |r|
      && r[|r| - |Suffix(name)|..] == Suffix(name)
      && AllWord(u, r[..|r| - |Suffix(name)|])
      && '.' !in r[..|r| - |Suffix(name)|]
  {
    var r := Normalize(u, name);
    var c := CleanStem(u, name);
    assert r[..|r| - |Suffix(name)|] == c;
    assert u.isWord('_');
    assert !u.isWord('.');
  }

  /** Re-reading a normalised name with a non-empty stem gives back the same
      stem and suffix. */
  lemma NormalizedParts(u: Unicode, name: string)
    requires Sane(u)
    requires CleanStem(u, name) != []
    ensures Suffix(Normalize(u, name)) == Suffix(name)
    ensures Stem(Normalize(u, name)) == CleanStem(u, name)
  {
    var c := CleanStem(u, name);
    var s := Suffix(name);
    var r := Normalize(u, name);
    NormalizeShape(u, name);
    StemSuffix(name);
    assert r == c + s;
    assert r[..|c|] == c;
    if s == [] {
      assert r == c;
      assert '.' !in r;
      assert LastDot(r).None?;
    } else {
      assert '.' !in r[|c| + 1..] by {
        assert r[|c| + 1..] == s[1..];
      }
      assert r[|c|] == '.';
      LastDotIs(r, |c|);
    }
  }

  lemma LastDotIs(s: string, i: nat)
    requires i < |s| && s[i] == '.' && '.' !in s[i + 1..]
    ensures LastDot(s) == Some(i)
  {
    assert s[i] in s;
    var r := LastDot(s);
    NoDotAfter(s, i);
    NoDotAfter(s, r.value);
  }

  lemma NoDotAfter(s: string, i: nat)
    requires i < |s| && '.' !in s[i + 1..]
    ensures forall j :: i < j < |s| ==> s[j] != '.'
  {
    forall j | i < j < |s|
      ensures s[j] != '.'
    {
      assert s[i + 1..][j - i - 1] == s[j];
    }
  }

  /** A clean stem has no table character and no non-word character, so a second
      normalisation leaves it alone. */
  lemma CleanStemIsFixed(u: Unicode, name: string)
    requires Sane(u)
    ensures Sanitize(u, Transliterate(CleanStem(u, name))) == CleanStem(u, name)
  {
    var t := Transliterate(Stem(name));
    var c := CleanStem(u, name);
    TransliterateLeavesNoKeys(Stem(name));
    assert Replacement('_').None?;
    forall k | 0 <= k < |c|
      ensures Replacement(c[k]).None?
    {
      assert c[k] == t[k] || c[k] == '_';
    }
    TransliterateKeeps(c);
    assert u.isWord('_');
  }

  /** Normalising twice is normalising once, as long as the clean stem is not
      empty. */
  lemma NormalizeIdempotent(u: Unicode, name: string)
    requires Sane(u)
    requires CleanStem(u, name) != []
    ensures Normalize(u, Normalize(u, name)) == Normalize(u, name)
  {
    NormalizedParts(u, name);
    CleanStemIsFixed(u, name);
  }

  /** The last dot at `i`, neither first nor last, splits a name into stem and
      suffix there. */
  lemma SplitAtDot(name: string, i: nat)
    requires 0 < i < |name| - 1 && name[i] == '.' && '.' !in name[i + 1..]
    ensures Stem(name) == name[..i] && Suffix(name) == name[i..]
  {
    LastDotIs(name, i);
  }

  lemma SanitizeWord(u: Unicode, s: string)
    requires AllWord(u, s)
    ensures Sanitize(u, s) == s
  {
  }

  /** What `Path.suffix` can return when it is not empty: a dot, at least one
      more character, and no further dot. */
  predicate Extension(ext: string) {
    |ext| >= 2 && ext[0] == '.' && '.' !in ext[1..]
  }

  /** Normalising a non-empty stem followed by an extension, given the
      transliterated stem `t` and its sanitised form `c`: the extension is
      kept character for character. */
  lemma NormalizeJoined(u: Unicode, stem: string, ext: string, t: string, c: string)
    requires stem != [] && Extension(ext)
    requires Transliterate(stem) == t && Sanitize(u, t) == c
    ensures Normalize(u, stem + ext) == c + ext
  {
    SplitJoined(stem, ext);
  }

  /** A non-empty stem followed by an extension splits back into the two. */
  lemma SplitJoined(stem: string, ext: string)
    requires stem != [] && Extension(ext)
    ensures Stem(stem + ext) == stem && Suffix(stem + ext) == ext
  {
    var name := stem + ext;
    var i := |stem|;
    assert name[..i] == stem && name[i..] == ext;
    assert name[i + 1..] == name[i..][1..];
    SplitAtDot(name, i);
  }

  /** A stem that transliterates to nothing leaves a bare extension, ... */
  lemma VanishingStem(u: Unicode, ext: string)
    requires Extension(ext)
    ensures Normalize(u, "ъ" + ext) == ext
  {
    assert Transliterate("ъ") == "" by {
      assert Replacement('ъ') == Some("");
    }
    NormalizeJoined(u, "ъ", ext, "", "");
  }

  /** ... which the next pass reads as a stem: normalising twice is not
      normalising once. */
  lemma NormalizeNotIdempotent(u: Unicode)
    requires Sane(u)
    ensures Normalize(u, "ъ" + ".txt") == ".txt"
    ensures Normalize(u, Normalize(u, "ъ" + ".txt")) == "_txt"
  {
    VanishingStem(u, ".txt");
    DotNameIsAllStem(u, ".txt");
    DotNameSanitized(u);
  }

  /** A name whose only dot is its first character has no suffix: all of it
      is stem. */
  lemma DotNameIsAllStem(u: Unicode, name: string)
    requires |name| >= 2 && name[0] == '.' && '.' !in name[1..]
    ensures Normalize(u, name) == Sanitize(u, Transliterate(name))
  {
    LastDotIs(name, 0);
    assert Stem(name) == name && Suffix(name) == [];
  }

  lemma DotNameSanitized(u: Unicode)
    requires Sane(u)
    ensures Sanitize(u, Transliterate(".txt")) == "_txt"
  {
    assert Transliterate(".txt") == ".txt" by {
      assert Replacement('.').None? && Replacement('t').None? && Replacement('x').None?;
    }
    assert u.isWord('t') && u.isWord('x') && !u.isWord('.');
  }

  /** A Cyrillic stem is transliterated letter by letter. */
  lemma NormalizeCyrillic(u: Unicode, ext: string)
    requires Sane(u) && Extension(ext)
    ensures Normalize(u, "отчет" + ext) == "otchet" + ext
  {
    CyrillicStem();
    CyrillicStemSanitized(u);
    NormalizeJoined(u, "отчет", ext, "otchet", "otchet");
  }

  lemma CyrillicStem()
    ensures Transliterate("отчет") == "otchet"
  {
    assert Replacement('о') == Some("o");
    assert Replacement('т') == Some("t");
    assert Replacement('ч') == Some("ch");
    assert Replacement('е') == Some("e");
  }

  lemma CyrillicStemSanitized(u: Unicode)
    requires Sane(u)
    ensures Sanitize(u, "otchet") == "otchet"
  {
    var s := "otchet";
    assert u.isWord('o') && u.isWord('t') && u.isWord('c') && u.isWord('h') && u.isWord('e');
    assert s[0] == 'o' && s[1] == 't' && s[2] == 'c' && s[3] == 'h' && s[4] == 'e' && s[5] == 't';
    assert AllWord(u, s);
    SanitizeWord(u, s);
  }

  /** Of a double extension only the last part is kept; the inner dot
      becomes `_`. */
  lemma NormalizeDoubleExtension(u: Unicode, ext: string)
    requires Sane(u) && Extension(ext)
    ensures Normalize(u, "a.tar" + ext) == "a_tar" + ext
  {
    DoubleExtensionStem(u);
    NormalizeJoined(u, "a.tar", ext, "a.tar", "a_tar");
  }

  lemma DoubleExtensionStem(u: Unicode)
    requires Sane(u)
    ensures Transliterate("a.tar") == "a.tar" && Sanitize(u, "a.tar") == "a_tar"
  {
    assert Replacement('a').None? && Replacement('.').None?;
    assert Replacement('t').None? && Replacement('r').None?;
    assert u.isWord('a') && u.isWord('t') && u.isWord('r') && !u.isWord('.');
  }

  /** Upper-case letters take capitalised replacements, a space becomes `_`,
      and the extension keeps its case. */
  lemma NormalizeCapitalised(u: Unicode, ext: string)
    requires Sane(u) && Extension(ext)
    ensures Normalize(u, "Щи 1" + ext) == "Schi_1" + ext
  {
    CapitalisedStem();
    CapitalisedStemSanitized(u);
    NormalizeJoined(u, "Щи 1", ext, "Schi 1", "Schi_1");
  }

  lemma CapitalisedStem()
    ensures Transliterate("Щи 1") == "Schi 1"
  {
    assert Capitalize("sch") == "Sch";
    assert Replacement('Щ') == Some("Sch");
    assert Replacement('и') == Some("i");
    assert Replacement(' ').None? && Replacement('1').None?;
  }

  lemma CapitalisedStemSanitized(u: Unicode)
    requires Sane(u)
    ensures Sanitize(u, "Schi 1") == "Schi_1"
  {
    assert !u.isWord(' ') && u.isWord('1') && u.isWord('S') && u.isWord('c') && u.isWord('h');
    assert u.isWord('i');
    var r := Sanitize(u, "Schi 1");
    assert |r| == 6;
    assert r[0] == 'S' && r[1] == 'c' && r[2] == 'h' && r[3] == 'i' && r[4] == '_' && r[5] == '1';
  }
}

=== FILE: notebook.dfy ===
/**
 The `notes` feature: notes with a title, a text, tags and the date they were
 made, kept in a records container keyed by title; making a note from three
 answers and changing one in a question loop.

 The note being changed is one object shared by every container entry that
 holds it. `holders` lists those entries, and every change to the note is
 written to all of them, which keeps exactly what the shared object would
 show. Renaming stores the note under the new title first and then removes
 the title the loop started from: renaming a note to its own title therefore
 removes it, and a second rename in one loop raises `KeyError` after storing
 the note under the newer title too (`RenameToOwnTitle`, `RenameTwice`).
 */
module Notebook {
  import opened Errors
  import opened Text
  import opened Dates
  import opened Patterns
  import opened Records
  import opened Console

  // ---------------------------------------------------------------------------
  // Title: `[a-zA-Zа-яА-Я0-9,.'\w]{2,30}`, matched at the start

  /** A character of the title class: ASCII and Cyrillic letters, digits, ',',
      '.', the apostrophe, and any word character. */
  predicate TitleChar(u: Unicode, c: char) {
    || IsAsciiLetter(c) || IsAsciiDigit(c)
    || 'а' <= c <= 'я' || 'А' <= c <= 'Я'
    || c == ',' || c == '.' || c == '\'' || u.isWord(c)
  }

  function TitlePattern(u: Unicode): Re {
    Run(c => TitleChar(u, c), 2, Some(30))
  }

  /** The pattern needs only two class characters at the start: a match may
      stop after any 2 to 30 of them, and what follows is not checked. */
  predicate TitleValid(u: Unicode, s: string) {
    |s| >= 2 && TitleChar(u, s[0]) && TitleChar(u, s[1])
  }

  lemma TitleValidMatches(u: Unicode, s: string)
    ensures TitleValid(u, s) <==> Matches(TitlePattern(u), s)
  {
    var cls := c => TitleChar(u, c);
    if TitleValid(u, s) {
      assert AllIn(cls, s, 0, 2);
      assert 2 in Ends(TitlePattern(u), s, 0);
    }
    if Matches(TitlePattern(u), s) {
      var j :| j in Ends(TitlePattern(u), s, 0);
      assert AllIn(cls, s, 0, j) && j >= 2;
      assert cls(s[0]) && cls(s[1]);
    }
  }

  const TitleLength := "Title must be between 2 and 30 characters."

  /** The `Title` setter. */
  function CheckTitle(u: Unicode, title: string): (r: Outcome<string>)
    ensures r.Return? <==> Matches(TitlePattern(u), title)
    ensures r.Return? ==> r.value == title
    ensures r.Raise? ==> r == Raise(ValueError(TitleLength))
  {
    TitleValidMatches(u, title);
    if TitleValid(u, title) then Return(title) else Raise(ValueError(TitleLength))
  }

  // ---------------------------------------------------------------------------
  // NoteRecord

  datatype Note = Note(title: string, text: string, tags: seq<string>, created: Date)

  /** `str(note)`: title, text, tags joined by ", " and the date, one per line. */
  function NoteText(n: Note): (r: string)
  {
    n.title + "\n" + n.text + "\n" + Join(n.tags, ", ") + "\n" + DateText(n.created)
  }

  /** The first line of `str(note)` is the title, when the title has no line
      break of its own. */
  lemma NoteTextTitle(n: Note)
    requires '\n' !in n.title
    ensures |n.title| < |NoteText(n)| && NoteText(n)[..|n.title|] == n.title && NoteText(n)[|n.title|] == '\n'
  {
    var rest := "\n" + n.text + "\n" + Join(n.tags, ", ") + "\n" + DateText(n.created);
    assert NoteText(n) == n.title + rest;
  }

  /** `change_tags(*args)` as `change_note` calls it: with the whole line it
      read, which becomes the one tag. */
  function ChangeTags(n: Note, line: string): (r: Note)
    ensures r.tags == [line] && r.title == n.title && r.text == n.text && r.created == n.created
  {
    n.(tags := [line])
  }

  /** `change_text(new_text)`. */
  function ChangeText(n: Note, text: string): (r: Note)
    ensures r.text == text && r.title == n.title && r.tags == n.tags && r.created == n.created
  {
    n.(text := text)
  }

  /** `change_title(new_title)`: refused titles leave the note as it was. */
  function ChangeTitle(u: Unicode, n: Note, title: string): (r: Outcome<Note>)
    ensures r.Return? <==> TitleValid(u, title)
    ensures r.Return? ==> r.value == n.(title := title)
    ensures r.Raise? ==> r.exc == ValueError(TitleLength)
  {
    match CheckTitle(u, title)
    case Raise(e) => Raise(e)
    case Return(t) => Return(n.(title := t))
  }

  type Notes = seq<Item<Note>>

  /** Every stored note has a title the setter accepted. */
  predicate NotesOk(u: Unicode, notes: Notes) {
    Keyed(notes) && forall i :: 0 <= i < |notes| ==> TitleValid(u, notes[i].rec.title)
  }

  // ---------------------------------------------------------------------------
  // make_note

  const Refused := "exceptions must derive from BaseException"

  function Made(title: string): string {
    "Note " + title + " was created successfully!"
  }

  /** `make_note()`. The duplicate check raises a string, which Python refuses
      with a `TypeError` before anything else is asked; the title is checked
      only once the text and the tags have been read. */
  function MakeNote(u: Unicode, today: Date, notes: Notes, io: Io): (r: Session<Notes>)
    ensures Follows(io, r.io)
    ensures io.lines == [] ==> r == Session(notes, io, Raise(EndOfInput))
    ensures io.lines != [] && Strip(u, io.lines[0]) in Keys(notes) ==> r == Session(notes, r.io, Raise(TypeError(Refused)))
    ensures r.out.Return? <==> |io.lines| >= 3 && Strip(u, io.lines[0]) !in Keys(notes) && TitleValid(u, Strip(u, io.lines[0]))
    ensures r.out.Return? ==> var title := Strip(u, io.lines[0]);
      && r.state == notes + [Item(title, Note(title, io.lines[1], Split(u, Strip(u, io.lines[2])), today))]
      && r.out.value == Made(title)
    ensures r.out.Raise? ==> r.state == notes
    ensures NotesOk(u, notes) ==> NotesOk(u, r.state)
  {
    var (titleLine, io1) := Input(io);
    if titleLine.Raise? then Session(notes, io1, Raise(titleLine.exc))
    else
      var title := Strip(u, titleLine.value);
      ExistsKeys(notes, title);
      if Exists(notes, title) then Session(notes, io1, Raise(TypeError(Refused)))
      else
        var r := FillNote(u, today, notes, title, io1);
        FollowsTransitive(io, io1, r.io);
        r
  }

  /** The rest of `make_note()` for a new title: the text and the tags are
      read, and only then is the title checked. */
  function FillNote(u: Unicode, today: Date, notes: Notes, title: string, io: Io): (r: Session<Notes>)
    requires title !in Keys(notes)
    ensures Follows(io, r.io)
    ensures r.out.Return? <==> |io.lines| >= 2 && TitleValid(u, title)
    ensures r.out.Return? ==>
      && r.state == notes + [Item(title, Note(title, io.lines[0], Split(u, Strip(u, io.lines[1])), today))]
      && r.out.value == Made(title)
    ensures r.out.Raise? ==> r.state == notes
    ensures NotesOk(u, notes) ==> NotesOk(u, r.state)
  {
    var (text, io1) := Input(io);
    var (tagLine, io2) := Input(io1);
    FollowsTransitive(io, io1, io2);
    if text.Raise? then Session(notes, io1, Raise(text.exc))
    else if tagLine.Raise? then Session(notes, io2, Raise(tagLine.exc))
    else match CheckTitle(u, title)
      case Raise(e) => Session(notes, io2, Raise(e))
      case Return(_) =>
        var note := Note(title, text.value, Split(u, Strip(u, tagLine.value)), today);
        AddNew(notes, title, note);
        Session(notes + [Item(title, note)], io2, Return(Made(title)))
  }

  // ---------------------------------------------------------------------------
  // change_note

  const NoNote := "Note with this title doesn't exist."
  const NoteChanged := "The note was changed successfully!"

  /** Writes the note to every entry in `holders`. */
  function Refresh(notes: Notes, holders: seq<string>, note: Note): (r: Notes)
    ensures forall k :: Find(r, k) == if k in holders then Some(note) else Find(notes, k)
    ensures Keyed(notes) ==> Keyed(r)
    ensures forall i :: 0 <= i < |r| ==> r[i].rec == note || r[i] in notes
    decreases |holders|
  {
    if holders == [] then notes
    else
      var r := Refresh(Add(notes, holders[0], note), holders[1..], note);
      forall k
        ensures Find(r, k) == if k in holders then Some(note) else Find(notes, k)
      {
        FindAdd(notes, holders[0], note, k);
        assert k in holders <==> k == holders[0] || k in holders[1..];
      }
      r
  }

  /** The holders other than `key`. */
  function Without(holders: seq<string>, key: string): (r: seq<string>)
    ensures forall k :: k in r <==> k in holders && k != key
  {
    if holders == [] then []
    else (if holders[0] == key then [] else [holders[0]]) + Without(holders[1..], key)
  }

  /** The state of the question loop: the container, the note being changed
      and the entries that hold it. */
  datatype Edit = Edit(notes: Notes, note: Note, holders: seq<string>)

  /** Every holder holds the note. */
  ghost predicate Holds(e: Edit) {
    forall k :: k in e.holders ==> Find(e.notes, k) == Some(e.note)
  }

  /** Every entry of `after` that does not hold the note is the removed entry
      under `title`, or an entry that held nothing of the note in `before` and
      is as it was there. */
  ghost predicate Kept(before: Edit, after: Edit, title: string) {
    forall k :: k !in after.holders ==>
      || (k == title && Find(after.notes, k) == None)
      || (k !in before.holders && Find(after.notes, k) == Find(before.notes, k))
  }

  lemma KeptTransitive(a: Edit, b: Edit, c: Edit, title: string)
    requires Kept(a, b, title) && Kept(b, c, title)
    ensures Kept(a, c, title)
  {
  }

  /** What a step of the loop keeps: the invariant of the container, the
      holders, and the date the note was made. */
  ghost predicate Steps(u: Unicode, e: Edit, after: Edit, title: string) {
    && Kept(e, after, title)
    && after.note.created == e.note.created
    && Holds(after)
    && (NotesOk(u, e.notes) && TitleValid(u, e.note.title) ==> NotesOk(u, after.notes) && TitleValid(u, after.note.title))
  }

  datatype Pass = Pass(edit: Edit, io: Io, next: Next)

  /** A new version of the note, written to every holder and then stored
      under `key`, which becomes a holder too. */
  function Store(u: Unicode, e: Edit, title: string, note: Note, key: string): (r: Edit)
    requires Holds(e)
    requires note.created == e.note.created
    requires TitleValid(u, e.note.title) ==> TitleValid(u, note.title)
    ensures Steps(u, e, r, title)
    ensures r.note == note && r.holders == e.holders + [key]
    ensures forall k :: k !in r.holders ==> Find(r.notes, k) == Find(e.notes, k)
  {
    var refreshed := Refresh(e.notes, e.holders, note);
    var stored := Add(refreshed, key, note);
    forall k
      ensures Find(stored, k) == if k in e.holders + [key] then Some(note) else Find(e.notes, k)
    {
      FindAdd(refreshed, key, note, k);
    }
    assert NotesOk(u, e.notes) && TitleValid(u, note.title) ==> NotesOk(u, stored) by {
      if NotesOk(u, e.notes) && TitleValid(u, note.title) {
        StoreOk(u, e.notes, e.holders, key, note);
      }
    }
    Edit(stored, note, e.holders + [key])
  }

  lemma StoreOk(u: Unicode, notes: Notes, holders: seq<string>, key: string, note: Note)
    requires NotesOk(u, notes) && TitleValid(u, note.title)
    ensures NotesOk(u, Add(Refresh(notes, holders, note), key, note))
  {
    var refreshed := Refresh(notes, holders, note);
    assert NotesOk(u, refreshed);
  }

  /** `remove_record(title)`: the entry goes, and with it a holder; when the
      entry is already gone, `KeyError` and nothing changes. */
  function Drop(u: Unicode, e: Edit, title: string): (r: (Edit, Option<Exception>))
    requires Holds(e)
    ensures Steps(u, e, r.0, title)
    ensures r.1.None? <==> Exists(e.notes, title)
    ensures r.1.None? ==> r.0.note == e.note && forall k :: Find(r.0.notes, k) == if k == title then None else Find(e.notes, k)
    ensures r.1.Some? ==> r == (e, Some(KeyError(title + " was not found!")))
  {
    var removed := RemoveRecord(e.notes, [title]);
    assert Join([title], " ") == title;
    match removed.out
    case Raise(x) => (e, Some(x))
    case Return(_) => (Edit(removed.after, e.note, Without(e.holders, title)), None)
  }

  /** The new title: the note is stored under it, then the entry under
      `title`, the title the loop started from, is removed. */
  function Rename(u: Unicode, e: Edit, title: string, newTitle: string): (r: (Edit, Option<Exception>))
    requires Holds(e)
    ensures Steps(u, e, r.0, title)
    ensures r.1 == Some(ValueError(TitleLength)) <==> !TitleValid(u, newTitle)
    ensures r.1 == Some(ValueError(TitleLength)) ==> r.0 == e
    ensures TitleValid(u, newTitle) ==> r.0.note == e.note.(title := newTitle)
    ensures TitleValid(u, newTitle) ==> (r.1.None? <==> Exists(e.notes, title) || newTitle == title)
    ensures r.1.None? ==> Find(r.0.notes, title) == None
    ensures r.1.None? && newTitle != title ==> Find(r.0.notes, newTitle) == Some(r.0.note)
    ensures r.1.Some? ==> r.1.value == ValueError(TitleLength) || r.1.value == KeyError(title + " was not found!")
    ensures forall k :: k !in e.holders && k != newTitle && k != title ==> Find(r.0.notes, k) == Find(e.notes, k)
    ensures TitleValid(u, newTitle) ==> forall k :: k in e.holders + [newTitle] && k != title ==> Find(r.0.notes, k) == Some(r.0.note)
  {
    match ChangeTitle(u, e.note, newTitle)
    case Raise(x) => (e, Some(x))
    case Return(note) =>
      var stored := Store(u, e, title, note, newTitle);
      var (dropped, failed) := Drop(u, stored, title);
      (dropped, failed)
  }

  /** A new value for the tags or the text, written to every holder. */
  function Rewrite(u: Unicode, e: Edit, title: string, note: Note): (r: Edit)
    requires Holds(e)
    requires note.created == e.note.created && note.title == e.note.title
    ensures Steps(u, e, r, title)
    ensures r.note == note && r.holders == e.holders
    ensures forall k :: k !in e.holders ==> Find(r.notes, k) == Find(e.notes, k)
  {
    Edit(Refresh(e.notes, e.holders, note), note, e.holders)
  }

  /** The edit the chosen field asks for: a rename for "title", otherwise the
      note with its tags or its text replaced. */
  function ChangeField(u: Unicode, e: Edit, title: string, field: string, value: string): (r: (Edit, Option<Exception>))
    requires Holds(e)
    ensures Steps(u, e, r.0, title)
    ensures field == "title" ==> r == Rename(u, e, title, value)
    ensures field == "tags" ==> r.1 == None && r.0.note == ChangeTags(e.note, value) && r.0.holders == e.holders
    ensures field == "text" ==> r.1 == None && r.0.note == ChangeText(e.note, value) && r.0.holders == e.holders
    ensures field != "title" ==> forall k :: k !in e.holders ==> Find(r.0.notes, k) == Find(e.notes, k)
  {
    if field == "title" then Rename(u, e, title, value)
    else if field == "tags" then (Rewrite(u, e, title, ChangeTags(e.note, value)), None)
    else (Rewrite(u, e, title, ChangeText(e.note, value)), None)
  }

  /** One pass of the `while True` loop of `change_note`. */
  function NotePass(u: Unicode, e: Edit, title: string, io: Io): (r: Pass)
    requires Holds(e)
    ensures Follows(io, r.io)
    ensures Steps(u, e, r.edit, title)
    ensures r.next.Again? ==> |r.io.lines| < |io.lines|
    ensures r.next.Stop? && r.next.out.Return? ==> r.next.out.value == NoteChanged
    ensures |io.lines| >= 2 && Lower(u, io.lines[0]) == "text" ==>
      && r.edit.note == ChangeText(e.note, io.lines[1]) && r.edit.holders == e.holders
      && forall k :: k !in e.holders ==> Find(r.edit.notes, k) == Find(e.notes, k)
    ensures |io.lines| >= 2 && Lower(u, io.lines[0]) == "tags" ==>
      && r.edit.note == ChangeTags(e.note, io.lines[1]) && r.edit.holders == e.holders
      && forall k :: k !in e.holders ==> Find(r.edit.notes, k) == Find(e.notes, k)
  {
    var (choice, io1) := Input(io);
    if choice.Raise? then Pass(e, io1, Stop(Raise(choice.exc)))
    else
      var field := Lower(u, choice.value);
      if field !in ["title", "tags", "text"] then Pass(e, Print(io1, "Unknown command"), Again)
      else
        var (value, io2) := Input(io1);
        FollowsTransitive(io, io1, io2);
        if value.Raise? then Pass(e, io2, Stop(Raise(value.exc)))
        else
          var (e1, failed) := ChangeField(u, e, title, field, value.value);
          if failed.Some? then Pass(e1, io2, Stop(Raise(failed.value)))
          else
            var r := GoOn(u, e1, io2);
            FollowsTransitive(io, io2, r.io);
            r
  }

  /** "Do you want to change something else?": "n" finishes, "y" asks again,
      anything else prints a complaint and asks again. */
  function GoOn(u: Unicode, e: Edit, io: Io): (r: Pass)
    ensures Follows(io, r.io) && r.edit == e
    ensures r.next.Again? ==> |r.io.lines| < |io.lines|
    ensures r.next.Stop? ==> r.next.out == Return(NoteChanged) || r.next.out == Raise(EndOfInput)
    ensures io.lines != [] && Lower(u, io.lines[0]) == "n" ==> r == Pass(e, Io(io.lines[1..], io.shown), Stop(Return(NoteChanged)))
    ensures io.lines != [] && Lower(u, io.lines[0]) == "y" ==> r == Pass(e, Io(io.lines[1..], io.shown), Again)
  {
    var (answer, io1) := Input(io);
    if answer.Raise? then Pass(e, io1, Stop(Raise(answer.exc)))
    else
      var yn := Lower(u, answer.value);
      if yn == "n" then Pass(e, io1, Stop(Return(NoteChanged)))
      else if yn == "y" then Pass(e, io1, Again)
      else Pass(e, Print(io1, "Enter y or n."), Again)
  }

  /** The `while True` loop of `change_note`; each pass reads at least one
      line, so the loop ends when the input does. */
  function NoteLoop(u: Unicode, e: Edit, title: string, io: Io): (r: Session<Edit>)
    requires Holds(e)
    ensures Follows(io, r.io)
    ensures Steps(u, e, r.state, title)
    ensures r.out.Return? ==> r.out.value == NoteChanged
    decreases |io.lines|
  {
    var pass := NotePass(u, e, title, io);
    match pass.next
    case Stop(out) => Session(pass.edit, pass.io, out)
    case Again =>
      var r := NoteLoop(u, pass.edit, title, pass.io);
      FollowsTransitive(io, pass.io, r.io);
      KeptTransitive(e, pass.edit, r.state, title);
      r
  }

  /** `change_note(*args)`: the arguments joined by spaces name the note. The
      other notes stay as they were, unless a rename stores the note over
      one of them. */
  function ChangeNote(u: Unicode, notes: Notes, args: seq<string>, io: Io): (r: Session<Notes>)
    ensures Follows(io, r.io)
    ensures !Exists(notes, Join(args, " ")) ==> r == Session(notes, io, Raise(KeyError(NoNote)))
    ensures Exists(notes, Join(args, " ")) ==>
      exists n: Note :: n.created == Find(notes, Join(args, " ")).value.created
        && forall k :: || Find(r.state, k) == Find(notes, k)
                       || (k == Join(args, " ") && Find(r.state, k) == None)
                       || Find(r.state, k) == Some(n)
    ensures r.out.Return? ==> r.out.value == NoteChanged
    ensures NotesOk(u, notes) ==> NotesOk(u, r.state)
  {
    var title := Join(args, " ");
    if !Exists(notes, title) then Session(notes, io, Raise(KeyError(NoNote)))
    else
      var note := Find(notes, title).value;
      var r := NoteLoop(u, Edit(notes, note, [title]), title, io);
      assert NotesOk(u, notes) ==> TitleValid(u, note.title) by {
        if NotesOk(u, notes) {
          var i :| 0 <= i < |notes| && notes[i] == Item(title, note);
        }
      }
      var n := r.state.note;
      assert forall k :: || Find(r.state.notes, k) == Find(notes, k)
                         || (k == title && Find(r.state.notes, k) == None)
                         || Find(r.state.notes, k) == Some(n);
      Session(r.state.notes, r.io, r.out)
  }

  // ---------------------------------------------------------------------------
  // What a conversation with change_note does

  /** Renaming a note to the title it already has removes it: the note is
      stored over itself, then the entry under that title is deleted. */
  lemma RenameToOwnTitle(u: Unicode, notes: Notes, title: string, shown: seq<string>)
    requires Sane(u) && Exists(notes, title) && TitleValid(u, title)
    ensures var r := ChangeNote(u, notes, [title], Io(["title", title, "n"], shown));
      && r.out == Return(NoteChanged)
      && Find(r.state, title) == None
      && forall k :: k != title ==> Find(r.state, k) == Find(notes, k)
  {
    LowerWord(u, "title");
    LowerWord(u, "n");
    assert Join([title], " ") == title;
    var io := Io(["title", title, "n"], shown);
    var e := Edit(notes, Find(notes, title).value, [title]);
    var p := NotePass(u, e, title, io);
    assert p.next == Stop(Return(NoteChanged));
  }

  /** A second rename in one conversation raises `KeyError`: the title the
      loop started from is gone. The note is then stored under both new
      titles. */
  lemma RenameTwice(u: Unicode, notes: Notes, title: string, a: string, b: string, io: Io)
    requires Sane(u) && Exists(notes, title) && TitleValid(u, a) && TitleValid(u, b)
    requires a != title && b != title
    requires |io.lines| >= 5 && io.lines[0] == "title" && io.lines[1] == a && io.lines[2] == "y"
    requires io.lines[3] == "title" && io.lines[4] == b
    ensures var r := ChangeNote(u, notes, [title], io);
      && r.out == Raise(KeyError(title + " was not found!"))
      && Find(r.state, a) == Find(r.state, b)
      && Find(r.state, b) == Some(Find(notes, title).value.(title := b))
  {
    assert Join([title], " ") == title;
    var e := Edit(notes, Find(notes, title).value, [title]);
    RenameTwiceLoop(u, e, title, a, b, io);
  }

  lemma RenameTwiceLoop(u: Unicode, e: Edit, title: string, a: string, b: string, io: Io)
    requires Sane(u) && Holds(e) && e.holders == [title] && Exists(e.notes, title)
    requires TitleValid(u, a) && TitleValid(u, b) && a != title && b != title
    requires |io.lines| >= 5 && io.lines[0] == "title" && io.lines[1] == a && io.lines[2] == "y"
    requires io.lines[3] == "title" && io.lines[4] == b
    ensures var r := NoteLoop(u, e, title, io);
      && r.out == Raise(KeyError(title + " was not found!"))
      && Find(r.state.notes, a) == Some(e.note.(title := b))
      && Find(r.state.notes, b) == Some(e.note.(title := b))
  {
    var io1 := Io(io.lines[3..], io.shown);
    var e1 := Rename(u, e, title, a).0;
    assert NoteLoop(u, e, title, io) == NoteLoop(u, e1, title, io1) by {
      FirstRename(u, e, title, a, io);
      LoopAgain(u, e, title, io);
    }
    assert io1.lines[0] == "title" && io1.lines[1] == b;
    SecondRename(u, e1, title, b, io1);
  }

  /** A pass that asks again leaves the rest to the loop. */
  lemma LoopAgain(u: Unicode, e: Edit, title: string, io: Io)
    requires Holds(e) && NotePass(u, e, title, io).next.Again?
    ensures var p := NotePass(u, e, title, io);
      NoteLoop(u, e, title, io) == NoteLoop(u, p.edit, title, p.io)
  {
  }

  /** The first pass renames the note to `a` and asks again: the note is held
      under `a`, and the title the loop started from is gone. */
  lemma FirstRename(u: Unicode, e: Edit, title: string, a: string, io: Io)
    requires Sane(u) && Holds(e) && e.holders == [title] && Exists(e.notes, title) && TitleValid(u, a) && a != title
    requires |io.lines| >= 3 && io.lines[0] == "title" && io.lines[1] == a && io.lines[2] == "y"
    ensures var e1 := Rename(u, e, title, a).0;
      && NotePass(u, e, title, io) == Pass(e1, Io(io.lines[3..], io.shown), Again)
      && Holds(e1) && Find(e1.notes, title) == None && a in e1.holders && e1.note == e.note.(title := a)
  {
    var e1 := Rename(u, e, title, a).0;
    assert Find(e1.notes, a) == Some(e1.note);
    TitlePass(u, e, title, io);
    LowerWord(u, "y");
    assert io.lines[2..][1..] == io.lines[3..];
  }

  /** The second rename raises, with the note held under both new titles. */
  lemma SecondRename(u: Unicode, e1: Edit, title: string, b: string, io: Io)
    requires Sane(u) && Holds(e1) && Find(e1.notes, title) == None && TitleValid(u, b) && b != title
    requires |io.lines| >= 2 && io.lines[0] == "title" && io.lines[1] == b
    ensures var (e2, failed) := Rename(u, e1, title, b);
      && failed == Some(KeyError(title + " was not found!"))
      && NoteLoop(u, e1, title, io) == Session(e2, Io(io.lines[2..], io.shown), Raise(failed.value))
      && e2.note == e1.note.(title := b)
      && forall k :: k in e1.holders + [b] ==> Find(e2.notes, k) == Some(e2.note)
  {
    TitlePass(u, e1, title, io);
  }

  /** A pass that renames the note. */
  lemma TitlePass(u: Unicode, e: Edit, title: string, io: Io)
    requires Sane(u) && Holds(e)
    requires |io.lines| >= 2 && io.lines[0] == "title"
    ensures var (e1, failed) := Rename(u, e, title, io.lines[1]);
      NotePass(u, e, title, io)
      == if failed.Some? then Pass(e1, Io(io.lines[2..], io.shown), Stop(Raise(failed.value)))
         else GoOn(u, e1, Io(io.lines[2..], io.shown))
  {
    LowerWord(u, "title");
    assert io.lines[1..][1..] == io.lines[2..];
  }

  /** A conversation whose first pass stops, still holding the note under
      its title alone, is that pass: the note is stored there and every other
      entry is as it was. */
  lemma ChangeNoteOnePass(u: Unicode, notes: Notes, title: string, io: Io)
    requires Exists(notes, title)
    requires var p := NotePass(u, Edit(notes, Find(notes, title).value, [title]), title, io);
      p.next.Stop? && p.edit.holders == [title]
    ensures var p := NotePass(u, Edit(notes, Find(notes, title).value, [title]), title, io);
      var r := ChangeNote(u, notes, [title], io);
      && r == Session(p.edit.notes, p.io, p.next.out)
      && Find(r.state, title) == Some(p.edit.note)
      && forall k :: k != title ==> Find(r.state, k) == Find(notes, k)
  {
    assert Join([title], " ") == title;
    var e := Edit(notes, Find(notes, title).value, [title]);
    var p := NotePass(u, e, title, io);
    assert Steps(u, e, p.edit, title);
    HeldByTitle(e, p.edit, title);
  }

  /** After a step that leaves the note held under `title` alone, the entry
      there is the note and every other entry is as before. */
  lemma HeldByTitle(e: Edit, after: Edit, title: string)
    requires e.holders == [title] && after.holders == [title]
    requires Holds(after) && Kept(e, after, title)
    ensures Find(after.notes, title) == Some(after.note)
    ensures forall k :: k != title ==> Find(after.notes, k) == Find(e.notes, k)
  {
    forall k | k != title
      ensures Find(after.notes, k) == Find(e.notes, k)
    {
      assert k !in after.holders;
    }
  }

  /** New tags replace the old ones by the whole line typed, as one tag; no
      other note changes. */
  lemma ChangeTagsLine(u: Unicode, notes: Notes, title: string, line: string, shown: seq<string>)
    requires Sane(u) && Exists(notes, title)
    ensures var r := ChangeNote(u, notes, [title], Io(["tags", line, "n"], shown));
      && r.out == Return(NoteChanged)
      && Find(r.state, title) == Some(Find(notes, title).value.(tags := [line]))
      && forall k :: k != title ==> Find(r.state, k) == Find(notes, k)
  {
    LowerWord(u, "tags");
    LowerWord(u, "n");
    var io := Io(["tags", line, "n"], shown);
    var e := Edit(notes, Find(notes, title).value, [title]);
    var p := NotePass(u, e, title, io);
    assert p.next == Stop(Return(NoteChanged));
    ChangeNoteOnePass(u, notes, title, io);
  }

  /** New text replaces the old text by the line typed; the title, tags and
      creation date stay, and no other note changes. */
  lemma ChangeTextLine(u: Unicode, notes: Notes, title: string, line: string, shown: seq<string>)
    requires Sane(u) && Exists(notes, title)
    ensures var r := ChangeNote(u, notes, [title], Io(["text", line, "n"], shown));
      && r.out == Return(NoteChanged)
      && Find(r.state, title) == Some(Find(notes, title).value.(text := line))
      && forall k :: k != title ==> Find(r.state, k) == Find(notes, k)
  {
    LowerWord(u, "text");
    LowerWord(u, "n");
    var io := Io(["text", line, "n"], shown);
    var e := Edit(notes, Find(notes, title).value, [title]);
    var p := NotePass(u, e, title, io);
    assert p.next == Stop(Return(NoteChanged));
    ChangeNoteOnePass(u, notes, title, io);
  }

  /** A note just made is listed by `show_all`. */
  lemma MadeNoteShown(u: Unicode, today: Date, notes: Notes, io: Io)
    requires MakeNote(u, today, notes, io).out.Return?
    ensures var r := MakeNote(u, today, notes, io);
      Occurs("\n" + NoteText(r.state[|notes|].rec) + "\n", ShowAll(r.state, NoteText))
  {
    var r := MakeNote(u, today, notes, io);
    ShowAllListsEvery(r.state, NoteText, |notes|);
  }
}

=== FILE: patterns.dfy ===
/**
 The fragment of Python's `re` the address book uses: character classes,
 each repeated between a minimum and an optional maximum number of times,
 concatenation and alternation. `re.match` anchors a pattern at the start of
 the string and succeeds when some way of matching a prefix exists; the
 backtracking engine finds one whenever there is one, and greedy or lazy
 repetition only changes which prefix it reports, not whether it succeeds.

 `Ends` is the reference semantics: the set of positions where a match that
 starts at `i` can end.
 */
module Patterns {
  import opened Errors

  datatype Re =
    | Run(cls: char -> bool, min: nat, max: Option<nat>)   // `[...]{min,max}`
    | Cat(first: Re, second: Re)
    | Alt(left: Re, right: Re)                              // `left|right`

  /** Every character of `s[i..j]` belongs to the class. */
  predicate AllIn(cls: char -> bool, s: string, i: nat, j: nat)
    requires i <= j <= |s|
  {
    forall k :: i <= k < j ==> cls(s[k])
  }

  function Ends(re: Re, s: string, i: nat): (r: set<nat>)
    requires i <= |s|
    ensures forall j :: j in r ==> i <= j <= |s|
    decreases re
  {
    match re
    case Run(cls, min, max) =>
      set j: nat | i + min <= j <= |s| && (max.None? || j <= i + max.value) && AllIn(cls, s, i, j)
    case Cat(a, b) =>
      set j, k | j in Ends(a, s, i) && k in Ends(b, s, j) :: k
    case Alt(a, b) =>
      Ends(a, s, i) + Ends(b, s, i)
  }

  /** `re.match(pattern, s)` is truthy. */
  predicate Matches(re: Re, s: string) {
    Ends(re, s, 0) != {}
  }

  /** The first position at or after `i` whose character is not in the class,
      or the end of the string. */
  function RunEnd(cls: char -> bool, s: string, i: nat): (r: nat)
    requires i <= |s|
    ensures i <= r <= |s| && AllIn(cls, s, i, r)
    ensures r < |s| ==> !cls(s[r])
    decreases |s| - i
  {
    if i == |s| || !cls(s[i]) then i else RunEnd(cls, s, i + 1)
  }

  /** A run of class characters starting at `i` ends no later than `RunEnd`. */
  lemma RunWithin(cls: char -> bool, s: string, i: nat, j: nat)
    requires i <= j <= |s| && AllIn(cls, s, i, j)
    ensures j <= RunEnd(cls, s, i)
  {
  }

  lemma CatEnd(a: Re, b: Re, s: string, i: nat, j: nat, k: nat)
    requires i <= |s| && j in Ends(a, s, i) && k in Ends(b, s, j)
    ensures k in Ends(Cat(a, b), s, i)
  {
  }
}

=== FILE: records.dfy ===
/**
 `RecordsContainer`: the dictionary both the notebook and the address book
 keep their records in. Keys are the records' names; a `Name` or `Title` key
 hashes and compares as its string, so the container is keyed by strings. The
 dictionary keeps insertion order, and assigning to an existing key replaces
 the value in place.

 The records' own `str` is a parameter `show`.
 */
module Records {
  import opened Errors
  import opened Text

  datatype Item<R> = Item(key: string, rec: R)

  /** The keys are pairwise distinct. */
  predicate Keyed<R>(c: seq<Item<R>>) {
    forall i, j :: 0 <= i < j < |c| ==> c[i].key != c[j].key
  }

  function Keys<R>(c: seq<Item<R>>): (r: seq<string>)
    ensures |r| == |c| && forall i :: 0 <= i < |c| ==> r[i] == c[i].key
  {
    if c == [] then [] else [c[0].key] + Keys(c[1..])
  }

  /** `self.data.get(key)`. */
  function Find<R>(c: seq<Item<R>>, key: string): (r: Option<R>)
    ensures r.Some? ==> exists i :: 0 <= i < |c| && c[i] == Item(key, r.value)
    ensures r.None? ==> forall i :: 0 <= i < |c| ==> c[i].key != key
  {
    if c == [] then None
    else if c[0].key == key then Some(c[0].rec)
    else
      var r := Find(c[1..], key);
      assert r.Some? ==> exists i :: 0 <= i < |c| && c[i] == Item(key, r.value) by {
        if r.Some? {
          var i :| 0 <= i < |c[1..]| && c[1..][i] == Item(key, r.value);
          assert c[i + 1] == Item(key, r.value);
        }
      }
      r
  }

  /** `record_exists(name)`: `name in self.data`. */
  predicate Exists<R>(c: seq<Item<R>>, key: string) {
    Find(c, key).Some?
  }

  /** With distinct keys, every item is what `Find` gives for its key. */
  lemma {:induction false} FindItem<R>(c: seq<Item<R>>, i: nat)
    requires Keyed(c) && i < |c|
    ensures Find(c, c[i].key) == Some(c[i].rec)
  {
    if i > 0 {
      FindItem(c[1..], i - 1);
    }
  }

  /** A key is present exactly when it is among the keys. */
  lemma ExistsKeys<R>(c: seq<Item<R>>, key: string)
    ensures Exists(c, key) <==> key in Keys(c)
  {
    if Exists(c, key) {
      var i :| 0 <= i < |c| && c[i] == Item(key, Find(c, key).value);
      assert Keys(c)[i] == key;
    }
  }

  /** `self.data[key] = rec`: replaces the value in place when the key is
      present, and appends otherwise. */
  function Add<R>(c: seq<Item<R>>, key: string, rec: R): (r: seq<Item<R>>)
    ensures forall i :: 0 <= i < |r| ==> r[i] == Item(key, rec) || r[i] in c
    ensures Keyed(c) ==> Keyed(r)
  {
    if c == [] then [Item(key, rec)]
    else if c[0].key == key then
      var r := [Item(key, rec)] + c[1..];
      assert r[1..] == c[1..];
      r
    else
      var rest := Add(c[1..], key, rec);
      assert Keyed(c) ==> forall j :: 0 <= j < |rest| ==> rest[j].key != c[0].key by {
        if Keyed(c) {
          forall j | 0 <= j < |rest|
            ensures rest[j].key != c[0].key
          {
            if rest[j] != Item(key, rec) {
              var k :| 0 <= k < |c[1..]| && c[1..][k] == rest[j];
              assert c[k + 1] == rest[j];
            }
          }
        }
      }
      var r := [c[0]] + rest;
      assert r[1..] == rest;
      r
  }

  /** Assigning to a present key keeps the keys and their order. */
  lemma {:induction false} AddPresent<R>(c: seq<Item<R>>, key: string, rec: R)
    requires key in Keys(c)
    ensures Keys(Add(c, key, rec)) == Keys(c)
  {
    if c[0].key != key {
      assert Keys(c) == [c[0].key] + Keys(c[1..]);
      AddPresent(c[1..], key, rec);
      assert Add(c, key, rec) == [c[0]] + Add(c[1..], key, rec);
      assert Keys(Add(c, key, rec)) == [c[0].key] + Keys(Add(c[1..], key, rec));
    } else {
      assert Add(c, key, rec)[1..] == c[1..];
    }
  }

  /** Assigning to a new key appends the record. */
  lemma {:induction false} AddNew<R>(c: seq<Item<R>>, key: string, rec: R)
    requires key !in Keys(c)
    ensures Add(c, key, rec) == c + [Item(key, rec)]
  {
    if c != [] {
      assert Keys(c) == [c[0].key] + Keys(c[1..]);
      AddNew(c[1..], key, rec);
      assert [c[0]] + (c[1..] + [Item(key, rec)]) == c + [Item(key, rec)];
    }
  }

  /** After `self.data[key] = rec`, the key holds `rec` and every other key
      what it held before. */
  lemma {:induction false} FindAdd<R>(c: seq<Item<R>>, key: string, rec: R, k: string)
    ensures Find(Add(c, key, rec), k) == if k == key then Some(rec) else Find(c, k)
  {
    if c != [] && c[0].key != key {
      FindAdd(c[1..], key, rec, k);
      assert Add(c, key, rec)[1..] == Add(c[1..], key, rec);
    } else if c != [] {
      assert Add(c, key, rec)[1..] == c[1..];
    }
  }

  /** `del self.data[key]`. */
  function Delete<R>(c: seq<Item<R>>, key: string): (r: seq<Item<R>>)
    ensures forall k :: Find(r, k) == if k == key then None else Find(c, k)
    ensures forall i :: 0 <= i < |r| ==> r[i] in c && r[i].key != key
    ensures Keyed(c) ==> Keyed(r)
  {
    if c == [] then []
    else if c[0].key == key then Delete(c[1..], key)
    else
      var rest := Delete(c[1..], key);
      var r := [c[0]] + rest;
      assert r[1..] == rest;
      r
  }

  /** With distinct keys, deleting a present key removes exactly one item, and
      deleting an absent key changes nothing. */
  lemma {:induction false} DeleteSize<R>(c: seq<Item<R>>, key: string)
    requires Keyed(c)
    ensures key in Keys(c) ==> |Delete(c, key)| == |c| - 1
    ensures key !in Keys(c) ==> Delete(c, key) == c
  {
    if c != [] {
      assert Keys(c) == [c[0].key] + Keys(c[1..]);
      DeleteSize(c[1..], key);
      if c[0].key == key {
        assert key !in Keys(c[1..]);
      } else {
        assert Delete(c, key) == [c[0]] + Delete(c[1..], key);
      }
    }
  }

  /** The container after a call, and what the call returned or raised. */
  datatype Changed<R> = Changed(after: seq<Item<R>>, out: Outcome<string>)

  /** `remove_record(*args)`: the name is the arguments joined by spaces. */
  function RemoveRecord<R>(c: seq<Item<R>>, args: seq<string>): (r: Changed<R>)
    ensures var name := Join(args, " ");
      && (r.out.Return? <==> Exists(c, name))
      && (r.out.Return? ==> r.out.value == name + " was deleted successfully!")
      && (r.out.Raise? ==> r == Changed(c, Raise(KeyError(name + " was not found!"))))
      && (forall k :: Find(r.after, k) == if k == name then None else Find(c, k))
  {
    var name := Join(args, " ");
    if Exists(c, name) then Changed(Delete(c, name), Return(name + " was deleted successfully!"))
    else Changed(c, Raise(KeyError(name + " was not found!")))
  }

  // ---------------------------------------------------------------------------
  // show_all

  const NoData := "You don't have any data yet."

  /** `"\n" + str(record) + "\n"` for every record, in order. */
  function Blocks<R>(c: seq<Item<R>>, show: R -> string): string
  {
    if c == [] then [] else Blocks(c[..|c| - 1], show) + "\n" + show(c[|c| - 1].rec) + "\n"
  }

  function ShowAll<R>(c: seq<Item<R>>, show: R -> string): (r: string)
    ensures c == [] <==> r == NoData
  {
    if c == [] then NoData
    else
      var b := Blocks(c, show);
      assert b[|b| - 1] == '\n' != NoData[|NoData| - 1];
      b
  }

  /** Every record of a non-empty container appears in the listing, on lines of
      its own. */
  lemma {:induction false} ShowAllListsEvery<R>(c: seq<Item<R>>, show: R -> string, i: nat)
    requires i < |c|
    ensures Occurs("\n" + show(c[i].rec) + "\n", ShowAll(c, show))
  {
    var block := "\n" + show(c[i].rec) + "\n";
    BlocksHold(c, show, i);
  }

  lemma {:induction false} BlocksHold<R>(c: seq<Item<R>>, show: R -> string, i: nat)
    requires i < |c|
    ensures Occurs("\n" + show(c[i].rec) + "\n", Blocks(c, show))
  {
    var block := "\n" + show(c[i].rec) + "\n";
    var front := Blocks(c[..|c| - 1], show);
    var b := Blocks(c, show);
    assert b == front + block || i < |c| - 1;
    if i == |c| - 1 {
      assert b == front + block;
      assert IsPrefix(block, b[|front|..]);
    } else {
      assert c[..|c| - 1][i] == c[i];
      BlocksHold(c[..|c| - 1], show, i);
      var j :| 0 <= j <= |front| && IsPrefix(block, front[j..]);
      assert b == front + ("\n" + show(c[|c| - 1].rec) + "\n");
      assert b[j..][..|block|] == front[j..][..|block|];
    }
  }

  /** A record added under a new key is listed last. */
  lemma ShowAllAppend<R>(c: seq<Item<R>>, show: R -> string, key: string, rec: R)
    requires c != [] && !Exists(c, key)
    ensures ShowAll(Add(c, key, rec), show) == ShowAll(c, show) + "\n" + show(rec) + "\n"
  {
    ExistsKeys(c, key);
    AddNew(c, key, rec);
    var r := Add(c, key, rec);
    assert r[..|r| - 1] == c;
  }

  // ---------------------------------------------------------------------------
  // search_record

  /** Written in two pieces so that the verifier can see its first character. */
  const NoMatch := "Sorry, " + "couldn't find any records that match the query."

  /** `needle.lower() in str(record).lower()`. */
  predicate Mentions<R>(u: Unicode, show: R -> string, needle: string, rec: R) {
    Contains(Lower(u, needle), Lower(u, show(rec)))
  }

  /** The filter of `search_record`: the matching records, in order. */
  function Hits<R>(u: Unicode, c: seq<Item<R>>, show: R -> string, needle: string): (r: seq<R>)
    ensures forall x :: x in r ==> Mentions(u, show, needle, x) && exists i :: 0 <= i < |c| && c[i].rec == x
    ensures forall i :: 0 <= i < |c| && Mentions(u, show, needle, c[i].rec) ==> c[i].rec in r
    ensures |r| <= |c|
  {
    if c == [] then []
    else
      var rest := Hits(u, c[1..], show, needle);
      assert forall x :: x in rest ==> exists i :: 0 <= i < |c| && c[i].rec == x by {
        forall x | x in rest
          ensures exists i :: 0 <= i < |c| && c[i].rec == x
        {
          var i :| 0 <= i < |c[1..]| && c[1..][i].rec == x;
          assert c[i + 1].rec == x;
        }
      }
      assert forall i :: 1 <= i < |c| ==> c[i] == c[1..][i - 1];
      if Mentions(u, show, needle, c[0].rec) then [c[0].rec] + rest else rest
  }

  /** Filtering is done record by record, so the hits keep the container's
      order. */
  lemma {:induction false} HitsAppend<R>(u: Unicode, a: seq<Item<R>>, b: seq<Item<R>>, show: R -> string, needle: string)
    ensures Hits(u, a + b, show, needle) == Hits(u, a, show, needle) + Hits(u, b, show, needle)
  {
    if a == [] {
      assert a + b == b;
    } else {
      assert (a + b)[0] == a[0];
      assert (a + b)[1..] == a[1..] + b;
      HitsAppend(u, a[1..], b, show, needle);
    }
  }

  function Prefixed<R>(rs: seq<R>, show: R -> string): (r: seq<string>)
    ensures |r| == |rs| && forall i :: 0 <= i < |rs| ==> r[i] == "\n" + show(rs[i])
  {
    if rs == [] then [] else ["\n" + show(rs[0])] + Prefixed(rs[1..], show)
  }

  /** `search_record(needle)`. */
  function Search<R>(u: Unicode, c: seq<Item<R>>, show: R -> string, needle: string): (r: string)
    ensures r == NoMatch <==> forall i :: 0 <= i < |c| ==> !Mentions(u, show, needle, c[i].rec)
  {
    var hits := Hits(u, c, show, needle);
    if hits == [] then NoMatch
    else
      var r := Join(Prefixed(hits, show), "\n");
      var ps := Prefixed(hits, show);
      assert ps[0] == "\n" + show(hits[0]);
      assert ps[0][0] == '\n';
      JoinStartsWith(ps);
      assert r[0] == '\n';
      assert NoMatch[0] == 'S';
      assert hits[0] in hits;
      r
  }

  lemma JoinStartsWith(parts: seq<string>)
    requires parts != [] && parts[0] != []
    ensures Join(parts, "\n") != [] && Join(parts, "\n")[0] == parts[0][0]
  {
    if |parts| > 1 {
      var j := parts[0] + "\n" + Join(parts[1..], "\n");
      assert j[0] == parts[0][0];
    }
  }

  /** A single hit is shown after a blank line. */
  lemma SearchOne<R>(u: Unicode, show: R -> string, key: string, rec: R, needle: string)
    requires Mentions(u, show, needle, rec)
    ensures Search(u, [Item(key, rec)], show, needle) == "\n" + show(rec)
  {
    var c := [Item(key, rec)];
    assert c[1..] == [];
    assert Hits(u, c, show, needle) == [rec];
  }
}

=== FILE: sorter.dfy ===
/**
 `sort_folder` and its helpers over the immutable directory tree.

 Every step returns the entries of the walked directory as they are after the
 step, together with the exception it raised, if any: Python performs its side
 effects one by one, so a step that fails keeps whatever it did before failing,
 and the walk stops there.
 */
module Sorter {
  import opened Errors
  import opened Text
  import opened Names
  import opened Categories
  import opened Tree

  datatype ArchiveFormat = Zip | Tar

  /** What the walk takes from outside: the Unicode tables; the unpacker of
      `shutil.unpack_archive`, given the format, the archive's bytes and what
      already sits at the destination, and answering with the destination's new
      contents or `None` for an archive it cannot read; and whether the walked
      path is absolute, which decides where the unpacked files go. */
  datatype Env = Env(
    u: Unicode,
    unpack: (ArchiveFormat, seq<Byte>, Option<Node>) -> Option<Node>,
    absolute: bool)

  /** How the walked directory names itself: `pathName` is the final component
      as `pathlib` reads it (its suffix is `Path(path).suffix`) and `baseName`
      is what `shutil.move` takes as the basename of `path + "/"`. For a
      sub-directory both are its entry name. */
  datatype Here = Here(pathName: string, baseName: string)

  /** The walked directory's entries after a step, and the exception it raised. */
  datatype Effect = Effect(after: seq<Entry>, raised: Option<Exception>)

  function Children(es: seq<Entry>, n: string): seq<Entry>
  {
    match Lookup(es, n)
    case Some(Dir(d)) => d
    case _ => []
  }

  /** `if not os.path.exists(p): os.mkdir(p)` for a child of the walked
      directory. */
  function EnsureFolder(es: seq<Entry>, folder: string): (r: seq<Entry>)
    ensures Lookup(r, folder) == if Has(es, folder) then Lookup(es, folder) else Some(Dir([]))
    ensures forall k :: k != folder ==> Lookup(r, k) == Lookup(es, k)
    ensures UniqueNames(es) ==> UniqueNames(r)
  {
    if Has(es, folder) then es else Put(es, folder, Dir([]))
  }

  /** `shutil.move(path/m, path/folder/m)`, where both `path/m` and
      `path/folder` exist. The destination parent being a file, the destination
      being a directory that already holds `m`, and a directory landing on a
      file are the three failures; otherwise `m` leaves the walked directory and
      appears in the folder (inside `folder/m` when that is a directory, and
      over `folder/m` when both are files). */
  function MoveInto(es: seq<Entry>, m: string, folder: string): (r: Effect)
    requires Has(es, m) && Has(es, folder) && m != folder
    requires UniqueNames(es)
    ensures UniqueNames(r.after)
    ensures forall k :: k != m && k != folder ==> Lookup(r.after, k) == Lookup(es, k)
    ensures Lookup(r.after, m) == if r.raised.None? then None else Lookup(es, m)
    ensures IsDirAt(r.after, folder) <==> IsDirAt(es, folder)
    ensures r.raised.Some? ==> r.after == es
    ensures !IsDirAt(es, folder) ==> r.raised.Some?
  {
    var x := Lookup(es, m).value;
    match Lookup(es, folder).value
    case File(_) => Effect(es, Some(OSError(NotADirectory)))
    case Dir(ce) =>
      match Lookup(ce, m)
      case Some(Dir(d)) =>
        if Has(d, m) then Effect(es, Some(OSError(DestinationExists)))
        else Effect(Put(Remove(es, m), folder, Dir(Put(ce, m, Dir(Put(d, m, x))))), None)
      case Some(File(_)) =>
        if x.Dir? then Effect(es, Some(OSError(FileExists)))
        else Effect(Put(Remove(es, m), folder, Dir(Put(ce, m, x))), None)
      case None =>
        Effect(Put(Remove(es, m), folder, Dir(Put(ce, m, x))), None)
  }

  /** `organize(path/m, path, folder)`: create the category folder if nothing
      is there, then move the file into it under the same name. */
  function Organize(es: seq<Entry>, m: string, c: Category): (r: Effect)
    requires Has(es, m) && m != Folder(c)
    requires UniqueNames(es)
    ensures UniqueNames(r.after)
    ensures forall k :: k != m && k != Folder(c) ==> Lookup(r.after, k) == Lookup(es, k)
    ensures Lookup(r.after, m) == if r.raised.None? then None else Lookup(es, m)
    ensures IsDirAt(r.after, Folder(c)) <==> !Has(es, Folder(c)) || IsDirAt(es, Folder(c))
    ensures Has(es, Folder(c)) && !IsDirAt(es, Folder(c)) ==> r == Effect(es, Some(OSError(NotADirectory)))
  {
    MoveInto(EnsureFolder(es, Folder(c)), m, Folder(c))
  }

  /** `os.path.splitext(p)[0]` on a single name: everything before the last
      dot, unless only dots precede it. */
  function SplitExtRoot(m: string): string
  {
    match LastDot(m)
    case None => m
    case Some(i) => if exists j :: 0 <= j < i && m[j] != '.' then m[..i] else m
  }

  /** The unpacker `shutil.unpack_archive` picks for a path: the first
      registered extension it ends with, case-sensitively. A bare `.gz` has
      none. */
  function FormatOf(m: string): Option<ArchiveFormat>
  {
    if EndsWith(m, ".tar") then Some(Tar)
    else if EndsWith(m, ".zip") then Some(Zip)
    else None
  }

  /** `shutil.unpack_archive(archives/m, archives/m/<root>)` followed by
      `os.remove(archives/m)`, once the archive has been moved. The
      destination is `archives/<root>` only for an absolute walk; for a
      relative one it lies beneath the archive file itself. */
  function Unpack(env: Env, es: seq<Entry>, m: string): (r: Effect)
    requires UniqueNames(es)
    ensures UniqueNames(r.after)
    ensures forall k :: k != "archives" ==> Lookup(r.after, k) == Lookup(es, k)
    ensures IsDirAt(r.after, "archives") <==> IsDirAt(es, "archives") || r.raised.None?
    ensures r.raised.Some? ==> r.after == es
  {
    var arch := Children(es, "archives");
    match FormatOf(m)
    case None => Effect(es, Some(OSError(ReadError)))
    case Some(fmt) =>
      match Lookup(arch, m)
      case None => Effect(es, Some(OSError(FileNotFound)))
      case Some(Dir(_)) => Effect(es, Some(OSError(if fmt == Zip then ReadError else IsADirectory)))
      case Some(File(bytes)) =>
        if !env.absolute then
          Effect(es, Some(OSError(if env.unpack(fmt, bytes, None).None? then ReadError else NotADirectory)))
        else
          var root := SplitExtRoot(m);
          match env.unpack(fmt, bytes, Lookup(arch, root))
          case None => Effect(es, Some(OSError(ReadError)))
          case Some(node) => Effect(Put(es, "archives", Dir(Remove(Put(arch, root, node), m))), None)
  }

  /** `organize_archive(path/m, path)`. */
  function OrganizeArchive(env: Env, es: seq<Entry>, m: string): (r: Effect)
    requires Has(es, m) && m != "archives"
    requires UniqueNames(es)
    ensures UniqueNames(r.after)
    ensures forall k :: k != m && k != "archives" ==> Lookup(r.after, k) == Lookup(es, k)
    ensures Lookup(r.after, m).Some? ==> r.raised.Some? && Lookup(r.after, m) == Lookup(es, m)
    ensures IsDirAt(r.after, "archives") <==> !Has(es, "archives") || IsDirAt(es, "archives")
    ensures Has(es, "archives") && !IsDirAt(es, "archives") ==> r == Effect(es, Some(OSError(NotADirectory)))
  {
    var moved := MoveInto(EnsureFolder(es, "archives"), m, "archives");
    if moved.raised.Some? then moved else Unpack(env, moved.after, m)
  }

  /** `if not os.path.exists(new_path): os.rename(f, new_path)` for the
      listed name `n`, which is not a directory, and its normalised name `m`. */
  function RenameIfFree(es: seq<Entry>, n: string, m: string): (r: Effect)
    requires UniqueNames(es) && !IsDirAt(es, n)
    ensures UniqueNames(r.after) && NoNewDirs(es, r.after)
    ensures forall k :: k != n && k != m ==> Lookup(r.after, k) == Lookup(es, k)
    ensures r.raised.None? <==> Has(es, m) || Has(es, n)
    ensures r.raised.None? ==> Has(r.after, m)
    ensures Has(es, m) ==> r == Effect(es, None)
    ensures !Has(es, m) && Has(es, n) ==>
      Lookup(r.after, m) == Lookup(es, n) && (m != n ==> !Has(r.after, n))
  {
    if Has(es, m) then Effect(es, None)
    else if !Has(es, n) then Effect(es, Some(OSError(FileNotFound)))
    else Effect(Put(Remove(es, n), m, Lookup(es, n).value), None)
  }

  /** `organize` or `organize_archive` of the existing entry `m`, by the
      category of its suffix; nothing when the suffix has none. */
  function FileByCategory(env: Env, es: seq<Entry>, m: string): (r: Effect)
    requires UniqueNames(es) && Has(es, m)
    ensures UniqueNames(r.after) && NoNewDirs(es, r.after)
  {
    match Classify(env.u, m)
    case None => Effect(es, None)
    case Some(c) =>
      ClassifiedShape(env.u, m);
      FolderIsReserved(c);
      if c == Archives then OrganizeArchive(env, es, m)
      else Organize(es, m, c)
  }

  /** An empty normalised name makes `path/m` the walked directory itself:
      when the directory's own suffix has a category, its folder is made and
      the directory is moved into it, which `shutil.move` refuses. */
  function MoveSelf(env: Env, here: Here, es: seq<Entry>): (r: Effect)
    requires UniqueNames(es)
    ensures UniqueNames(r.after) && NoNewDirs(es, r.after)
    ensures forall k :: !IsReserved(k) ==> Lookup(r.after, k) == Lookup(es, k)
  {
    match Classify(env.u, here.pathName)
    case None => Effect(es, None)
    case Some(c) =>
      FolderIsReserved(c);
      var es1 := EnsureFolder(es, Folder(c));
      var clash := IsDirAt(es1, Folder(c)) && Has(Children(es1, Folder(c)), here.baseName);
      Effect(es1, Some(OSError(if clash then DestinationExists else MoveIntoItself)))
  }

  /** The `else` branch of `sort_folder` for the listed name `n`, which is a
      file or no longer exists: rename it to its normalised name `m` when that
      name is free, then file whatever is at `m` by its suffix. */
  function FileStep(env: Env, here: Here, es: seq<Entry>, n: string): (r: Effect)
    requires UniqueNames(es) && !IsDirAt(es, n)
    ensures UniqueNames(r.after)
    ensures NoNewDirs(es, r.after)
  {
    var m := Normalize(env.u, n);
    if m == [] then MoveSelf(env, here, es)
    else
      var renamed := RenameIfFree(es, n, m);
      if renamed.raised.Some? then renamed
      else FileByCategory(env, renamed.after, m)
  }

  /** Names of a sequence of entries, in order. */
  function NamesOf(es: seq<Entry>): (r: seq<string>)
    ensures |r| == |es| && forall i :: 0 <= i < |es| ==> r[i] == es[i].name
  {
    if es == [] then [] else [es[0].name] + NamesOf(es[1..])
  }

  lemma NamesOfPrefix(snap: seq<Entry>, i: nat)
    requires i < |snap|
    ensures forall k :: k in NamesOf(snap[..i + 1]) <==> k in NamesOf(snap[..i]) || k == snap[i].name
  {
    var a := NamesOf(snap[..i]);
    var b := NamesOf(snap[..i + 1]);
    assert b == a + [snap[i].name];
  }

  /** Distinct names in every directory, at every depth. */
  predicate WellFormed(es: seq<Entry>) {
    && UniqueNames(es)
    && forall i :: 0 <= i < |es| ==> (es[i].node.Dir? ==> WellFormed(es[i].node.entries))
  }

  /** A non-reserved directory whose name has not been reached yet is still the
      one the listing saw. */
  ghost predicate Unvisited(es: seq<Entry>, snap: seq<Entry>, i: nat)
    requires i <= |snap|
  {
    forall k :: !IsReserved(k) && IsDirAt(es, k) && k !in NamesOf(snap[..i]) ==> Lookup(es, k) == Lookup(snap, k)
  }

  /** No non-reserved directory was created or changed. */
  ghost predicate NoNewDirs(es: seq<Entry>, es': seq<Entry>) {
    forall k :: !IsReserved(k) && IsDirAt(es', k) ==> Lookup(es', k) == Lookup(es, k)
  }

  /** The directory at the listed name `snap[i].name`, if it is still one and
      not reserved, is the listed one. */
  lemma SnapshotDir(es: seq<Entry>, snap: seq<Entry>, i: nat)
    requires i < |snap| && UniqueNames(snap) && Unvisited(es, snap, i)
    requires !IsReserved(snap[i].name) && IsDirAt(es, snap[i].name)
    ensures Lookup(es, snap[i].name) == Some(snap[i].node)
  {
    LookupEntry(snap, i);
    var names := NamesOf(snap[..i]);
    assert forall j :: 0 <= j < i ==> names[j] == snap[j].name != snap[i].name;
    assert snap[i].name !in names;
  }

  /** One iteration of the loop of `sort_folder`, for the listed name
      `snap[i].name`: a reserved directory is skipped, an empty one removed, any
      other one sorted and then removed if that left it empty; anything else is
      handled as a file. */
  function Visit(env: Env, here: Here, es: seq<Entry>, snap: seq<Entry>, i: nat): (r: Effect)
    requires i < |snap| && WellFormed(snap) && UniqueNames(es)
    requires Unvisited(es, snap, i)
    ensures UniqueNames(r.after)
    ensures forall k :: !IsReserved(k) && k != snap[i].name && IsDirAt(r.after, k) ==> Lookup(r.after, k) == Lookup(es, k)
    decreases snap, |snap| - i, 0
  {
    var n := snap[i].name;
    match Lookup(es, n)
    case Some(Dir(ch)) =>
      if IsReserved(n) then Effect(es, None)
      else if ch == [] then Effect(Remove(es, n), None)
      else
        SnapshotDir(es, snap, i);
        var sub := SortEntries(env, Here(n, n), ch, ch, 0);
        var es1 := Put(es, n, Dir(sub.after));
        if sub.raised.Some? then Effect(es1, sub.raised)
        else if sub.after == [] then Effect(Remove(es1, n), None)
        else Effect(es1, None)
    case _ => FileStep(env, here, es, n)
  }

  /** The loop of `sort_folder` over the listing `snap`, from position `i`,
      with the directory's current entries `es`. */
  function SortEntries(env: Env, here: Here, es: seq<Entry>, snap: seq<Entry>, i: nat): (r: Effect)
    requires i <= |snap| && WellFormed(snap) && UniqueNames(es)
    requires Unvisited(es, snap, i)
    ensures UniqueNames(r.after)
    decreases snap, |snap| - i, 1
  {
    if i == |snap| then Effect(es, None)
    else AfterVisit(env, here, es, snap, i, Visit(env, here, es, snap, i))
  }

  /** The rest of the loop once entry `i` has been visited with outcome
      `step`: stop on an exception, otherwise go on from `i + 1`. */
  function AfterVisit(env: Env, here: Here, es: seq<Entry>, snap: seq<Entry>, i: nat, step: Effect): (r: Effect)
    requires i < |snap| && WellFormed(snap) && UniqueNames(step.after)
    requires Unvisited(es, snap, i)
    requires forall k :: !IsReserved(k) && k != snap[i].name && IsDirAt(step.after, k) ==> Lookup(step.after, k) == Lookup(es, k)
    ensures UniqueNames(r.after)
    decreases snap, |snap| - i, 0
  {
    if step.raised.Some? then step
    else
      UnvisitedAfterVisit(es, step.after, snap, i);
      SortEntries(env, here, step.after, snap, i + 1)
  }

  lemma UnvisitedAfterVisit(es: seq<Entry>, es': seq<Entry>, snap: seq<Entry>, i: nat)
    requires i < |snap| && Unvisited(es, snap, i)
    requires forall k :: !IsReserved(k) && k != snap[i].name && IsDirAt(es', k) ==> Lookup(es', k) == Lookup(es, k)
    ensures Unvisited(es', snap, i + 1)
  {
    NamesOfPrefix(snap, i);
  }

  /** One turn of the loop: the visit of entry `i`, then the rest of the
      listing unless the visit raised. */
  lemma SortEntriesNext(env: Env, here: Here, es: seq<Entry>, snap: seq<Entry>, i: nat)
    requires i < |snap| && WellFormed(snap) && UniqueNames(es)
    requires Unvisited(es, snap, i)
    ensures var step := Visit(env, here, es, snap, i);
      && (step.raised.Some? ==> SortEntries(env, here, es, snap, i) == step)
      && (step.raised.None? ==>
            (Unvisited(step.after, snap, i + 1)
             && SortEntries(env, here, es, snap, i) == SortEntries(env, here, step.after, snap, i + 1)))
  {
    var step := Visit(env, here, es, snap, i);
    if step.raised.None? {
      UnvisitedAfterVisit(es, step.after, snap, i);
    }
  }

  /** `sort_folder(path)`: the loop over the listing taken before any change. */
  function SortFolder(env: Env, here: Here, es: seq<Entry>): (r: Effect)
    requires WellFormed(es)
    ensures UniqueNames(r.after)
  {
    SortEntries(env, here, es, es, 0)
  }
}

=== FILE: sorter_props.dfy ===
/**
 What a walk of `sort_folder` guarantees: the directories it reaches end up
 non-empty (or gone), the category folders are never removed, and files whose
 names are already clean and carry no known extension stay where they are.
 Also the outcome of filing a single file.
 */
module SorterProperties {
  import opened Errors
  import opened Text
  import opened Names
  import opened Categories
  import opened Tree
  import opened Sorter

  /** No empty directory is left among the non-reserved ones, at any depth the
      walk enters. Reserved folders are not looked into. */
  predicate Tidy(es: seq<Entry>) {
    forall i :: 0 <= i < |es| ==>
      (es[i].node.Dir? && !IsReserved(es[i].name) ==> es[i].node.entries != [] && Tidy(es[i].node.entries))
  }

  predicate TidyDir(x: Node) {
    x.Dir? && x.entries != [] && Tidy(x.entries)
  }

  /** The non-reserved directories at listed names already reached are tidy. */
  ghost predicate VisitedTidy(es: seq<Entry>, snap: seq<Entry>, i: nat)
    requires i <= |snap|
  {
    forall k :: !IsReserved(k) && IsDirAt(es, k) && k in NamesOf(snap[..i]) ==> TidyDir(Lookup(es, k).value)
  }

  /** A name is listed exactly when the listing has an entry under it. */
  lemma NamesOfHas(snap: seq<Entry>, k: string)
    ensures k in NamesOf(snap) <==> Has(snap, k)
  {
    if Has(snap, k) {
      var j :| 0 <= j < |snap| && snap[j] == Entry(k, Lookup(snap, k).value);
      assert NamesOf(snap)[j] == k;
    }
  }

  lemma VisitedTidyAfterVisit(es: seq<Entry>, es': seq<Entry>, snap: seq<Entry>, i: nat)
    requires i < |snap| && VisitedTidy(es, snap, i)
    requires forall k :: !IsReserved(k) && k != snap[i].name && IsDirAt(es', k) ==> Lookup(es', k) == Lookup(es, k)
    requires !IsReserved(snap[i].name) && IsDirAt(es', snap[i].name) ==> TidyDir(Lookup(es', snap[i].name).value)
    ensures VisitedTidy(es', snap, i + 1)
  {
    NamesOfPrefix(snap, i);
  }

  lemma TidyFromLookup(es: seq<Entry>)
    requires UniqueNames(es)
    requires forall k :: !IsReserved(k) && IsDirAt(es, k) ==> TidyDir(Lookup(es, k).value)
    ensures Tidy(es)
  {
    LookupEntries(es);
  }

  /** Once the whole listing is reached, every non-reserved directory is a
      visited one: an unvisited one would still be the listed one, under a
      listed name. */
  lemma FinishedTidy(es: seq<Entry>, snap: seq<Entry>)
    requires UniqueNames(es) && Unvisited(es, snap, |snap|) && VisitedTidy(es, snap, |snap|)
    ensures Tidy(es)
  {
    assert snap[..|snap|] == snap;
    forall k | !IsReserved(k) && IsDirAt(es, k)
      ensures TidyDir(Lookup(es, k).value)
    {
      NamesOfHas(snap, k);
    }
    TidyFromLookup(es);
  }

  lemma {:induction false} VisitTidy(env: Env, here: Here, es: seq<Entry>, snap: seq<Entry>, i: nat)
    requires i < |snap| && WellFormed(snap) && UniqueNames(es) && Unvisited(es, snap, i)
    ensures var r := Visit(env, here, es, snap, i);
      r.raised.None? && !IsReserved(snap[i].name) && IsDirAt(r.after, snap[i].name) ==>
        TidyDir(Lookup(r.after, snap[i].name).value)
    decreases snap, |snap| - i, 0
  {
    var n := snap[i].name;
    match Lookup(es, n)
    case Some(Dir(ch)) =>
      if !IsReserved(n) && ch != [] {
        SnapshotDir(es, snap, i);
        SortEntriesTidy(env, Here(n, n), ch, ch, 0);
      }
    case _ =>
  }

  lemma {:induction false} SortEntriesTidy(env: Env, here: Here, es: seq<Entry>, snap: seq<Entry>, i: nat)
    requires i <= |snap| && WellFormed(snap) && UniqueNames(es) && Unvisited(es, snap, i)
    requires VisitedTidy(es, snap, i)
    ensures var r := SortEntries(env, here, es, snap, i);
      r.raised.None? ==> Tidy(r.after)
    decreases snap, |snap| - i, 2
  {
    if i == |snap| {
      FinishedTidy(es, snap);
    } else {
      SortEntriesStepTidy(env, here, es, snap, i);
    }
  }

  lemma {:induction false} SortEntriesStepTidy(env: Env, here: Here, es: seq<Entry>, snap: seq<Entry>, i: nat)
    requires i < |snap| && WellFormed(snap) && UniqueNames(es) && Unvisited(es, snap, i)
    requires VisitedTidy(es, snap, i)
    ensures var r := SortEntries(env, here, es, snap, i);
      r.raised.None? ==> Tidy(r.after)
    decreases snap, |snap| - i, 1
  {
    var step := Visit(env, here, es, snap, i);
    SortEntriesNext(env, here, es, snap, i);
    if step.raised.None? {
      VisitTidy(env, here, es, snap, i);
      VisitedTidyAfterVisit(es, step.after, snap, i);
      SortEntriesTidy(env, here, step.after, snap, i + 1);
    }
  }

  /** A walk that raises nothing leaves no empty non-reserved directory behind,
      at any depth it enters: every one it reached was either removed on
      discovery, sorted and then removed, or sorted and left non-empty. */
  lemma SortFolderTidy(env: Env, here: Here, es: seq<Entry>)
    requires WellFormed(es)
    ensures var r := SortFolder(env, here, es);
      r.raised.None? ==> Tidy(r.after)
  {
    SortEntriesTidy(env, here, es, es, 0);
  }

  /** Filing the entry `m` keeps every existing entry that is not a directory,
      other than `m` itself, and every category folder that is a directory. */
  lemma FileByCategoryFrame(env: Env, es: seq<Entry>, m: string, k: string)
    requires UniqueNames(es) && Has(es, m)
    requires k != m
    ensures Has(es, k) && !IsDirAt(es, k) ==> Lookup(FileByCategory(env, es, m).after, k) == Lookup(es, k)
    ensures !IsReserved(k) ==> Lookup(FileByCategory(env, es, m).after, k) == Lookup(es, k)
    ensures IsReserved(k) && IsDirAt(es, k) ==> IsDirAt(FileByCategory(env, es, m).after, k)
  {
    match Classify(env.u, m)
    case None =>
    case Some(c) =>
      ClassifiedShape(env.u, m);
      FolderIsReserved(c);
  }

  lemma MoveSelfKeepsReserved(env: Env, here: Here, es: seq<Entry>, k: string)
    requires UniqueNames(es)
    requires IsReserved(k) && IsDirAt(es, k)
    ensures IsDirAt(MoveSelf(env, here, es).after, k)
  {
  }

  /** A category folder that is a directory stays one through the handling of
      a file. */
  lemma FileStepKeepsReserved(env: Env, here: Here, es: seq<Entry>, n: string, k: string)
    requires UniqueNames(es) && !IsDirAt(es, n)
    requires IsReserved(k) && IsDirAt(es, k)
    ensures IsDirAt(FileStep(env, here, es, n).after, k)
  {
    var m := Normalize(env.u, n);
    if m == [] {
      MoveSelfKeepsReserved(env, here, es, k);
    } else {
      var renamed := RenameIfFree(es, n, m);
      if renamed.raised.None? {
        assert IsDirAt(renamed.after, k);
        if k != m {
          FileByCategoryFrame(env, renamed.after, m, k);
        } else {
          ReservedUnclassified(env.u, m);
        }
      }
    }
  }

  lemma {:induction false} VisitKeepsReserved(env: Env, here: Here, es: seq<Entry>, snap: seq<Entry>, i: nat, k: string)
    requires i < |snap| && WellFormed(snap) && UniqueNames(es) && Unvisited(es, snap, i)
    requires IsReserved(k) && IsDirAt(es, k)
    ensures IsDirAt(Visit(env, here, es, snap, i).after, k)
  {
    var n := snap[i].name;
    match Lookup(es, n)
    case Some(Dir(ch)) =>
    case _ =>
      FileStepKeepsReserved(env, here, es, n, k);
  }

  lemma {:induction false} SortEntriesKeepsReserved(env: Env, here: Here, es: seq<Entry>, snap: seq<Entry>, i: nat, k: string)
    requires i <= |snap| && WellFormed(snap) && UniqueNames(es) && Unvisited(es, snap, i)
    requires IsReserved(k) && IsDirAt(es, k)
    ensures IsDirAt(SortEntries(env, here, es, snap, i).after, k)
    decreases |snap| - i, 1
  {
    if i < |snap| {
      SortEntriesStepKeepsReserved(env, here, es, snap, i, k);
    }
  }

  lemma {:induction false} SortEntriesStepKeepsReserved(env: Env, here: Here, es: seq<Entry>, snap: seq<Entry>, i: nat, k: string)
    requires i < |snap| && WellFormed(snap) && UniqueNames(es) && Unvisited(es, snap, i)
    requires IsReserved(k) && IsDirAt(es, k)
    ensures IsDirAt(SortEntries(env, here, es, snap, i).after, k)
    decreases |snap| - i, 0
  {
    var step := Visit(env, here, es, snap, i);
    VisitKeepsReserved(env, here, es, snap, i, k);
    SortEntriesNext(env, here, es, snap, i);
    if step.raised.None? {
      SortEntriesKeepsReserved(env, here, step.after, snap, i + 1, k);
    }
  }

  /** The category folders of the walked directory are never removed or
      replaced by a file, whether the walk completes or stops on an exception:
      only directories found empty, or emptied by their own sort, are removed,
      and the walk never enters a category folder. */
  lemma SortFolderKeepsReserved(env: Env, here: Here, es: seq<Entry>, k: string)
    requires WellFormed(es)
    requires IsReserved(k) && IsDirAt(es, k)
    ensures IsDirAt(SortFolder(env, here, es).after, k)
  {
    SortEntriesKeepsReserved(env, here, es, es, 0, k);
  }

  /** A file whose name normalisation leaves alone and whose suffix selects no
      category. */
  predicate Settled(u: Unicode, es: seq<Entry>, k: string) {
    Lookup(es, k).Some? && Lookup(es, k).value.File? && Normalize(u, k) == k && Classify(u, k).None?
  }

  lemma FileStepKeepsSettled(env: Env, here: Here, es: seq<Entry>, n: string, k: string)
    requires UniqueNames(es) && !IsDirAt(es, n)
    requires Settled(env.u, es, k)
    ensures Lookup(FileStep(env, here, es, n).after, k) == Lookup(es, k)
  {
    var m := Normalize(env.u, n);
    if m != [] {
      var renamed := RenameIfFree(es, n, m);
      if renamed.raised.None? && m != k {
        assert n != k;
        assert Lookup(renamed.after, k) == Lookup(es, k);
        FileByCategoryFrame(env, renamed.after, m, k);
      }
    }
  }

  /** Visiting a directory changes nothing but that directory's entry. */
  lemma VisitDirFrame(env: Env, here: Here, es: seq<Entry>, snap: seq<Entry>, i: nat, k: string)
    requires i < |snap| && WellFormed(snap) && UniqueNames(es) && Unvisited(es, snap, i)
    requires IsDirAt(es, snap[i].name) && k != snap[i].name
    ensures Lookup(Visit(env, here, es, snap, i).after, k) == Lookup(es, k)
  {
  }

  lemma VisitKeepsSettled(env: Env, here: Here, es: seq<Entry>, snap: seq<Entry>, i: nat, k: string)
    requires i < |snap| && WellFormed(snap) && UniqueNames(es) && Unvisited(es, snap, i)
    requires Settled(env.u, es, k)
    ensures Lookup(Visit(env, here, es, snap, i).after, k) == Lookup(es, k)
  {
    var n := snap[i].name;
    if IsDirAt(es, n) {
      VisitDirFrame(env, here, es, snap, i, k);
    } else {
      assert Visit(env, here, es, snap, i) == FileStep(env, here, es, n);
      FileStepKeepsSettled(env, here, es, n, k);
    }
  }

  lemma {:induction false} SortEntriesKeepsSettled(env: Env, here: Here, es: seq<Entry>, snap: seq<Entry>, i: nat, k: string)
    requires i <= |snap| && WellFormed(snap) && UniqueNames(es) && Unvisited(es, snap, i)
    requires Settled(env.u, es, k)
    ensures Lookup(SortEntries(env, here, es, snap, i).after, k) == Lookup(es, k)
    decreases |snap| - i, 1
  {
    if i < |snap| {
      SortEntriesStepKeepsSettled(env, here, es, snap, i, k);
    }
  }

  lemma {:induction false} SortEntriesStepKeepsSettled(env: Env, here: Here, es: seq<Entry>, snap: seq<Entry>, i: nat, k: string)
    requires i < |snap| && WellFormed(snap) && UniqueNames(es) && Unvisited(es, snap, i)
    requires Settled(env.u, es, k)
    ensures Lookup(SortEntries(env, here, es, snap, i).after, k) == Lookup(es, k)
    decreases |snap| - i, 0
  {
    var step := Visit(env, here, es, snap, i);
    VisitKeepsSettled(env, here, es, snap, i, k);
    SortEntriesNext(env, here, es, snap, i);
    if step.raised.None? {
      SortEntriesKeepsSettled(env, here, step.after, snap, i + 1, k);
    }
  }

  /** A file of the walked directory whose name is already normalised and whose
      suffix names no category stays where it is, with the same contents,
      whether the walk completes or stops on an exception. */
  lemma SortFolderKeepsSettled(env: Env, here: Here, es: seq<Entry>, k: string)
    requires WellFormed(es)
    requires Settled(env.u, es, k)
    ensures Lookup(SortFolder(env, here, es).after, k) == Lookup(es, k)
  {
    SortEntriesKeepsSettled(env, here, es, es, 0, k);
  }

  // ---------------------------------------------------------------------------
  // Filing one file

  /** The category folder `folder` can take the entry `m`: it does not exist
      yet, or it is a directory without an entry `m`. */
  predicate CanTake(es: seq<Entry>, folder: string, m: string) {
    !Has(es, folder) || (IsDirAt(es, folder) && !Has(Children(es, folder), m))
  }

  /** `organize` into a folder that can take the file moves it there, under the
      same name, and touches nothing else. */
  lemma OrganizeMoves(es: seq<Entry>, m: string, c: Category, b: seq<Byte>)
    requires UniqueNames(es) && Lookup(es, m) == Some(File(b)) && m != Folder(c)
    requires CanTake(es, Folder(c), m)
    ensures var r := Organize(es, m, c);
      && r.raised.None?
      && !Has(r.after, m)
      && Lookup(Children(r.after, Folder(c)), m) == Some(File(b))
      && (forall k :: k != m ==> Lookup(Children(r.after, Folder(c)), k) == Lookup(Children(es, Folder(c)), k))
  {
  }

  lemma FileByCategoryOrganizes(env: Env, es: seq<Entry>, m: string, c: Category)
    requires UniqueNames(es) && Has(es, m)
    requires Classify(env.u, m) == Some(c) && c != Archives && m != Folder(c)
    ensures FileByCategory(env, es, m) == Organize(es, m, c)
  {
  }

  /** The whole `else` branch for a file `n` whose normalised name `m` is free
      (or is `n` itself) and has a category other than archives, when the
      category folder can take it: the file ends up in the folder under its
      normalised name, with the same contents; neither `n` nor `m` remains in
      the walked directory, and nothing else there or in the folder changes. */
  lemma FileStepFiles(env: Env, here: Here, es: seq<Entry>, n: string, b: seq<Byte>, c: Category)
    requires UniqueNames(es) && Lookup(es, n) == Some(File(b))
    requires var m := Normalize(env.u, n);
      && m != [] && (m == n || !Has(es, m))
      && Classify(env.u, m) == Some(c) && c != Archives
      && CanTake(es, Folder(c), m)
    ensures var m := Normalize(env.u, n);
      var r := FileStep(env, here, es, n);
      && r.raised.None?
      && !Has(r.after, n) && !Has(r.after, m)
      && Lookup(Children(r.after, Folder(c)), m) == Some(File(b))
      && (forall k :: k != n && k != m && k != Folder(c) ==> Lookup(r.after, k) == Lookup(es, k))
      && (forall k :: k != m ==> Lookup(Children(r.after, Folder(c)), k) == Lookup(Children(es, Folder(c)), k))
  {
    var m := Normalize(env.u, n);
    ClassifiedShape(env.u, m);
    FolderIsReserved(c);
    var renamed := RenameIfFree(es, n, m);
    assert FileStep(env, here, es, n) == FileByCategory(env, renamed.after, m);
    FileByCategoryOrganizes(env, renamed.after, m, c);
    RenameThenOrganize(es, n, m, b, c);
  }

  lemma RenameThenOrganize(es: seq<Entry>, n: string, m: string, b: seq<Byte>, c: Category)
    requires UniqueNames(es) && Lookup(es, n) == Some(File(b))
    requires m != [] && (m == n || !Has(es, m)) && m != Folder(c)
    requires CanTake(es, Folder(c), m)
    ensures var renamed := RenameIfFree(es, n, m);
      && renamed.raised.None?
      && var r := Organize(renamed.after, m, c);
      && r.raised.None?
      && !Has(r.after, n) && !Has(r.after, m)
      && Lookup(Children(r.after, Folder(c)), m) == Some(File(b))
      && (forall k :: k != n && k != m && k != Folder(c) ==> Lookup(r.after, k) == Lookup(es, k))
      && (forall k :: k != m ==> Lookup(Children(r.after, Folder(c)), k) == Lookup(Children(es, Folder(c)), k))
  {
    var renamed := RenameIfFree(es, n, m);
    RenameFreeName(es, n, m, b, Folder(c));
    OrganizeMoves(renamed.after, m, c, b);
  }

  /** Renaming to a free name moves the file there and leaves the category
      folder as it was, ready to take the file. */
  lemma RenameFreeName(es: seq<Entry>, n: string, m: string, b: seq<Byte>, folder: string)
    requires UniqueNames(es) && Lookup(es, n) == Some(File(b))
    requires m != [] && (m == n || !Has(es, m)) && m != folder
    requires CanTake(es, folder, m)
    ensures var renamed := RenameIfFree(es, n, m);
      && renamed.raised.None?
      && UniqueNames(renamed.after)
      && Lookup(renamed.after, m) == Some(File(b))
      && (m != n ==> !Has(renamed.after, n))
      && (forall k :: k != n && k != m ==> Lookup(renamed.after, k) == Lookup(es, k))
      && Children(renamed.after, folder) == Children(es, folder)
      && CanTake(renamed.after, folder, m)
  {
    var renamed := RenameIfFree(es, n, m);
    assert n != folder;
    assert Lookup(renamed.after, folder) == Lookup(es, folder);
  }

  /** A file whose normalised name is already taken by another entry is never
      renamed: it stays under its own name, untouched, and whatever holds the
      normalised name is filed instead. */
  lemma FileStepKeepsTakenName(env: Env, here: Here, es: seq<Entry>, n: string)
    requires UniqueNames(es) && Has(es, n) && !IsDirAt(es, n)
    requires var m := Normalize(env.u, n); m != [] && m != n && Has(es, m)
    ensures Lookup(FileStep(env, here, es, n).after, n) == Lookup(es, n)
  {
    var m := Normalize(env.u, n);
    assert FileStep(env, here, es, n) == FileByCategory(env, es, m);
    FileByCategoryFrame(env, es, m, n);
  }

  // ---------------------------------------------------------------------------
  // Archives

  /** On a name with a suffix and a dot-free stem, `os.path.splitext` and
      `pathlib` agree: the root is the stem, which is shorter than the name. */
  lemma SplitExtRootStem(m: string)
    requires Suffix(m) != [] && '.' !in Stem(m)
    ensures SplitExtRoot(m) == Stem(m) && Stem(m) != m
  {
    StemSuffix(m);
    var i := SuffixStart(m);
    assert LastDot(m) == Some(i);
    assert m[0] == Stem(m)[0] != '.';
  }

  lemma CleanStemNoDot(u: Unicode, n: string)
    requires Sane(u)
    ensures '.' !in CleanStem(u, n)
  {
    assert !u.isWord('.');
  }

  /** A name whose clean stem vanishes normalises to its bare suffix, which has
      no suffix of its own. */
  lemma EmptyStemNoSuffix(u: Unicode, n: string)
    requires CleanStem(u, n) == []
    ensures Suffix(Normalize(u, n)) == []
  {
    var m := Normalize(u, n);
    StemSuffix(n);
    assert m == Suffix(n);
    if m != [] {
      LastDotIs(m, 0);
    }
  }

  /** A normalised name with a suffix has a dot-free stem, so the archive's
      root is its stem. */
  lemma NormalizedArchiveRoot(u: Unicode, n: string)
    requires Sane(u)
    ensures var m := Normalize(u, n);
      Suffix(m) != [] ==> '.' !in Stem(m) && SplitExtRoot(m) == Stem(m) && Stem(m) != m
  {
    var m := Normalize(u, n);
    if CleanStem(u, n) != [] {
      NormalizedParts(u, n);
      CleanStemNoDot(u, n);
      if Suffix(m) != [] {
        SplitExtRootStem(m);
      }
    } else {
      EmptyStemNoSuffix(u, n);
    }
  }

  /** Unpacking, on an absolute walk, a readable archive that sits in
      `archives`. */
  lemma UnpackAbsolute(env: Env, es: seq<Entry>, m: string, b: seq<Byte>, fmt: ArchiveFormat, node: Node)
    requires UniqueNames(es) && IsDirAt(es, "archives")
    requires Lookup(Children(es, "archives"), m) == Some(File(b))
    requires FormatOf(m) == Some(fmt) && env.absolute && SplitExtRoot(m) != m
    requires env.unpack(fmt, b, Lookup(Children(es, "archives"), SplitExtRoot(m))) == Some(node)
    ensures var r := Unpack(env, es, m);
      && r.raised.None?
      && Lookup(Children(r.after, "archives"), SplitExtRoot(m)) == Some(node)
      && !Has(Children(r.after, "archives"), m)
      && (forall k :: k != m && k != SplitExtRoot(m) ==>
            Lookup(Children(r.after, "archives"), k) == Lookup(Children(es, "archives"), k))
  {
  }

  /** An absolute walk over a readable archive in a folder that can take it:
      the archive's contents land in `archives/<root>`, where `<root>` is the
      name without its last suffix, the archive itself is deleted, and nothing
      else in the walked directory or in `archives` changes. */
  lemma ArchiveUnpacked(env: Env, es: seq<Entry>, m: string, b: seq<Byte>, fmt: ArchiveFormat, node: Node)
    requires UniqueNames(es) && Lookup(es, m) == Some(File(b)) && m != "archives"
    requires CanTake(es, "archives", m)
    requires FormatOf(m) == Some(fmt) && env.absolute && SplitExtRoot(m) != m
    requires env.unpack(fmt, b, Lookup(Children(es, "archives"), SplitExtRoot(m))) == Some(node)
    ensures var r := OrganizeArchive(env, es, m);
      && r.raised.None?
      && !Has(r.after, m)
      && Lookup(Children(r.after, "archives"), SplitExtRoot(m)) == Some(node)
      && !Has(Children(r.after, "archives"), m)
      && (forall k :: k != m && k != SplitExtRoot(m) ==>
            Lookup(Children(r.after, "archives"), k) == Lookup(Children(es, "archives"), k))
      && (forall k :: k != m && k != "archives" ==> Lookup(r.after, k) == Lookup(es, k))
  {
    var moved := Organize(es, m, Archives);
    assert moved == MoveInto(EnsureFolder(es, "archives"), m, "archives");
    OrganizeMoves(es, m, Archives, b);
    assert OrganizeArchive(env, es, m) == Unpack(env, moved.after, m);
    UnpackAbsolute(env, moved.after, m, b, fmt, node);
  }

  /** Whatever makes the unpack fail (an unknown format, a directory in the
      archive's place, a relative walk, or an extractor that gives up), the
      archive has already been moved and stays in `archives`. */
  lemma ArchiveKeptOnFailure(env: Env, es: seq<Entry>, m: string, b: seq<Byte>)
    requires UniqueNames(es) && Lookup(es, m) == Some(File(b)) && m != "archives"
    requires CanTake(es, "archives", m)
    ensures var r := OrganizeArchive(env, es, m);
      r.raised.Some? ==> !Has(r.after, m) && Lookup(Children(r.after, "archives"), m) == Some(File(b))
  {
    var moved := Organize(es, m, Archives);
    assert moved == MoveInto(EnsureFolder(es, "archives"), m, "archives");
    OrganizeMoves(es, m, Archives, b);
    assert OrganizeArchive(env, es, m) == Unpack(env, moved.after, m);
  }

  /** A relative walk never unpacks: the destination it computes lies beneath
      the moved archive file, so the call fails (with a read error first, when
      the archive cannot be read), and the archive stays in `archives`. */
  lemma ArchiveRelativeFails(env: Env, es: seq<Entry>, m: string, b: seq<Byte>)
    requires UniqueNames(es) && Lookup(es, m) == Some(File(b)) && m != "archives"
    requires CanTake(es, "archives", m)
    requires !env.absolute
    ensures var r := OrganizeArchive(env, es, m);
      && r.raised.Some? && r.raised.value.OSError?
      && !Has(r.after, m)
      && Lookup(Children(r.after, "archives"), m) == Some(File(b))
  {
    var moved := Organize(es, m, Archives);
    assert moved == MoveInto(EnsureFolder(es, "archives"), m, "archives");
    OrganizeMoves(es, m, Archives, b);
    assert OrganizeArchive(env, es, m) == Unpack(env, moved.after, m);
    var arch := Children(moved.after, "archives");
    assert Lookup(arch, m) == Some(File(b));
    var r := Unpack(env, moved.after, m);
    assert r.after == moved.after && r.raised.Some? && r.raised.value.OSError? by {
      match FormatOf(m)
      case None =>
      case Some(fmt) =>
        assert r == Effect(moved.after, Some(OSError(if env.unpack(fmt, b, None).None? then ReadError else NotADirectory)));
    }
  }

  /** An archive whose name ends in neither `.tar` nor `.zip` (a bare `.gz`,
      or an upper-case `.ZIP`) has no unpacker: a read error, with the archive
      left in `archives`. */
  lemma ArchiveUnknownFormat(env: Env, es: seq<Entry>, m: string, b: seq<Byte>)
    requires UniqueNames(es) && Lookup(es, m) == Some(File(b)) && m != "archives"
    requires CanTake(es, "archives", m)
    requires FormatOf(m) == None
    ensures var r := OrganizeArchive(env, es, m);
      && r.raised == Some(OSError(ReadError))
      && !Has(r.after, m)
      && Lookup(Children(r.after, "archives"), m) == Some(File(b))
  {
    var moved := Organize(es, m, Archives);
    assert moved == MoveInto(EnsureFolder(es, "archives"), m, "archives");
    OrganizeMoves(es, m, Archives, b);
    assert OrganizeArchive(env, es, m) == Unpack(env, moved.after, m);
  }

  /** Which names have an unpacker. */
  lemma FormatExamples()
    ensures FormatOf("a.tar") == Some(Tar) && FormatOf("a.zip") == Some(Zip)
    ensures FormatOf("a.gz") == None && FormatOf("a.ZIP") == None
  {
    assert "a.tar"[1..] == ".tar";
    assert EndsWith("a.tar", ".tar");
    assert "a.zip"[1..] == ".zip";
    assert !EndsWith("a.zip", ".tar") && EndsWith("a.zip", ".zip");
    assert !EndsWith("a.gz", ".tar") && !EndsWith("a.gz", ".zip");
    assert "a.ZIP"[1..] != ".tar" && "a.ZIP"[1..] != ".zip";
  }

  // ---------------------------------------------------------------------------
  // Directories met by the walk

  /** A category folder met by the walk is skipped: nothing changes. */
  lemma VisitSkipsReserved(env: Env, here: Here, es: seq<Entry>, snap: seq<Entry>, i: nat)
    requires i < |snap| && WellFormed(snap) && UniqueNames(es) && Unvisited(es, snap, i)
    requires IsReserved(snap[i].name) && IsDirAt(es, snap[i].name)
    ensures Visit(env, here, es, snap, i) == Effect(es, None)
  {
  }

  /** An empty directory met by the walk is removed, and nothing else changes. */
  lemma VisitRemovesEmpty(env: Env, here: Here, es: seq<Entry>, snap: seq<Entry>, i: nat)
    requires i < |snap| && WellFormed(snap) && UniqueNames(es) && Unvisited(es, snap, i)
    requires !IsReserved(snap[i].name) && Lookup(es, snap[i].name) == Some(Dir([]))
    ensures var r := Visit(env, here, es, snap, i);
      && r.raised.None?
      && !Has(r.after, snap[i].name)
      && forall k :: k != snap[i].name ==> Lookup(r.after, k) == Lookup(es, k)
  {
  }
}

=== FILE: sorter_shape.dfy ===
/**
 The walk keeps the tree a tree: names stay distinct in every directory, at
 every depth, provided the unpacker only ever produces such trees. This is
 what lets one sort follow another on the same filesystem.
 */
module SorterShape {
  import opened Errors
  import opened Names
  import opened Tree
  import opened Categories
  import opened Sorter

  /** A node whose directories, at every depth, have distinct names. */
  predicate NodeOk(x: Node) {
    x.Dir? ==> WellFormed(x.entries)
  }

  /** The unpacker only produces well-formed trees. */
  ghost predicate UnpackOk(env: Env) {
    forall f, b, o :: env.unpack(f, b, o).Some? ==> NodeOk(env.unpack(f, b, o).value)
  }

  lemma LookupOk(es: seq<Entry>, n: string)
    requires WellFormed(es) && Lookup(es, n).Some?
    ensures NodeOk(Lookup(es, n).value)
  {
  }

  lemma PutOk(es: seq<Entry>, n: string, x: Node)
    requires WellFormed(es) && NodeOk(x)
    ensures WellFormed(Put(es, n, x))
  {
    var r := Put(es, n, x);
    forall i | 0 <= i < |r| && r[i].node.Dir?
      ensures WellFormed(r[i].node.entries)
    {
      if r[i] != Entry(n, x) {
        var j :| 0 <= j < |es| && es[j] == r[i];
      }
    }
  }

  lemma RemoveOk(es: seq<Entry>, n: string)
    requires WellFormed(es)
    ensures WellFormed(Remove(es, n))
  {
    var r := Remove(es, n);
    forall i | 0 <= i < |r| && r[i].node.Dir?
      ensures WellFormed(r[i].node.entries)
    {
      var j :| 0 <= j < |es| && es[j] == r[i];
    }
  }

  lemma ChildrenOk(es: seq<Entry>, n: string)
    requires WellFormed(es)
    ensures WellFormed(Children(es, n))
  {
    if Lookup(es, n).Some? {
      LookupOk(es, n);
    }
  }

  lemma EnsureFolderOk(es: seq<Entry>, folder: string)
    requires WellFormed(es)
    ensures WellFormed(EnsureFolder(es, folder))
  {
    if !Has(es, folder) {
      PutOk(es, folder, Dir([]));
    }
  }

  lemma MoveIntoOk(es: seq<Entry>, m: string, folder: string)
    requires Has(es, m) && Has(es, folder) && m != folder && WellFormed(es)
    ensures WellFormed(MoveInto(es, m, folder).after)
  {
    var x := Lookup(es, m).value;
    LookupOk(es, m);
    LookupOk(es, folder);
    RemoveOk(es, m);
    match Lookup(es, folder).value
    case File(_) =>
    case Dir(ce) =>
      match Lookup(ce, m)
      case Some(Dir(d)) =>
        if !Has(d, m) {
          LookupOk(ce, m);
          PutOk(d, m, x);
          PutOk(ce, m, Dir(Put(d, m, x)));
          PutOk(Remove(es, m), folder, Dir(Put(ce, m, Dir(Put(d, m, x)))));
        }
      case Some(File(_)) =>
        if x.File? {
          PutOk(ce, m, x);
          PutOk(Remove(es, m), folder, Dir(Put(ce, m, x)));
        }
      case None =>
        PutOk(ce, m, x);
        PutOk(Remove(es, m), folder, Dir(Put(ce, m, x)));
  }

  lemma OrganizeOk(es: seq<Entry>, m: string, c: Category)
    requires Has(es, m) && m != Folder(c) && WellFormed(es)
    ensures WellFormed(Organize(es, m, c).after)
  {
    EnsureFolderOk(es, Folder(c));
    MoveIntoOk(EnsureFolder(es, Folder(c)), m, Folder(c));
  }

  lemma UnpackStepOk(env: Env, es: seq<Entry>, m: string)
    requires UnpackOk(env) && WellFormed(es)
    ensures WellFormed(Unpack(env, es, m).after)
  {
    var arch := Children(es, "archives");
    ChildrenOk(es, "archives");
    match FormatOf(m)
    case None =>
    case Some(fmt) =>
      match Lookup(arch, m)
      case None =>
      case Some(Dir(_)) =>
      case Some(File(bytes)) =>
        if env.absolute {
          var root := SplitExtRoot(m);
          match env.unpack(fmt, bytes, Lookup(arch, root))
          case None =>
          case Some(node) =>
            PutOk(arch, root, node);
            RemoveOk(Put(arch, root, node), m);
            PutOk(es, "archives", Dir(Remove(Put(arch, root, node), m)));
        }
  }

  lemma OrganizeArchiveOk(env: Env, es: seq<Entry>, m: string)
    requires Has(es, m) && m != "archives" && WellFormed(es) && UnpackOk(env)
    ensures WellFormed(OrganizeArchive(env, es, m).after)
  {
    EnsureFolderOk(es, "archives");
    var moved := MoveInto(EnsureFolder(es, "archives"), m, "archives");
    MoveIntoOk(EnsureFolder(es, "archives"), m, "archives");
    if moved.raised.None? {
      UnpackStepOk(env, moved.after, m);
    }
  }

  lemma FileStepOk(env: Env, here: Here, es: seq<Entry>, n: string)
    requires WellFormed(es) && !IsDirAt(es, n) && UnpackOk(env)
    ensures WellFormed(FileStep(env, here, es, n).after)
  {
    var m := Normalize(env.u, n);
    if m == [] {
      match Classify(env.u, here.pathName)
      case None =>
      case Some(c) => EnsureFolderOk(es, Folder(c));
    } else {
      var renamed := RenameIfFree(es, n, m);
      if !Has(es, m) && Has(es, n) {
        LookupOk(es, n);
        RemoveOk(es, n);
        PutOk(Remove(es, n), m, Lookup(es, n).value);
      }
      if renamed.raised.None? {
        FileByCategoryOk(env, renamed.after, m);
      }
    }
  }

  lemma FileByCategoryOk(env: Env, es: seq<Entry>, m: string)
    requires WellFormed(es) && Has(es, m) && UnpackOk(env)
    ensures WellFormed(FileByCategory(env, es, m).after)
  {
    match Classify(env.u, m)
    case None =>
    case Some(c) =>
      ClassifiedShape(env.u, m);
      FolderIsReserved(c);
      if c == Archives {
        OrganizeArchiveOk(env, es, m);
      } else {
        OrganizeOk(es, m, c);
      }
  }

  lemma {:induction false} VisitOk(env: Env, here: Here, es: seq<Entry>, snap: seq<Entry>, i: nat)
    requires i < |snap| && WellFormed(snap) && UniqueNames(es)
    requires Unvisited(es, snap, i)
    requires WellFormed(es) && UnpackOk(env)
    ensures WellFormed(Visit(env, here, es, snap, i).after)
    decreases snap, |snap| - i, 0
  {
    var n := snap[i].name;
    var r := Visit(env, here, es, snap, i);
    match Lookup(es, n)
    case Some(Dir(ch)) =>
      if IsReserved(n) {
        assert r.after == es;
      } else if ch == [] {
        RemoveOk(es, n);
        assert r.after == Remove(es, n);
      } else {
        SnapshotDir(es, snap, i);
        LookupOk(es, n);
        SubdirSortedOk(env, es, n, ch);
        var sorted := SortEntries(env, Here(n, n), ch, ch, 0).after;
        assert r.after == Put(es, n, Dir(sorted)) || r.after == Remove(Put(es, n, Dir(sorted)), n);
      }
    case _ =>
      FileStepOk(env, here, es, n);
      assert r == FileStep(env, here, es, n);
  }

  /** A sub-directory sorted in place and put back keeps its parent well
      formed. */
  lemma {:induction false} SubdirSortedOk(env: Env, es: seq<Entry>, n: string, ch: seq<Entry>)
    requires WellFormed(es) && WellFormed(ch) && UnpackOk(env)
    ensures var sorted := SortEntries(env, Here(n, n), ch, ch, 0).after;
      WellFormed(Put(es, n, Dir(sorted))) && WellFormed(Remove(Put(es, n, Dir(sorted)), n))
    decreases ch, |ch| + 1
  {
    SortEntriesOk(env, Here(n, n), ch, ch, 0);
    SubdirOk(es, n, SortEntries(env, Here(n, n), ch, ch, 0).after);
  }

  /** The sorted sub-directory put back, or removed when it ended up empty. */
  lemma SubdirOk(es: seq<Entry>, n: string, sorted: seq<Entry>)
    requires WellFormed(es) && WellFormed(sorted)
    ensures WellFormed(Put(es, n, Dir(sorted))) && WellFormed(Remove(Put(es, n, Dir(sorted)), n))
  {
    PutOk(es, n, Dir(sorted));
    RemoveOk(Put(es, n, Dir(sorted)), n);
  }

  lemma {:induction false} SortEntriesOk(env: Env, here: Here, es: seq<Entry>, snap: seq<Entry>, i: nat)
    requires i <= |snap| && WellFormed(snap) && UniqueNames(es)
    requires Unvisited(es, snap, i)
    requires WellFormed(es) && UnpackOk(env)
    ensures WellFormed(SortEntries(env, here, es, snap, i).after)
    decreases snap, |snap| - i, 2
  {
    if i < |snap| {
      SortEntriesStepOk(env, here, es, snap, i);
    }
  }

  lemma {:induction false} SortEntriesStepOk(env: Env, here: Here, es: seq<Entry>, snap: seq<Entry>, i: nat)
    requires i < |snap| && WellFormed(snap) && UniqueNames(es)
    requires Unvisited(es, snap, i)
    requires WellFormed(es) && UnpackOk(env)
    ensures WellFormed(SortEntries(env, here, es, snap, i).after)
    decreases snap, |snap| - i, 1
  {
    var step := Visit(env, here, es, snap, i);
    VisitOk(env, here, es, snap, i);
    SortEntriesNext(env, here, es, snap, i);
    if step.raised.None? {
      SortEntriesOk(env, here, step.after, snap, i + 1);
    }
  }

  /** `sort_folder` leaves a well-formed directory well formed. */
  lemma SortFolderOk(env: Env, here: Here, es: seq<Entry>)
    requires WellFormed(es) && UnpackOk(env)
    ensures WellFormed(SortFolder(env, here, es).after)
  {
    SortEntriesOk(env, here, es, es, 0);
  }
}

=== FILE: text.dfy ===
/**
 Python string primitives the bot relies on: `str.split()`, `str.strip()`,
 `" ".join(...)`, `str.lower()`, the `in` substring test and `str.isdigit()`.

 Python's character classes and case mapping follow the full Unicode tables.
 Those tables are not written out here: they are a parameter `u: Unicode`, and
 `Sane(u)` states everything the model relies on, namely that on ASCII the
 tables agree with the ASCII definitions.
 */
module Text {

  /** The Unicode tables, as the interpreter would supply them. */
  datatype Unicode = Unicode(
    isWord: char -> bool,      // `\w` of a `re` pattern over str
    isDecimal: char -> bool,   // `\d`, and the digits `int` accepts
    isDigit: char -> bool,     // `str.isdigit`: the decimal digits and others, such as '²'
    digitValue: char -> nat,   // the value `int` gives a decimal digit
    isSpace: char -> bool,     // the whitespace `str.split()` and `str.strip()` drop
    isPrintable: char -> bool, // `str.isprintable`, which decides what `repr` escapes
    lower: char -> string)     // `str.lower` of a character taken on its own

  predicate IsAscii(c: char) { c as int < 128 }
  predicate IsAsciiLetter(c: char) { 'a' <= c <= 'z' || 'A' <= c <= 'Z' }
  predicate IsAsciiDigit(c: char) { '0' <= c <= '9' }
  predicate IsAsciiWord(c: char) { IsAsciiLetter(c) || IsAsciiDigit(c) || c == '_' }
  /** ASCII whitespace as Python's `str.isspace` sees it: tab to carriage return,
      the four separators 0x1C-0x1F, and space. */
  predicate IsAsciiSpace(c: char) { c == ' ' || 9 <= c as int <= 13 || 28 <= c as int <= 31 }

  function AsciiLower(c: char): (r: char)
    ensures IsAscii(c) ==> IsAscii(r)
    ensures 'A' <= c <= 'Z' ==> 'a' <= r <= 'z' && r as int == c as int + 32
    ensures !('A' <= c <= 'Z') ==> r == c
  {
    if 'A' <= c <= 'Z' then (c as int + 32) as char else c
  }

  /** What the model assumes of the Unicode tables: agreement with ASCII on ASCII,
      every decimal digit also a digit for `str.isdigit`, decimal digits worth
      less than ten, and no character except '.' whose lower-case form contains
      a '.'. */
  predicate Sane(u: Unicode) {
    && (forall c: char :: IsAscii(c) ==> (u.isWord(c) <==> IsAsciiWord(c)))
    && (forall c: char :: IsAscii(c) ==> (u.isDecimal(c) <==> IsAsciiDigit(c)))
    && (forall c: char :: IsAscii(c) ==> (u.isDigit(c) <==> IsAsciiDigit(c)))
    && (forall c: char :: u.isDecimal(c) ==> u.isDigit(c))
    && (forall c: char :: IsAsciiDigit(c) ==> u.digitValue(c) == c as int - '0' as int)
    && (forall c: char :: u.isDecimal(c) ==> u.digitValue(c) < 10)
    && (forall c: char :: IsAscii(c) ==> (u.isSpace(c) <==> IsAsciiSpace(c)))
    && (forall c: char :: IsAscii(c) ==> (u.isPrintable(c) <==> 0x20 <= c as int < 0x7f))
    && LowersAscii(u)
    && (forall c: char :: c != '.' ==> '.' !in u.lower(c))
  }

  /** The table's lower case of an ASCII character is its ASCII lower case. */
  predicate LowersAscii(u: Unicode) {
    forall c: char :: IsAscii(c) ==> u.lower(c) == [AsciiLower(c)]
  }

  /** The tables restricted to ASCII: every non-ASCII character is a non-word,
      non-digit, non-space, non-printable character that is its own lower case. */
  function AsciiTables(): (u: Unicode)
    ensures Sane(u)
  {
    Unicode(
      c => IsAsciiWord(c),
      c => IsAsciiDigit(c),
      c => IsAsciiDigit(c),
      c => if IsAsciiDigit(c) then c as int - '0' as int else 0,
      c => IsAsciiSpace(c),
      c => 0x20 <= c as int < 0x7f,
      c => [AsciiLower(c)])
  }

  // ---------------------------------------------------------------------------
  // str.lower

  /** `s.lower()`, character by character. Python lowers a capital sigma that
      ends a word to 'ς' rather than 'σ'; that rule looks at the neighbours of
      the character and is outside this definition. */
  function Lower(u: Unicode, s: string): (r: string)
  {
    if s == [] then [] else u.lower(s[0]) + Lower(u, s[1..])
  }

  lemma {:induction false} LowerAppend(u: Unicode, a: string, b: string)
    ensures Lower(u, a + b) == Lower(u, a) + Lower(u, b)
  {
    if a == [] {
      assert a + b == b;
    } else {
      assert (a + b)[1..] == a[1..] + b;
      LowerAppend(u, a[1..], b);
    }
  }

  /** On ASCII text `Lower` is the character-wise ASCII lower case. */
  lemma {:induction false} LowerAscii(u: Unicode, s: string)
    requires LowersAscii(u)
    requires forall i :: 0 <= i < |s| ==> IsAscii(s[i])
    ensures |Lower(u, s)| == |s|
    ensures forall i :: 0 <= i < |s| ==> Lower(u, s)[i] == AsciiLower(s[i])
  {
    if s != [] {
      LowerAscii(u, s[1..]);
    }
  }

  /** Lower-case ASCII words, such as the commands the loops ask for, are their
      own lower case. */
  lemma LowerWord(u: Unicode, s: string)
    requires Sane(u)
    requires forall i :: 0 <= i < |s| ==> 'a' <= s[i] <= 'z'
    ensures Lower(u, s) == s
  {
    LowerAscii(u, s);
  }

  /** Lower-casing neither creates nor removes a '.'. */
  lemma {:induction false} LowerKeepsDots(u: Unicode, s: string)
    requires Sane(u)
    ensures CountChar(Lower(u, s), '.') == CountChar(s, '.')
  {
    if s != [] {
      LowerKeepsDots(u, s[1..]);
      CountCharAppend(u.lower(s[0]), Lower(u, s[1..]), '.');
      if s[0] != '.' {
        CountCharAbsent(u.lower(s[0]), '.');
      }
      assert s == [s[0]] + s[1..];
      CountCharAppend([s[0]], s[1..], '.');
    }
  }

  function CountChar(s: string, c: char): nat
  {
    if s == [] then 0 else (if s[0] == c then 1 else 0) + CountChar(s[1..], c)
  }

  lemma {:induction false} CountCharAppend(a: string, b: string, c: char)
    ensures CountChar(a + b, c) == CountChar(a, c) + CountChar(b, c)
  {
    if a == [] {
      assert a + b == b;
    } else {
      assert (a + b)[1..] == a[1..] + b;
      CountCharAppend(a[1..], b, c);
    }
  }

  lemma {:induction false} CountCharAbsent(s: string, c: char)
    requires c !in s
    ensures CountChar(s, c) == 0
  {
    if s != [] {
      CountCharAbsent(s[1..], c);
    }
  }

  // ---------------------------------------------------------------------------
  // " ".join(...)

  function Join(parts: seq<string>, sep: string): string
  {
    if parts == [] then []
    else if |parts| == 1 then parts[0]
    else parts[0] + sep + Join(parts[1..], sep)
  }

  // ---------------------------------------------------------------------------
  // str.strip()

  function StripStart(u: Unicode, s: string): (r: string)
    ensures |r| <= |s| && r == s[|s| - |r|..]
    ensures r == [] || !u.isSpace(r[0])
    ensures forall k :: 0 <= k < |s| - |r| ==> u.isSpace(s[k])
  {
    if s != [] && u.isSpace(s[0]) then
      var r := StripStart(u, s[1..]);
      assert s[1..][|s| - 1 - |r|..] == s[|s| - |r|..];
      assert forall k :: 1 <= k < |s| - |r| ==> s[k] == s[1..][k - 1];
      r
    else s
  }

  function StripEnd(u: Unicode, s: string): (r: string)
    ensures |r| <= |s| && r == s[..|r|]
    ensures r == [] || !u.isSpace(r[|r| - 1])
    ensures forall k :: |r| <= k < |s| ==> u.isSpace(s[k])
  {
    if s != [] && u.isSpace(s[|s| - 1]) then StripEnd(u, s[..|s| - 1]) else s
  }

  predicate AllSpace(u: Unicode, s: string) {
    forall k :: 0 <= k < |s| ==> u.isSpace(s[k])
  }

  /** `str.strip()`: `s` with the whitespace at both ends dropped, and nothing else. */
  function Strip(u: Unicode, s: string): (r: string)
    ensures exists i :: 0 <= i <= |s| - |r| && IsPrefix(r, s[i..]) && AllSpace(u, s[..i]) && AllSpace(u, s[i + |r|..])
    ensures r == [] || (!u.isSpace(r[0]) && !u.isSpace(r[|r| - 1]))
  {
    var t := StripStart(u, s);
    var r := StripEnd(u, t);
    var i := |s| - |t|;
    LeadingSpace(u, s);
    TrailingSpace(u, t);
    assert s[i..] == t && s[i + |r|..] == t[|r|..];
    r
  }

  lemma LeadingSpace(u: Unicode, s: string)
    ensures AllSpace(u, s[..|s| - |StripStart(u, s)|])
  {
    var i := |s| - |StripStart(u, s)|;
    forall k | 0 <= k < i
      ensures u.isSpace(s[..i][k])
    {
      assert s[..i][k] == s[k];
    }
  }

  lemma TrailingSpace(u: Unicode, t: string)
    ensures AllSpace(u, t[|StripEnd(u, t)|..])
  {
    var n := |StripEnd(u, t)|;
    forall k | 0 <= k < |t| - n
      ensures u.isSpace(t[n..][k])
    {
      assert t[n..][k] == t[n + k];
    }
  }

  // ---------------------------------------------------------------------------
  // str.split()

  /** Whitespace-separated tokens of `s`; `word` is the token being read. */
  function SplitFrom(u: Unicode, s: string, word: string): seq<string>
  {
    if s == [] then (if word == [] then [] else [word])
    else if u.isSpace(s[0]) then (if word == [] then [] else [word]) + SplitFrom(u, s[1..], [])
    else SplitFrom(u, s[1..], word + [s[0]])
  }

  /** `str.split()` with no argument. */
  function Split(u: Unicode, s: string): seq<string>
  {
    SplitFrom(u, s, [])
  }

  predicate NoSpace(u: Unicode, s: string) {
    forall k :: 0 <= k < |s| ==> !u.isSpace(s[k])
  }

  /** A well-formed token list: every token non-empty and free of whitespace. */
  predicate Tokens(u: Unicode, ts: seq<string>) {
    forall j :: 0 <= j < |ts| ==> ts[j] != [] && NoSpace(u, ts[j])
  }

  function Concat(ts: seq<string>): string
  {
    if ts == [] then [] else ts[0] + Concat(ts[1..])
  }

  /** The characters of `s` that are not whitespace, in order. */
  function NonSpace(u: Unicode, s: string): string
  {
    if s == [] then [] else (if u.isSpace(s[0]) then [] else [s[0]]) + NonSpace(u, s[1..])
  }

  lemma {:induction false} SplitFromTokens(u: Unicode, s: string, word: string)
    requires NoSpace(u, word)
    ensures Tokens(u, SplitFrom(u, s, word))
    ensures Concat(SplitFrom(u, s, word)) == word + NonSpace(u, s)
  {
    if s == [] {
      assert word + NonSpace(u, s) == word;
      if word != [] {
        assert Concat([word]) == word + Concat([]);
      }
    } else if u.isSpace(s[0]) {
      SplitFromTokens(u, s[1..], []);
      var rest := SplitFrom(u, s[1..], []);
      assert NonSpace(u, s) == NonSpace(u, s[1..]);
      if word == [] {
        assert [] + rest == rest;
        assert word + NonSpace(u, s) == NonSpace(u, s);
      } else {
        assert Concat([word] + rest) == word + Concat(rest) by {
          assert ([word] + rest)[1..] == rest;
        }
      }
      assert [] + NonSpace(u, s[1..]) == NonSpace(u, s[1..]);
    } else {
      SplitFromTokens(u, s[1..], word + [s[0]]);
      assert word + [s[0]] + NonSpace(u, s[1..]) == word + ([s[0]] + NonSpace(u, s[1..]));
    }
  }

  /** Every token of `str.split()` is non-empty and whitespace-free, and together
      they hold exactly the non-whitespace characters of the input, in order. */
  lemma SplitTokens(u: Unicode, s: string)
    ensures Tokens(u, Split(u, s))
    ensures Concat(Split(u, s)) == NonSpace(u, s)
  {
    SplitFromTokens(u, s, []);
    assert [] + NonSpace(u, s) == NonSpace(u, s);
  }

  /** `str.split()` yields nothing exactly when the text is blank. */
  lemma {:induction false} SplitEmptyIffBlank(u: Unicode, s: string)
    ensures Split(u, s) == [] <==> NonSpace(u, s) == []
  {
    SplitTokens(u, s);
    var ts := Split(u, s);
    if ts != [] {
      assert ts[0] != [];
      assert Concat(ts) == ts[0] + Concat(ts[1..]);
    }
  }

  lemma {:induction false} SplitFromSpaceFree(u: Unicode, t: string, rest: string, word: string)
    requires NoSpace(u, t)
    ensures SplitFrom(u, t + rest, word) == SplitFrom(u, rest, word + t)
  {
    if t != [] {
      assert (t + rest)[0] == t[0];
      assert (t + rest)[1..] == t[1..] + rest;
      SplitFromSpaceFree(u, t[1..], rest, word + [t[0]]);
      assert word + [t[0]] + t[1..] == word + t;
    } else {
      assert t + rest == rest;
      assert word + t == word;
    }
  }

  /** Round trip: joining well-formed tokens with single spaces and splitting
      again gives the tokens back. */
  lemma {:induction false} SplitJoin(u: Unicode, ts: seq<string>)
    requires Sane(u)
    requires Tokens(u, ts)
    ensures Split(u, Join(ts, " ")) == ts
  {
    if ts == [] {
    } else if |ts| == 1 {
      SplitFromSpaceFree(u, ts[0], [], []);
      assert ts[0] + [] == ts[0];
      assert [] + ts[0] == ts[0];
    } else {
      assert u.isSpace(' ');
      var rest := Join(ts[1..], " ");
      assert Join(ts, " ") == ts[0] + (" " + rest);
      SplitFromSpaceFree(u, ts[0], " " + rest, []);
      assert [] + ts[0] == ts[0];
      assert (" " + rest)[1..] == rest;
      SplitJoin(u, ts[1..]);
      assert ts == [ts[0]] + ts[1..];
    }
  }

  // ---------------------------------------------------------------------------
  // The `in` operator on strings

  predicate IsPrefix(p: string, s: string) {
    |p| <= |s| && s[..|p|] == p
  }

  /** A prefix stays a prefix when text is appended. */
  lemma PrefixExtends(p: string, s: string, t: string)
    requires IsPrefix(p, s)
    ensures IsPrefix(p, s + t)
  {
    assert (s + t)[..|p|] == s[..|p|];
  }

  /** `s.endswith(suffix)`. */
  predicate EndsWith(s: string, suffix: string) {
    |suffix| <= |s| && s[|s| - |suffix|..] == suffix
  }

  /** `needle in hay`, as a definition: `needle` starts at some position of `hay`. */
  ghost predicate Occurs(needle: string, hay: string) {
    exists i :: 0 <= i <= |hay| && IsPrefix(needle, hay[i..])
  }

  /** Text before a string keeps what occurs in it. */
  lemma OccursPrepend(needle: string, a: string, hay: string)
    requires Occurs(needle, hay)
    ensures Occurs(needle, a + hay)
  {
    var i :| 0 <= i <= |hay| && IsPrefix(needle, hay[i..]);
    assert (a + hay)[|a| + i..] == hay[i..];
  }

  /** Text after a string keeps what occurs in it. */
  lemma OccursAppend(needle: string, hay: string, b: string)
    requires Occurs(needle, hay)
    ensures Occurs(needle, hay + b)
  {
    var i :| 0 <= i <= |hay| && IsPrefix(needle, hay[i..]);
    assert (hay + b)[i..][..|needle|] == hay[i..][..|needle|];
  }

  lemma OccursWhole(s: string)
    ensures Occurs(s, s)
  {
    assert IsPrefix(s, s[0..]);
  }

  /** `needle in hay`, computed by trying every start position. */
  function Contains(needle: string, hay: string): (r: bool)
    ensures r <==> Occurs(needle, hay)
  {
    if IsPrefix(needle, hay) then
      assert IsPrefix(needle, hay[0..]);
      true
    else if hay == [] then
      false
    else
      var r := Contains(needle, hay[1..]);
      assert r ==> Occurs(needle, hay) by {
        if r {
          var i :| 0 <= i <= |hay[1..]| && IsPrefix(needle, hay[1..][i..]);
          assert hay[1..][i..] == hay[i + 1..];
        }
      }
      assert Occurs(needle, hay) ==> r by {
        if Occurs(needle, hay) {
          assert hay[0..] == hay;
          var i :| 0 <= i <= |hay| && IsPrefix(needle, hay[i..]);
          assert hay[1..][i - 1..] == hay[i..];
        }
      }
      r
  }

  // ---------------------------------------------------------------------------
  // str.isdigit() and int()

  /** `s.isdigit()`: non-empty and made of digits. */
  predicate IsDigits(u: Unicode, s: string) {
    |s| > 0 && forall k :: 0 <= k < |s| ==> u.isDigit(s[k])
  }

  /** `int(s)` accepts a string of digits exactly when they are all decimal. */
  predicate IsDecimals(u: Unicode, s: string) {
    |s| > 0 && forall k :: 0 <= k < |s| ==> u.isDecimal(s[k])
  }

  /** `int(s)` for a string of decimal digits. */
  function DigitsValue(u: Unicode, s: string): nat
  {
    if s == [] then 0 else DigitsValue(u, s[..|s| - 1]) * 10 + u.digitValue(s[|s| - 1])
  }

  /** Decimal text of a natural number, as `str(n)` writes it. */
  function NatToString(n: nat): (r: string)
    ensures |r| > 0 && forall k :: 0 <= k < |r| ==> IsAsciiDigit(r[k])
  {
    if n < 10 then [Digit(n)] else NatToString(n / 10) + [Digit(n % 10)]
  }

  function Digit(d: nat): (c: char)
    requires d < 10
    ensures IsAsciiDigit(c) && c as int - '0' as int == d
  {
    ('0' as int + d) as char
  }

  /** `int(str(n)) == n`. */
  lemma {:induction false} NatToStringValue(u: Unicode, n: nat)
    requires Sane(u)
    ensures DigitsValue(u, NatToString(n)) == n
  {
    var s := NatToString(n);
    if n < 10 {
      assert s[..|s| - 1] == [];
    } else {
      assert s[..|s| - 1] == NatToString(n / 10);
      NatToStringValue(u, n / 10);
    }
  }

  /** `str(n)` left-padded with zeros to `width` digits, as `%0Nd` does. */
  function ZeroPad(n: nat, width: nat): (r: string)
    ensures |r| >= width
  {
    var s := NatToString(n);
    if |s| >= width then s else seq(width - |s|, _ => '0') + s
  }
}

=== FILE: tree.dfy ===
/**
 The directory tree the sorter walks. A directory is the sequence of its
 entries in `os.listdir` order; a file is its bytes. All operations are
 pure: they return the new sequence of entries.
 */
module Tree {
  import opened Errors

  newtype Byte = x: int | 0 <= x < 256

  datatype Node = File(content: seq<Byte>) | Dir(entries: seq<Entry>)
  datatype Entry = Entry(name: string, node: Node)

  /** Names in a directory are pairwise distinct, as on a real filesystem. */
  predicate UniqueNames(es: seq<Entry>) {
    forall i, j :: 0 <= i < j < |es| ==> es[i].name != es[j].name
  }

  function Lookup(es: seq<Entry>, n: string): (r: Option<Node>)
    ensures r.Some? ==> exists i :: 0 <= i < |es| && es[i] == Entry(n, r.value)
    ensures r.None? ==> forall i :: 0 <= i < |es| ==> es[i].name != n
  {
    if es == [] then None
    else if es[0].name == n then Some(es[0].node)
    else
      var r := Lookup(es[1..], n);
      assert r.Some? ==> es[1..][0..] == es[1..];
      r
  }

  /** `os.path.exists` of a child. */
  predicate Has(es: seq<Entry>, n: string) {
    Lookup(es, n).Some?
  }

  predicate IsDirAt(es: seq<Entry>, n: string) {
    Lookup(es, n).Some? && Lookup(es, n).value.Dir?
  }

  /** Creates the entry `n`, or replaces it in place when it exists. */
  function Put(es: seq<Entry>, n: string, x: Node): (r: seq<Entry>)
    ensures forall k :: Lookup(r, k) == if k == n then Some(x) else Lookup(es, k)
    ensures forall i :: 0 <= i < |r| ==> r[i] == Entry(n, x) || r[i] in es
    ensures UniqueNames(es) ==> UniqueNames(r)
  {
    if es == [] then [Entry(n, x)]
    else if es[0].name == n then
      var r := [Entry(n, x)] + es[1..];
      assert r[1..] == es[1..];
      r
    else
      var rest := Put(es[1..], n, x);
      assert UniqueNames(es) ==> forall j :: 0 <= j < |rest| ==> rest[j].name != es[0].name by {
        if UniqueNames(es) {
          forall j | 0 <= j < |rest|
            ensures rest[j].name != es[0].name
          {
            if rest[j] != Entry(n, x) {
              var k :| 0 <= k < |es[1..]| && es[1..][k] == rest[j];
              assert es[k + 1] == rest[j];
            }
          }
        }
      }
      var r := [es[0]] + rest;
      assert r[1..] == rest;
      r
  }

  /** Deletes the entry `n`, if any. */
  function Remove(es: seq<Entry>, n: string): (r: seq<Entry>)
    ensures forall k :: Lookup(r, k) == if k == n then None else Lookup(es, k)
    ensures forall i :: 0 <= i < |r| ==> r[i] in es && r[i].name != n
    ensures UniqueNames(es) ==> UniqueNames(r)
  {
    if es == [] then []
    else if es[0].name == n then Remove(es[1..], n)
    else
      var r := [es[0]] + Remove(es[1..], n);
      assert r[1..] == Remove(es[1..], n);
      r
  }

  /** With distinct names, every entry is what `Lookup` finds under its name. */
  lemma LookupEntry(es: seq<Entry>, i: nat)
    requires UniqueNames(es) && i < |es|
    ensures Lookup(es, es[i].name) == Some(es[i].node)
  {
    var r := Lookup(es, es[i].name);
  }

  /** The same, for every entry at once. */
  lemma LookupEntries(es: seq<Entry>)
    requires UniqueNames(es)
    ensures forall i :: 0 <= i < |es| ==> Lookup(es, es[i].name) == Some(es[i].node)
  {
    forall i | 0 <= i < |es|
      ensures Lookup(es, es[i].name) == Some(es[i].node)
    {
      LookupEntry(es, i);
    }
  }
}
